=== FILE: README.md ===
# sc-flow v2 core in Dafny

A Dafny model of the sequential core of the sc-flow v2 backend, a LangGraph agent
application that classifies documents against a security classification guide
(SCG). The model covers these parts:

- **Checkpoint store** (`checkpoint_store.dfy`). This is the asynchronous CosmosDB/MongoDB
  saver (`aget_tuple`, `alist`, `aput`, `aput_writes`), modelled as two finite maps:
  - checkpoints keyed by (thread, namespace, checkpoint id);
  - pending writes keyed by (thread, namespace, checkpoint id, task, idx).

  Checkpoint ids are ordered lexicographically (`lex_order.dfy`), as MongoDB sorts
  strings.
- **State schema and reducers** (`agent_state.dfy`). This covers the graph channels
  and the update a node returns. `Merge` applies the declared reducers:
  - `add_messages` replaces a message with the same id, or else appends;
  - `last_user_message` and `next_agent` take the newer value;
  - `ctx_doc`, `datasets` and `task` are overwritten;
  - `logs` and `classification_analysis` are concatenated.
- **Graph** (`graph.dfy`). This covers the 17 nodes of `_build_workflow`, its edges and
  the two routing tables, routing from the merged state, and `get_or_build_graph`.
- **Nodes**:
  - the orchestrator and its scatter (`orchestrator.dfy`);
  - the three evaluators (`evaluators.dfy`);
  - `classifier_authority` and the standalone `evaluator` (`classifier_authority.dfy`);
  - the dataset/indexing chain (`document_processors.dfy`);
  - the router proxy and `get_current_doc` (`user_proxy.dfy`);
  - the SCG analyst (`scg_handler.dfy`).
- **Ingest and graph helpers**:
  - `_make_doc` and the URL handling of `process_doc` (`process_doc.dfy`);
  - `prepare_string` and `process_community` (`community.dfy`).
- **Configuration**. The provider enums and the `from_env` records (`data_model.dfy`).
  The environment-map functions `_set_if_undefined`, `_populate_model` and
  `_set_env_vars`, and the provider dispatch (`generators.dfy`).
- **Shared helpers**. Python's `str.split`/`str.join` on one separator (`strings.dfy`).
  Option, Result and the Python exceptions the core raises (`wrappers.dfy`).
  Two concatenation facts used in the proofs (`seqs.dfy`).

External services are parameters, never modelled:
- the LLM chains, the search index, the dataset registry, the job submitter and
  the PDF reader;
- the password prompt, an oracle from prompt text to answer;
- fresh message ids (`uuid`), a given string.

A node is a function from its input state to the dict it returns (`Update`). A
node that returns its mutated input returns every channel of its input type:
`StateView`, `DatasetsView` or `ExpertView`. Merged under `operator.add`, such a
return appends the state's logs to themselves. The lemmas state this rather
than hide it. They state it with value semantics: a node that appends `a` to logs
`L` returns `L + a`, and the merge gives `L + (L + a)`. In the program the node
holds the channel's own list, so the in-place append changes `L` itself and the
merge gives `(L + a) + (L + a)` (see the aliasing line under "Left out").

The runtime applies the dicts of one step together (`ApplyStep`). A channel
declared without a reducer (`ctx_doc`, `datasets`, `task`) accepts one write per
step and raises InvalidUpdateError on a second. Every step outside the scatter has
a single task, and there `ApplyStep` is `Merge` (`SingleUpdateStep`). The scatter's
step is where the difference shows.

## Model

| member | source | states |
|---|---|---|
| CheckpointStore.NewestFirst | v2/sc_flow/utils/checkpoint/aio.py:146-148 | The `sort=[("checkpoint_id", -1)]` order is a permutation of the keys: same keys, same count, every earlier key newer than every later one. |
| CheckpointStore.ParentOf | v2/sc_flow/utils/checkpoint/aio.py:169-179 | `parent_config` is None iff the stored parent id is absent or empty; otherwise it has the record's thread and namespace and the parent id. |
| CheckpointStore.WritesAt | v2/sc_flow/utils/checkpoint/aio.py:156-164 | The pending writes of a tuple are exactly those stored under the same thread, namespace and checkpoint id, with their stored values. |
| CheckpointStore.TupleOf | v2/sc_flow/utils/checkpoint/aio.py:165-181 | A returned tuple carries the stored checkpoint, metadata, parent link and that checkpoint's own pending writes. |
| CheckpointStore.GetTuple | v2/sc_flow/utils/checkpoint/aio.py:135-181 | A missing thread_id raises KeyError, and a missing namespace defaults to "". With a checkpoint id, the result is the record with exactly that key, or None. Without one, it is the record with the greatest id of that thread and namespace, None iff there is none. |
| CheckpointStore.Limited | v2/sc_flow/utils/checkpoint/aio.py:219-221 | A limit of None (sent as 0) or 0 keeps everything. Otherwise the first min(limit, n) items are kept, as a prefix. |
| CheckpointStore.ListedKeys | v2/sc_flow/utils/checkpoint/aio.py:205-221 | The listing holds only matching keys, newest first, min(limit, matches) of them or all when unlimited. Every matching key left out is older than every key listed. |
| CheckpointStore.List | v2/sc_flow/utils/checkpoint/aio.py:183-261 | `alist` raises KeyError iff `before` has no checkpoint id. Otherwise it yields, in order, the tuple of each listed key. |
| CheckpointStore.ListStrictlyDescending | v2/sc_flow/utils/checkpoint/aio.py:219-221 | Within one thread and namespace the listed ids strictly descend. |
| CheckpointStore.ListMatchesQuery | v2/sc_flow/utils/checkpoint/aio.py:205-217 | Every listed tuple meets the query. Thread and namespace must match only when the config carries them, so a missing namespace drops that constraint. Every metadata filter entry must be equal, and the id must be strictly below `before`'s. |
| CheckpointStore.Put | v2/sc_flow/utils/checkpoint/aio.py:284-309 | `aput` raises KeyError iff the thread or the namespace is missing. It upserts exactly the key (thread, ns, checkpoint id) with the incoming config's id as parent. Every other record and all pending writes are unchanged. The returned config names the new checkpoint. |
| CheckpointStore.PutIdempotent | v2/sc_flow/utils/checkpoint/aio.py:300-302 | Repeating an identical put leaves the store as one put left it. |
| CheckpointStore.PutThenGet | v2/sc_flow/utils/checkpoint/aio.py:303-309 | Reading with the config a put returns yields exactly the checkpoint, metadata and parent link that were put. |
| CheckpointStore.PutIsolation | v2/sc_flow/utils/checkpoint/aio.py:294-302 | A put on one thread changes nothing that a read on another thread sees. |
| CheckpointStore.PutNewestIsLatest | v2/sc_flow/utils/checkpoint/aio.py:137-148 | A put with an id above every id of its thread and namespace becomes what a read without checkpoint id returns. |
| CheckpointStore.ApplyOps | v2/sc_flow/utils/checkpoint/aio.py:342-355 | An ordered bulk upsert covers the union of old and batch keys. With `$set`, each batch key holds its last write. With `$setOnInsert`, existing keys are untouched and new keys hold their first write. |
| CheckpointStore.PutWrites | v2/sc_flow/utils/checkpoint/aio.py:326-355 | `aput_writes` raises KeyError when thread, namespace or checkpoint id is missing. A complete config with an empty batch reaches `bulk_write([])`, which raises InvalidOperation. These are the only failures. Each write is keyed by (thread, ns, id, task, idx), where idx is the special index or else the position. If every channel is special, existing writes are overwritten. Otherwise existing writes are untouched and only missing keys are inserted. Checkpoints are unchanged. |
| CheckpointStore.PutWritesIdempotent | v2/sc_flow/utils/checkpoint/aio.py:329-355 | Storing the same batch twice equals storing it once. |
| CheckpointStore.PutWritesIsolation | v2/sc_flow/utils/checkpoint/aio.py:334-339 | A batch changes the pending writes of no other checkpoint. |
| Evaluators.KeptIffDeclared | v2/sc_flow/agents/state.py:43-46 | A label is kept by some evaluator iff it is one of the four the hint declares. The hint is not enforced, so any other string the chain returns is kept by no evaluator and the decision is dropped without an error. |
| AgentState.AddMessagesAppend | v2/sc_flow/agents/state.py:16 | The `add_messages` reducer of the inherited messages channel: merging a then b equals merging a + b. |
| AgentState.AddMessagesKnown | v2/sc_flow/agents/state.py:16 | Re-adding messages already present (ids unique) changes nothing. |
| AgentState.AddMessagesKeepsIdsUnique | v2/sc_flow/agents/state.py:16 | The reducer keeps message ids unique. |
| AgentState.AddMessageFresh | v2/sc_flow/agents/state.py:16 | A message with a new id is appended at the end. |
| AgentState.AddMessagesExtend | v2/sc_flow/agents/state.py:16 | Handing back the history plus one new message appends only that message. |
| AgentState.MergeTwice | v2/sc_flow/agents/state.py:18-21 | Over two merges, `logs` and `classification_analysis` keep the old value as a prefix and add up, so concatenation is associative with identity []. `last_user_message`, `next_agent` and `ctx_doc` hold the newest value written. |
| AgentState.MergeCommutes | v2/sc_flow/agents/state.py:51-57 | Updates that write disjoint channels merge in either order to the same state. |
| AgentState.MergeOwnView | v2/sc_flow/agents/state.py:21 | A whole-state return leaves every channel unchanged except the concatenated ones, which double. |
| AgentState.ApplyStep | v2/sc_flow/agents/state.py:51-57 | A step fails iff two of its updates write the same channel without a reducer, and then with InvalidUpdateError naming such a channel; `ctx_doc` written twice fails on `ctx_doc`. Otherwise the updates are merged in task order. |
| AgentState.WriteCountTwice | v2/sc_flow/agents/state.py:20 | The runtime's per-channel write count exceeds one exactly when two updates of the step write the channel. |
| AgentState.SingleUpdateStep | v2/sc_flow/agents/state.py:16-21 | A step with one task applies its update exactly as `Merge` does. |
| Graph.EdgesDescend | v2/sc_flow/agents/graph.py:47-85 | Every edge lowers a height measure, so the edge set is acyclic. |
| Graph.OnlyEndIsFinal | v2/sc_flow/agents/graph.py:47-85 | END is the only node without successors. |
| Graph.PathDescends | v2/sc_flow/agents/graph.py:47-85 | Along any path the height falls by at least one per step. |
| Graph.EveryRunEnds | v2/sc_flow/agents/graph.py:47-85 | Every maximal path from START ends at END, after at most 8 nodes. |
| Graph.ProxyTable | v2/sc_flow/agents/graph.py:47-59 | START's only successor is `user_proxy`. The proxy table has exactly six labels, and exactly "default" and "user_proxy" go to END. |
| Graph.AvailableAgentsRoutable | v2/sc_flow/agents/user_proxy/prompt.py:6-10 | Every label offered to the router is a key of the proxy table. The table also routes "user_proxy", which is not offered. |
| Graph.TaskLabelMismatch | v2/sc_flow/agents/graph.py:73-80 | The declared task "index_document" has no route. The routed "ingest_document" is not a declared task. Only "index_scg" is both. |
| Graph.Route | v2/sc_flow/agents/graph.py:48-85 | Routing after a node picks only successors. It fails iff the proxy's `next_agent` or the confirmation's `task` is not in its table. |
| Graph.ClassificationRoute | v2/sc_flow/agents/graph.py:48-64 | A classification request goes orchestrator, then the three evaluators, then the authority, then END. |
| Graph.IndexingRoutes | v2/sc_flow/agents/graph.py:66-85 | Both indexing branches pass through the listing, `present_available_data` and `confirm_with_user`. The confirmation routes "index_scg" and "ingest_document" only. The four terminal nodes go to END. |
| Graph.BuildGraph | v2/sc_flow/agents/graph.py:88-94 | The compiled graph uses a new in-memory saver iff no saver is given. |
| Graph.NeverCached | v2/sc_flow/agents/graph.py:14-20 | Starting from `graph = None`, every call builds a fresh graph on its own saver argument, and the module variable stays None. |
| Orchestrator.ClassifierOrchestrator | v2/sc_flow/agents/evaluators/orchestrator.py:7-8 | The returned dict is the input's channels with `classification_analysis = []`. |
| Orchestrator.OrchestratorDoesNotReset | v2/sc_flow/agents/evaluators/orchestrator.py:7-8 | Under concatenation the `[]` leaves the analysis as it was. The merged state differs from the input only in doubled logs. |
| Orchestrator.AgentScatter | v2/sc_flow/agents/evaluators/orchestrator.py:10-12 | Exactly three sends, to ts, s and unclass evaluator in that order, each carrying the unmodified state. |
| Orchestrator.ScatterTargets | v2/sc_flow/agents/evaluators/orchestrator.py:10-12 | The send targets have no duplicates and are exactly the orchestrator's successors in the graph. |
| Orchestrator.GatherShape | v2/sc_flow/agents/graph.py:61-64 | Under the copied-payload, send-order merge `Gather`: after the three evaluators join, the analysis is the old analysis, then that analysis plus each evaluator's entry, in send order. The logs have 4n+6 entries, and no other channel changes. |
| Orchestrator.GatherFirstRun | v2/sc_flow/agents/graph.py:61-64 | Under `Gather`, from an empty analysis, the join leaves exactly one entry per evaluator, under three distinct names. |
| Orchestrator.ClassificationTurnAnalysis | v2/sc_flow/agents/evaluators/orchestrator.py:7-12 | Under `Gather`, over the whole branch the earlier analysis occurs four times, once before and once ahead of each new entry. A first run yields exactly three entries. |
| Orchestrator.GatherStepConflicts | v2/sc_flow/agents/evaluators/evaluators.py:72 | The step that applies the three evaluators' dicts fails with InvalidUpdateError("ctx_doc"), since each returns its whole input with `ctx_doc`. So does any three dicts that all carry `ctx_doc`, shared lists or not, so `classifier_authority` is never reached. |
| Orchestrator.FixedGatherStepShape | v2/sc_flow/agents/graph.py:61-64 | With evaluators that return only their additions, the step succeeds. It appends one entry per evaluator and its two logs, in send order, and leaves every other channel as it was. |
| Orchestrator.FixedGatherKeepsHistory | v2/sc_flow/agents/evaluators/orchestrator.py:7-8 | After the orchestrator's merge, the corrected gather keeps every earlier entry of the thread ahead of this run's three. |
| Orchestrator.FixedTurnIsFresh | v2/sc_flow/agents/evaluators/orchestrator.py:7-8 | With the reset taking effect and the corrected evaluators, every turn, first or later, leaves exactly this run's three entries, in send order. |
| Evaluators.AcceptsPartition | v2/sc_flow/agents/evaluators/evaluators.py:61-167 | For any returned string, ts keeps only "Top Secret", s only "Secret", unclass "Unclassified" or "CUI". No label is kept by two evaluators. |
| Evaluators.KeptHits | v2/sc_flow/agents/evaluators/evaluators.py:53-62 | Every kept hit is a search hit whose `doc_name` equals `ctx_doc` and whose decision the evaluator's level accepts. |
| Evaluators.Kept | v2/sc_flow/agents/evaluators/evaluators.py:53-62 | Each kept record is an accepted decision plus the content of a matching hit. There are at most as many records as hits. |
| Evaluators.KeptHitsComplete | v2/sc_flow/agents/evaluators/evaluators.py:56-62 | Every matching hit with an accepted decision is kept. |
| Evaluators.KeptComplete | v2/sc_flow/agents/evaluators/evaluators.py:60-62 | Every such hit contributes its record with `original_content` equal to its content. |
| Evaluators.KeptInHitOrder | v2/sc_flow/agents/evaluators/evaluators.py:56-62 | The kept hits are a subsequence of the hits: hit order, at most one record per hit. |
| Evaluators.NoForeignRecords | v2/sc_flow/agents/evaluators/evaluators.py:57-59 | If no hit belongs to the document, no record is kept. |
| Evaluators.Evaluate | v2/sc_flow/agents/evaluators/evaluators.py:21-72 | An evaluator returns its input analysis plus exactly one `(name, records)` pair. Its logs gain two entries with the same message, done=False then done=True. It writes nothing else. |
| Evaluators.EvaluateMerged | v2/sc_flow/agents/evaluators/evaluators.py:64-72 | Under value semantics, once merged, the evaluator's input analysis and logs are appended again before its additions (`L + (L + a)`). The program's in-place append on the channel's own list gives `(L + a) + (L + a)` instead. Nothing outside those two channels changes. |
| Evaluators.EvaluatorAdditions | v2/sc_flow/agents/evaluators/evaluators.py:62-68 | The corrected dict carries only the evaluator's `(name, records)` pair and its two logs, and no other channel. |
| Evaluators.AdditionsAreEvaluateSuffix | v2/sc_flow/agents/evaluators/evaluators.py:21-72 | The additions are exactly what the whole-state dict appends after the channels it was sent. The whole-state dict writes `ctx_doc`, and the additions write no channel without a reducer. |
| ClassifierAuthority.DictOfLastWins | v2/sc_flow/agents/classifier_authority/agent.py:203 | `dict(pairs)` has exactly the pairs' names as keys. Each key maps to the records of its last pair. |
| ClassifierAuthority.DictOfAppend | v2/sc_flow/agents/classifier_authority/agent.py:203 | The dict of a concatenation is the first dict overridden by the second. |
| ClassifierAuthority.Authority | v2/sc_flow/agents/classifier_authority/agent.py:200-219 | A missing `user_query` raises KeyError. On success all three expert names were present. The update is then one assistant message from the chain on the three looked-up record lists, plus `next_agent = "user_proxy"` and the inner logs. |
| ClassifierAuthority.AuthorityAlwaysFails | v2/sc_flow/agents/classifier_authority/agent.py:214 | On the declared state, which has no `user_query`, the node always raises KeyError("user_query"). |
| ClassifierAuthority.LookupNamesAreEvaluatorNames | v2/sc_flow/agents/classifier_authority/agent.py:206-208 | The three looked-up names are exactly the names the evaluators write. |
| ClassifierAuthority.AuthorityAfterGather | v2/sc_flow/agents/classifier_authority/agent.py:203-219 | With the query and logs restored and the corrected evaluators, after every gather, first or later, the node succeeds and passes each evaluator's records from this run. |
| ClassifierAuthority.AuthorityAfterFirstGather | v2/sc_flow/agents/classifier_authority/agent.py:203-219 | Under `Gather`, with the query and logs restored, after a first gather the node succeeds and passes each evaluator's own records. |
| ClassifierAuthority.ResetGatherIsFresh | v2/sc_flow/agents/evaluators/orchestrator.py:7-8 | Under `Gather`, with a reset that takes effect, every run hands the authority the fresh records of all three evaluators. |
| ClassifierAuthority.SecondRunLookupIsStale | v2/sc_flow/agents/classifier_authority/agent.py:203 | Under `Gather`, on a thread's second classification the lookup returns the previous run's top-secret and secret records. Only the unclass entry is fresh. |
| ClassifierAuthority.MatchingContents | v2/sc_flow/agents/classifier_authority/agent.py:260-267 | `evaluator` collects only contents of hits whose `doc_name` is exactly `ctx_doc`. |
| ClassifierAuthority.MatchingContentsComplete | v2/sc_flow/agents/classifier_authority/agent.py:264-267 | Every hit of the document contributes its content. |
| ClassifierAuthority.MatchingContentsInHitOrder | v2/sc_flow/agents/classifier_authority/agent.py:260-267 | The collected contents follow hit order, at most one per hit. |
| ClassifierAuthority.EvaluatorNode | v2/sc_flow/agents/classifier_authority/agent.py:260-273 | `evaluator` returns only `messages`. It holds the chain's one reply to the contents of the document's hits, in search order, joined by "\n". |
| ClassifierAuthority.EvaluatorInputRoundTrip | v2/sc_flow/agents/classifier_authority/agent.py:269 | When no content holds a newline, the "\n"-joined text splits back into exactly the collected contents. |
| DocumentProcessors.GetDatasets | v2/sc_flow/agents/document_processors/agent.py:123-143 | Returns its input with `datasets` set to the whole registry listing, without branching on an empty one, and `task = "index_scg"`. Two "Searching" logs are added, done=False then done=True. |
| DocumentProcessors.PresentDatasets | v2/sc_flow/agents/document_processors/agent.py:89-110 | `messages` is the chain's reply, and one done=False log is added. Every other channel is the input's own, `datasets` and `task` included. |
| DocumentProcessors.Confirmation | v2/sc_flow/agents/document_processors/agent.py:112-117 | `last_user_message` is the resume value and `messages` a human message with it. Every other channel is the input's own. |
| DocumentProcessors.GraphIndexer | v2/sc_flow/agents/document_processors/agent.py:145-157 | `last_user_message` and `messages` carry the same LLM content. Every other channel is the input's own. |
| DocumentProcessors.GraphIndexerMerged | v2/sc_flow/agents/document_processors/agent.py:154-157 | Merged, the content is appended as one human message and becomes `last_user_message`; the logs double and nothing else changes. |
| DocumentProcessors.DocumentIngester | v2/sc_flow/agents/document_processors/agent.py:159-160 | Returning None changes no channel. |
| DocumentProcessors.RunGraphIndexer | v2/sc_flow/agents/document_processors/agent.py:53-86 | One job per selected dataset, in order, submitted with (dataset, version). The final message is the fixed prefix, the job ids joined with ",", and "."; it replaces the chain's response. Two "Submitting" logs are added. Every other channel is the input's own. |
| DocumentProcessors.ConfirmRoutesToIndexer | v2/sc_flow/agents/document_processors/agent.py:139-143 | After listing, presenting and confirming, `task` is "index_scg" and `datasets` the listing. Both indexing branches therefore route to `submit_indexer`. |
| DocumentProcessors.PresentLeavesLogOpen | v2/sc_flow/agents/document_processors/agent.py:92-110 | After the discovery branch, started "Searching" logs outnumber finished ones. |
| UserProxy.GetCurrentDoc | v2/sc_flow/agents/user_proxy/agent.py:15-19 | An empty `UserFileInteractions` table raises IndexError, and nothing else does. A None `file_url` gives "". Otherwise the result is the URL's document name (`DocName`, described by `DocNameIsLastSegment`), which never contains "?" or "/". |
| UserProxy.DocNameIsLastSegment | v2/sc_flow/agents/user_proxy/agent.py:19 | The name is the tail after the last "/" of the text before the first "?", or all of that text when it has no "/". |
| UserProxy.DocNameIdempotent | v2/sc_flow/agents/user_proxy/agent.py:19 | The extraction is idempotent and maps "" to "". |
| UserProxy.UserProxyNode | v2/sc_flow/agents/user_proxy/agent.py:27-57 | The router's chain looks up the current document on every call. An empty interaction table or an empty history raises IndexError, and nothing else fails. Otherwise the update sets `last_user_message` to the last message, holds one new assistant message, and takes `next_agent` and `ctx_doc` from the router. `logs` is []. |
| UserProxy.UserProxyMerged | v2/sc_flow/agents/user_proxy/agent.py:50-57 | Merged, the reply is appended and logs, analysis, datasets and task are unchanged. The next hop is the table entry for the router's label, or a lookup failure. |
| ScgHandler.NewScgAgent | v2/sc_flow/agents/scg_handler/agent.py:16-36 | The constructor stores the LLM and store and builds the chain. |
| ScgHandler.InvokeChain | v2/sc_flow/agents/scg_handler/agent.py:42-51 | Invocation succeeds iff the chain is built, and answers with one assistant message. An unbuilt chain reads as None (v2/sc_flow/agents/base_agent.py:31-34 only logs a warning), so the call fails with AttributeError on `ainvoke`. |
| ScgHandler.ConstructedAgentInvokes | v2/sc_flow/agents/scg_handler/agent.py:23-36 | A constructed agent always has its chain, so invocation never fails. |
| ScgHandler.ScgAnalyst | v2/sc_flow/agents/scg_handler/agent.py:54-67 | The query is `last_user_message.content`. A plain string raises AttributeError. That includes the reducer channel's initial "", so an unwritten channel raises it too. On success one assistant reply is appended and `next_agent` becomes "user_proxy". |
| ScgHandler.ScgAnalystMerged | v2/sc_flow/agents/scg_handler/agent.py:64-67 | Merged, exactly one assistant message is appended and `next_agent` is "user_proxy". Nothing else changes except the logs, which double. |
| ProcessDoc.MakeDoc | v2/sc_flow/agents/aml_handler/processor_component/process_doc.py:13-26 | One document per chunk, in order. Each carries `chunk_number` = position, `source` = the URI, `doc_name` = its last "/" segment, and the chunk's text, tag, page, block index and level. |
| ProcessDoc.FirstMissing | v2/sc_flow/agents/aml_handler/processor_component/process_doc.py:34-53 | Finds the first required variable missing from the environment, or none iff all are set. |
| ProcessDoc.ProcessDocuments | v2/sc_flow/agents/aml_handler/processor_component/process_doc.py:28-56 | A missing or empty DOCUMENT_SAS_URLS raises the KeyError with its message. Otherwise the call succeeds iff every required variable is set. If one is missing, the first missing one in read order raises KeyError. Otherwise there is one batch per ","-separated URL, built from the URL cut at its first "?". |
| ProcessDoc.IngestNamesMatchProxy | v2/sc_flow/agents/aml_handler/processor_component/process_doc.py:54-56 | Stored sources and names contain no "?", and names no "/". Each indexed `doc_name` equals what `get_current_doc` derives from the same URL. |
| Community.Suffix | v2/sc_flow/agents/aml_handler/graph_component/create_graph.py:355-358 | The suffix ", description: D" appears iff the description is present and non-empty. |
| Community.PrepareStringIsLines | v2/sc_flow/agents/aml_handler/graph_component/create_graph.py:350-371 | The output is the node header, one line per node in input order, a blank line, the relationship header, then one line per relationship. Every line ends in "\n". |
| Community.PrepareStringEmpty | v2/sc_flow/agents/aml_handler/graph_component/create_graph.py:351-371 | Empty inputs give exactly "Nodes are:\n\nRelationships are:\n". |
| Community.PrepareStringLines | v2/sc_flow/agents/aml_handler/graph_component/create_graph.py:350-371 | With newline-free fields, splitting the output on "\n" gives back exactly those lines plus a final "", so nodes + relationships + 4 pieces. |
| Community.ProcessCommunity | v2/sc_flow/agents/aml_handler/graph_component/create_graph.py:373-376 | Returns the community id unchanged, paired with the summary of the community's lines, each ended by a newline. With newline-free fields, the summariser's input splits back into exactly those lines plus a final "". |
| Generators.SetIfUndefined | v2/sc_flow/utils/generators.py:12-27 | A set, non-empty value is returned and the environment is unchanged. Otherwise a non-empty default, or else the prompt's answer, is stored and returned. Other variables are untouched. |
| Generators.SetIfUndefinedIdempotent | v2/sc_flow/utils/generators.py:23-27 | A second call returns the same value and changes nothing, unless the stored answer was empty. |
| Generators.PopulateModel | v2/sc_flow/utils/generators.py:29-43 | Only None fields change, and each of them becomes a string. Every changed variable belongs to a None field. |
| Generators.PopulateReadsEnv | v2/sc_flow/utils/generators.py:39-42 | A None field whose variable is set and non-empty takes that variable's value. |
| Generators.SetEnvVars | v2/sc_flow/utils/generators.py:45-64 | `str(value)` is written iff overwriting or the variable is unset, so an empty value counts as set. The result has exactly the field names as keys, each equal to the variable afterwards, and other variables are unchanged. |
| Generators.LlmGenerator | v2/sc_flow/utils/generators.py:97-146 | An invalid provider raises ValueError, and ollama raises NotImplementedError. azure_openai builds the chat client and azure_ml the endpoint, each on its populated record. |
| Generators.EmbeddingsGenerator | v2/sc_flow/utils/generators.py:66-95 | Succeeds iff the provider is azure_openai, and otherwise raises ValueError. |
| Generators.DeploymentNameFromEnv | v2/sc_flow/data/model.py:47-54 | The chat deployment name is the LLM_DEPLOYMENT_NAME variable, although `from_env` drops it, because `_populate_model` reads it back by field name. |
| DataModel.AgentModelFromEnv | v2/sc_flow/data/model.py:32-38 | MODEL_PROVIDER defaults to azure_openai when unset. A value outside the enum fails with ValueError, and an accepted value is the enum member of that value. |
| DataModel.AgentEmbeddingsFromEnv | v2/sc_flow/data/model.py:24-30 | The same for EMBEDDING_PROVIDER and its two values. |
| DataModel.ProviderValues | v2/sc_flow/data/model.py:13-22 | LLMProvider has exactly three distinct values and EmbeddingProvider exactly two. |
| DataModel.AzureOpenAIModelFromEnv | v2/sc_flow/data/model.py:40-57 | Three fields come from the environment. LLM_DEPLOYMENT_NAME stays None, because the keyword passed is DEPLOYMENT_NAME. |
| DataModel.AzureOpenAIEmbeddingModelFromEnv | v2/sc_flow/data/model.py:90-107 | Likewise, EMBEDDING_DEPLOYMENT_NAME stays None. |
| DataModel.AzureMachineLearningModelFromEnv | v2/sc_flow/data/model.py:59-78 | URL and key come from the environment. API type and formatter are fixed objects, and MODEL_KWARGS is None. |
| DataModel.OllamaModelFromEnv | v2/sc_flow/data/model.py:80-88 | The Ollama record has no fields. |
| DataModel.Neo4jStoreFromEnv | v2/sc_flow/data/model.py:109-130 | All six fields come from their variables. |
| DataModel.RecordNamesDistinct | v2/sc_flow/data/model.py:40-130 | Every record's field names are distinct. |
| Strings.BeforeFirstIsPrefix | v2/sc_flow/agents/user_proxy/agent.py:19 | `s.split(c)[0]` is the prefix before the first c, or s itself. |
| Strings.AfterLastIsSuffix | v2/sc_flow/agents/user_proxy/agent.py:19 | `s.split(c)[-1]` is the suffix after the last c, or s itself. |
| Strings.SplitJoin | v2/sc_flow/agents/classifier_authority/agent.py:269 | Joining separator-free pieces and splitting again gives back the pieces. |
| Strings.JoinSplit | v2/sc_flow/agents/aml_handler/processor_component/process_doc.py:54 | Splitting and joining on the same separator gives back the string. |

## Left out

- The synchronous wrappers of the checkpoint saver (`list`, `get_tuple`, `put`,
  `put_writes`) and `from_conn_string`: thread and event-loop bridging and
  connection set-up.
- Serialisation (`serde`, `dumps_metadata`, `loads_metadata`): stored values are
  kept as given, as by an injective encoding.
- CheckpointStore.WritesAt: pending writes are a map keyed by (task, idx). The order
  in which the database yields them is not modelled.
- CheckpointStore.ListedKeys: checkpoints of different threads or namespaces with
  equal ids are ordered by thread and then namespace. MongoDB leaves that tie
  unspecified.
- CheckpointStore.Limited: negative limits are not modelled (the limit is a `nat`).
- The LangGraph runtime:
  - A step's updates are applied in task order, which is send order for the
    scatter. Concurrent scheduling inside the step is left out.
  - The `Send` payload is the analysis-state view of the state.
  - `interrupt` is a parameter (the resume value).
  - `copilotkit_emit_state` is left out.
- Python aliasing: nodes mutate their input in place and return it. The model uses
  value semantics, so a node's dict is its input with the mutations applied. The
  runtime hands a node the channel's own list, so an in-place append followed by a
  whole-state return merges to `(L + a) + (L + a)`, where the model's doubling
  lemmas (`Evaluators.EvaluateMerged`, `ScgHandler.ScgAnalystMerged`,
  `DocumentProcessors.GraphIndexerMerged` and the like) give `L + (L + a)`. The
  three `Send`s share one payload dict, so in the program their in-place appends
  all land in the same lists. The model gives each evaluator its own copy. The
  step that applies their dicts fails on `ctx_doc` either way
  (`Orchestrator.GatherStepConflicts`). The members below describe `Gather`, a
  merge that is not the program's behaviour: it copies the payload and merges the
  three dicts one after the other in send order.
- Orchestrator.GatherShape: holds only for `Gather`. With the shared payload each
  dict's lists end with all three entries and all six logs, so the 4n+6 count and
  the per-evaluator shape do not describe the program.
- Orchestrator.GatherFirstRun: holds only for `Gather`. With the shared payload a
  first run does not leave exactly one entry per evaluator.
- Orchestrator.ClassificationTurnAnalysis: holds only for `Gather`. The four-fold
  repetition and the three entries of a first run rest on it.
- ClassifierAuthority.SecondRunLookupIsStale: holds only for `Gather`. With the
  shared payload every returned list ends with this run's three entries, so
  `dict()` would return fresh records.
- ClassifierAuthority.AuthorityAfterFirstGather: holds only for `Gather`;
  `ClassifierAuthority.AuthorityAfterGather` states it for the corrected step.
- ClassifierAuthority.ResetGatherIsFresh: holds only for `Gather`;
  `Orchestrator.FixedTurnIsFresh` states the reset for the corrected step.
- RemoveMessage and the other special forms of `add_messages`.
- The LLM, embedding, search, Neo4j and AzureML clients, and the dataset registry:
  each is a parameter. The TOP_* retrieval settings are read only to configure
  these clients, so they are left out.
- `ast.literal_eval` of the search metadata: a hit carries its `doc_name` directly,
  and a missing `doc_name` key is not modelled.
- `_make_doc` drops `bbox`, an opaque layout object.
- Dataset versions are strings. The registry's default version 1 (an int) is
  written as a string.
- Pydantic validation is modelled only for the provider enums. `str()` of a
  non-string field (API type, content formatter) is its opaque text.
- Generators.LlmGenerator: the client constructors are not modelled. The client is
  represented by the populated record it is built from.
- The rest of `create_graph.py` (Neo4j batch jobs, plotting, percentiles), the
  cypher queries, the HTTP routes, SQLite, blob storage, app start-up, the front
  end and the prompt texts.

## Findings

| source | as written | input that shows it | evidently intended | confidence | as-written member | corrected member |
|---|---|---|---|---|---|---|
| v2/sc_flow/agents/classifier_authority/agent.py:214 | `classifier_authority` reads `state['user_query']` and `state['inner_state']['logs']`. Both fields are commented out of `ExpertAnalysisState` (state.py:53-54), so nothing ever writes them. Because of the third row, the node is not even reached as written. | Any state reaching the node, e.g. the state after the corrected gather. | The node receives the user's query and the outer logs, and answers with the authority's advice on the three evaluators' records. | not executed | ClassifierAuthority.AuthorityAlwaysFails | ClassifierAuthority.AuthorityAfterGather |
| v2/sc_flow/agents/evaluators/orchestrator.py:8 | `classification_analysis: []` is returned into an `operator.add` channel. It appends nothing, so it resets nothing: whatever the channel holds stays in place. As written no entry is ever stored, because only the evaluators write the channel and their step always fails (third row); once that row is corrected, the channel grows from run to run (`Orchestrator.FixedGatherKeepsHistory`). | With the third row corrected: a second classification on the same thread, where the analysis already holds the first run's three entries, and the orchestrator's merge keeps them ahead of the new three. | Each classification starts from an empty analysis and leaves only this run's entries. | not executed | Orchestrator.OrchestratorDoesNotReset | Orchestrator.FixedTurnIsFresh |
| v2/sc_flow/agents/evaluators/evaluators.py:72 | Each evaluator returns its whole input (also at lines 125 and 178), `ctx_doc` included. `ctx_doc` has no reducer (state.py:56), and the runtime raises InvalidUpdateError when such a channel gets more than one write in a step. The three evaluators run in one step. | Any classification request: the scatter's three dicts all carry `ctx_doc`. | Each evaluator returns only what it adds (its analysis entry and its logs), so the step succeeds and the authority runs. | not executed; relies on the runtime's documented one-write rule for channels without a reducer | Orchestrator.GatherStepConflicts | Orchestrator.FixedGatherStepShape |

=== FILE: agent_state.dfy ===
/** The conversation state threaded through the agent graph (`State`,
    `AvailableDatasets`, `ExpertAnalysisState`), the partial updates nodes return,
    and the per-channel reducers that merge an update into the state. */
module AgentState {
  import opened Wrappers
  import opened Seqs

  datatype Role = Human | Assistant

  /** A chat message; `id` is the identifier the message reducer matches on. */
  datatype Message = Message(id: string, role: Role, content: string)

  /** What `last_user_message` holds: the declared type is `str`, but `user_proxy`
      stores the whole last message there. */
  datatype UserInput = Text(text: string) | Msg(message: Message)

  /** A progress entry: exactly a message and a done flag. */
  datatype Log = Log(message: string, done: bool)

  /** The four labels `ClassificationDecision.classification` declares. The
      declaration is a type hint only: the structured-output chain returns a plain
      dictionary and nothing checks its label against these. */
  const DeclaredLabels: set<string> := {"Top Secret", "Secret", "CUI", "Unclassified"}

  /** A structured decision as the chain returns it; `classification` is whatever
      string the model produced. */
  datatype Decision = Decision(classification: string, explanation: string)

  /** A kept decision together with the content it judged (`{**resp, "original_content": ...}`). */
  datatype ExpertRecord = ExpertRecord(decision: Decision, originalContent: string)

  /** One `classification_analysis` entry: (evaluator name, kept records). */
  type Analysis = (string, seq<ExpertRecord>)

  /** A registry dataset: (name, version). */
  datatype Dataset = Dataset(name: string, version: string)

  /** The literal type of `AvailableDatasets.task`. */
  const DeclaredTasks: set<string> := {"index_scg", "index_document"}

  /** `ctx_doc`: the selected document's name, or none (the router may return None). */
  datatype DocRef = NoDoc | Doc(name: string)

  /** The union of the channels of the three state types. `last_user_message` has
      a reducer, so it holds `str()`, i.e. `Text("")`, until first written; `task`
      has none, so a never-written `task` is `None` (reading it raises KeyError). */
  datatype GraphState = GraphState(
    messages: seq<Message>,
    lastUserMessage: UserInput,
    nextAgent: string,
    ctxDoc: DocRef,
    logs: seq<Log>,
    analysis: seq<Analysis>,
    datasets: seq<Dataset>,
    task: Option<string>)

  /** The dict a node returns. `None` is a key the dict does not carry; for the
      concatenated channels an absent key and `[]` have the same effect. */
  datatype Update = Update(
    messages: seq<Message>,
    lastUserMessage: Option<UserInput>,
    nextAgent: Option<string>,
    ctxDoc: Option<DocRef>,
    logs: seq<Log>,
    analysis: seq<Analysis>,
    datasets: Option<seq<Dataset>>,
    task: Option<string>)

  const NoUpdate: Update := Update([], None, None, None, [], [], None, None)

  // ---------------------------------------------------------------------------
  // The messages reducer (`add_messages`)

  /** The position `add_messages` records for `id`: the last message carrying it. */
  function LastIndexOfId(ms: seq<Message>, id: string): (r: Option<nat>)
    ensures r.Some? ==> r.value < |ms| && ms[r.value].id == id
    ensures r.None? <==> forall i :: 0 <= i < |ms| ==> ms[i].id != id
    decreases |ms|
  {
    if |ms| == 0 then None
    else if ms[|ms| - 1].id == id then Some(|ms| - 1)
    else LastIndexOfId(ms[..|ms| - 1], id)
  }

  /** Merge one message: replace the message with the same id, else append. */
  function AddMessage(left: seq<Message>, m: Message): seq<Message> {
    match LastIndexOfId(left, m.id)
    case Some(i) => left[i := m]
    case None => left + [m]
  }

  /** `add_messages(left, right)`, message by message. */
  function AddMessages(left: seq<Message>, right: seq<Message>): seq<Message>
    decreases |right|
  {
    if |right| == 0 then left else AddMessages(AddMessage(left, right[0]), right[1..])
  }

  predicate UniqueIds(ms: seq<Message>) {
    forall i, j :: 0 <= i < j < |ms| ==> ms[i].id != ms[j].id
  }

  /** Merging `a` then `b` is merging `a + b`. */
  lemma {:induction false} AddMessagesAppend(left: seq<Message>, a: seq<Message>, b: seq<Message>)
    ensures AddMessages(left, a + b) == AddMessages(AddMessages(left, a), b)
    decreases |a|
  {
    if |a| > 0 {
      assert (a + b)[0] == a[0];
      assert (a + b)[1..] == a[1..] + b;
      AddMessagesAppend(AddMessage(left, a[0]), a[1..], b);
    } else {
      assert a + b == b;
    }
  }

  /** Merging messages the state already holds changes nothing: a node that returns
      the messages it was given does not duplicate them. */
  lemma {:induction false} AddMessagesKnown(left: seq<Message>, right: seq<Message>)
    requires UniqueIds(left)
    requires forall j :: 0 <= j < |right| ==> right[j] in left
    ensures AddMessages(left, right) == left
    decreases |right|
  {
    if |right| > 0 {
      var m := right[0];
      var k :| 0 <= k < |left| && left[k] == m;
      var i := LastIndexOfId(left, m.id).value;
      assert i == k;
      assert AddMessage(left, m) == left;
      AddMessagesKnown(left, right[1..]);
    }
  }

  /** The reducer keeps message ids unique: a message whose id is present replaces
      that message, any other is appended. */
  lemma {:induction false} AddMessagesKeepsIdsUnique(left: seq<Message>, right: seq<Message>)
    requires UniqueIds(left)
    ensures UniqueIds(AddMessages(left, right))
    decreases |right|
  {
    if |right| > 0 {
      var m := right[0];
      var next := AddMessage(left, m);
      match LastIndexOfId(left, m.id) {
        case Some(i) =>
          assert next == left[i := m];
          assert forall k :: 0 <= k < |next| ==> next[k].id == left[k].id;
        case None =>
          assert next == left + [m];
      }
      AddMessagesKeepsIdsUnique(next, right[1..]);
    }
  }

  /** A message with a fresh id is appended. */
  lemma AddMessageFresh(left: seq<Message>, m: Message)
    requires forall i :: 0 <= i < |left| ==> left[i].id != m.id
    ensures AddMessages(left, [m]) == left + [m]
  {
  }

  /** A node that returns the history it was given with one new message appended
      (`state["messages"] += [resp]`) adds exactly that message. */
  lemma AddMessagesExtend(left: seq<Message>, m: Message)
    requires UniqueIds(left)
    requires forall i :: 0 <= i < |left| ==> left[i].id != m.id
    ensures AddMessages(left, left + [m]) == left + [m]
  {
    AddMessagesAppend(left, left, [m]);
    AddMessagesKnown(left, left);
    AddMessageFresh(left, m);
  }

  // ---------------------------------------------------------------------------
  // Reducers

  /** Apply an update with the declared reducers: `add_messages` for messages,
      take-the-newer for `last_user_message` and `next_agent`, plain overwrite for
      the channels without a reducer (`ctx_doc`, `datasets`, `task`), and
      concatenation (`operator.add`) for `logs` and `classification_analysis`. */
  function Merge(s: GraphState, u: Update): GraphState {
    GraphState(
      AddMessages(s.messages, u.messages),
      u.lastUserMessage.GetOr(s.lastUserMessage),
      u.nextAgent.GetOr(s.nextAgent),
      u.ctxDoc.GetOr(s.ctxDoc),
      s.logs + u.logs,
      s.analysis + u.analysis,
      u.datasets.GetOr(s.datasets),
      if u.task.Some? then u.task else s.task)
  }

  /** Two merges in a row: the concatenated channels keep the old value as a prefix and
      add up (so the reducer is associative with identity `[]`), and each
      last-write-wins channel holds the newest value written. */
  lemma MergeTwice(s: GraphState, u1: Update, u2: Update)
    ensures var t := Merge(Merge(s, u1), u2);
      && t.logs == s.logs + (u1.logs + u2.logs)
      && t.analysis == s.analysis + (u1.analysis + u2.analysis)
      && t.messages == AddMessages(s.messages, u1.messages + u2.messages)
      && t.lastUserMessage == u2.lastUserMessage.GetOr(u1.lastUserMessage.GetOr(s.lastUserMessage))
      && t.nextAgent == u2.nextAgent.GetOr(u1.nextAgent.GetOr(s.nextAgent))
      && t.ctxDoc == u2.ctxDoc.GetOr(u1.ctxDoc.GetOr(s.ctxDoc))
  {
    AddMessagesAppend(s.messages, u1.messages, u2.messages);
    AppendAssoc(s.logs, u1.logs, u2.logs);
    AppendAssoc(s.analysis, u1.analysis, u2.analysis);
  }

  lemma MergeNoUpdate(s: GraphState)
    ensures Merge(s, NoUpdate) == s
  {
  }

  /** The two updates write disjoint channels. */
  predicate Disjoint(u1: Update, u2: Update) {
    && (u1.messages == [] || u2.messages == [])
    && (u1.lastUserMessage.None? || u2.lastUserMessage.None?)
    && (u1.nextAgent.None? || u2.nextAgent.None?)
    && (u1.ctxDoc.None? || u2.ctxDoc.None?)
    && (u1.logs == [] || u2.logs == [])
    && (u1.analysis == [] || u2.analysis == [])
    && (u1.datasets.None? || u2.datasets.None?)
    && (u1.task.None? || u2.task.None?)
  }

  /** Updates of concurrent branches that write disjoint channels merge in either order
      to the same state. */
  lemma MergeCommutes(s: GraphState, u1: Update, u2: Update)
    requires Disjoint(u1, u2)
    ensures Merge(Merge(s, u1), u2) == Merge(Merge(s, u2), u1)
  {
    var t1, t2 := Merge(Merge(s, u1), u2), Merge(Merge(s, u2), u1);
    assert t1.messages == t2.messages by {
      assert AddMessages(s.messages, []) == s.messages;
      if u1.messages == [] {
        assert AddMessages(AddMessages(s.messages, u2.messages), []) == AddMessages(s.messages, u2.messages);
      } else {
        assert AddMessages(AddMessages(s.messages, u1.messages), []) == AddMessages(s.messages, u1.messages);
      }
    }
    assert t1.logs == t2.logs by {
      if u1.logs == [] {
        assert s.logs + u1.logs == s.logs;
        assert s.logs + u2.logs + u1.logs == s.logs + u2.logs;
      } else {
        assert s.logs + u2.logs == s.logs;
        assert s.logs + u1.logs + u2.logs == s.logs + u1.logs;
      }
    }
    assert t1.analysis == t2.analysis by {
      if u1.analysis == [] {
        assert s.analysis + u1.analysis == s.analysis;
        assert s.analysis + u2.analysis + u1.analysis == s.analysis + u2.analysis;
      } else {
        assert s.analysis + u2.analysis == s.analysis;
        assert s.analysis + u1.analysis + u2.analysis == s.analysis + u1.analysis;
      }
    }
  }

  // ---------------------------------------------------------------------------
  // One step of the runtime

  /** The channels declared without a reducer. The runtime keeps their last value
      and accepts at most one write to each per step. */
  datatype PlainChannel = CtxDocChannel | DatasetsChannel | TaskChannel

  function ChannelName(c: PlainChannel): string {
    match c
    case CtxDocChannel => "ctx_doc"
    case DatasetsChannel => "datasets"
    case TaskChannel => "task"
  }

  predicate WritesPlain(u: Update, c: PlainChannel) {
    match c
    case CtxDocChannel => u.ctxDoc.Some?
    case DatasetsChannel => u.datasets.Some?
    case TaskChannel => u.task.Some?
  }

  /** Some two updates of the step write `c`. */
  predicate WrittenTwice(us: seq<Update>, c: PlainChannel) {
    exists i, j :: 0 <= i < j < |us| && WritesPlain(us[i], c) && WritesPlain(us[j], c)
  }

  /** How many updates of the step write `c`. */
  function WriteCount(us: seq<Update>, c: PlainChannel): nat
    decreases |us|
  {
    if |us| == 0 then 0 else (if WritesPlain(us[0], c) then 1 else 0) + WriteCount(us[1..], c)
  }

  /** More than one write is counted exactly when two updates write the channel. */
  lemma {:induction false} WriteCountTwice(us: seq<Update>, c: PlainChannel)
    ensures WriteCount(us, c) > 1 <==> WrittenTwice(us, c)
    decreases |us|
  {
    if |us| > 0 {
      var tail := us[1..];
      WriteCountTwice(tail, c);
      WriteCountSome(tail, c);
      if WrittenTwice(tail, c) {
        var i, j :| 0 <= i < j < |tail| && WritesPlain(tail[i], c) && WritesPlain(tail[j], c);
        assert us[i + 1] == tail[i] && us[j + 1] == tail[j];
      }
      if WritesPlain(us[0], c) && WriteCount(tail, c) > 0 {
        var j :| 0 <= j < |tail| && WritesPlain(tail[j], c);
        assert us[j + 1] == tail[j];
      }
      if WrittenTwice(us, c) {
        var i, j :| 0 <= i < j < |us| && WritesPlain(us[i], c) && WritesPlain(us[j], c);
        assert us[j] == tail[j - 1];
        if i > 0 {
          assert us[i] == tail[i - 1];
        }
      }
    }
  }

  /** The count is positive exactly when some update writes the channel. */
  lemma {:induction false} WriteCountSome(us: seq<Update>, c: PlainChannel)
    ensures WriteCount(us, c) > 0 <==> exists j :: 0 <= j < |us| && WritesPlain(us[j], c)
    decreases |us|
  {
    if |us| > 0 {
      WriteCountSome(us[1..], c);
      if exists j :: 0 <= j < |us| && WritesPlain(us[j], c) {
        var j :| 0 <= j < |us| && WritesPlain(us[j], c);
        if j > 0 {
          assert us[1..][j - 1] == us[j];
        }
      }
      if WriteCount(us[1..], c) > 0 {
        var j :| 0 <= j < |us[1..]| && WritesPlain(us[1..][j], c);
        assert us[j + 1] == us[1..][j];
      }
    }
  }

  /** The updates of one step merged in task order. */
  function MergeAll(s: GraphState, us: seq<Update>): GraphState
    decreases |us|
  {
    if |us| == 0 then s else MergeAll(Merge(s, us[0]), us[1..])
  }

  /** Three updates of a step merge one after the other. */
  lemma MergeAllThree(s: GraphState, u1: Update, u2: Update, u3: Update)
    ensures MergeAll(s, [u1, u2, u3]) == Merge(Merge(Merge(s, u1), u2), u3)
  {
    var t1 := Merge(s, u1);
    var t2 := Merge(t1, u2);
    assert [u1, u2, u3][0] == u1 && [u1, u2, u3][1..] == [u2, u3];
    assert MergeAll(s, [u1, u2, u3]) == MergeAll(t1, [u2, u3]);
    assert [u2, u3][0] == u2 && [u2, u3][1..] == [u3];
    assert MergeAll(t1, [u2, u3]) == MergeAll(t2, [u3]);
    assert [u3][0] == u3 && [u3][1..] == [];
    assert MergeAll(t2, [u3]) == MergeAll(Merge(t2, u3), []);
  }

  /** The end of a step: the updates of the step's tasks applied together. A channel
      without a reducer that receives more than one write raises InvalidUpdateError
      (the channels checked in declaration order); otherwise the updates are merged
      in task order. */
  function ApplyStep(s: GraphState, us: seq<Update>): (r: Result<GraphState>)
    ensures r.Err? <==> exists c :: WrittenTwice(us, c)
    ensures r.Err? ==> exists c :: WrittenTwice(us, c) && r.error == InvalidUpdateError(ChannelName(c))
    ensures WrittenTwice(us, CtxDocChannel) ==> r == Err(InvalidUpdateError("ctx_doc"))
    ensures r.Ok? ==> r.value == MergeAll(s, us)
  {
    WriteCountTwice(us, CtxDocChannel);
    WriteCountTwice(us, DatasetsChannel);
    WriteCountTwice(us, TaskChannel);
    if WriteCount(us, CtxDocChannel) > 1 then Err(InvalidUpdateError(ChannelName(CtxDocChannel)))
    else if WriteCount(us, DatasetsChannel) > 1 then Err(InvalidUpdateError(ChannelName(DatasetsChannel)))
    else if WriteCount(us, TaskChannel) > 1 then Err(InvalidUpdateError(ChannelName(TaskChannel)))
    else Ok(MergeAll(s, us))
  }

  /** A step with a single task, as every step outside the scatter has, applies that
      task's update with `Merge`. */
  lemma SingleUpdateStep(s: GraphState, u: Update)
    ensures ApplyStep(s, [u]) == Ok(Merge(s, u))
  {
    forall c ensures !WrittenTwice([u], c) {
    }
    assert MergeAll(s, [u]) == MergeAll(Merge(s, u), [u][1..]);
    assert [u][1..] == [];
  }

  // ---------------------------------------------------------------------------
  // Whole-state returns

  /** The dict a node typed on `State` returns when it returns its (mutated) input. */
  function StateView(s: GraphState): Update {
    Update(s.messages, Some(s.lastUserMessage), Some(s.nextAgent), Some(s.ctxDoc), s.logs, [], None, None)
  }

  /** The same for a node typed on `AvailableDatasets`, which also carries `datasets`
      and `task`. */
  function DatasetsView(s: GraphState): Update {
    StateView(s).(datasets := Some(s.datasets), task := s.task)
  }

  /** The same for a node typed on `ExpertAnalysisState`. */
  function ExpertView(s: GraphState): Update {
    NoUpdate.(ctxDoc := Some(s.ctxDoc), logs := s.logs, analysis := s.analysis)
  }

  /** Handing a state's own channels back to the reducers leaves every channel as it
      was except the concatenated ones, which are doubled. */
  lemma MergeOwnView(s: GraphState)
    requires UniqueIds(s.messages)
    ensures Merge(s, StateView(s)) == s.(logs := s.logs + s.logs)
    ensures Merge(s, DatasetsView(s)) == s.(logs := s.logs + s.logs)
    ensures Merge(s, ExpertView(s)) == s.(logs := s.logs + s.logs, analysis := s.analysis + s.analysis)
  {
    AddMessagesKnown(s.messages, s.messages);
  }
}

=== FILE: checkpoint_store.dfy ===
/** The asynchronous CosmosDB/MongoDB checkpoint saver: two collections, one of
    checkpoints keyed by (thread_id, checkpoint_ns, checkpoint_id) and one of
    pending writes keyed by (thread_id, checkpoint_ns, checkpoint_id, task_id, idx),
    modelled as two finite maps. The serializer (`serde`, `dumps_metadata`) is an
    injective encoding, so stored values are kept as given. */
module CheckpointStore {
  import opened Wrappers
  import LexOrder

  /** Serialized bytes as produced by the serializer. */
  type Blob = seq<int>

  /** A LangGraph checkpoint: its id plus the serialized rest. */
  datatype Checkpoint = Checkpoint(id: string, body: Blob)

  /** Metadata with every value already encoded by `dumps_metadata`. */
  type Metadata = map<string, Blob>

  datatype Key = Key(thread: string, ns: string, id: string)

  /** The stored document besides its key fields. */
  datatype Record = Record(checkpoint: Checkpoint, metadata: Metadata, parentId: Option<string>)

  datatype WriteKey = WriteKey(thread: string, ns: string, id: string, task: string, idx: int)

  datatype Write = Write(channel: string, value: Blob)

  datatype Store = Store(checkpoints: map<Key, Record>, writes: map<WriteKey, Write>)

  /** The "configurable" part of a RunnableConfig; `None` is an absent key. */
  datatype Config = Config(threadId: Option<string>, ns: Option<string>, checkpointId: Option<string>)

  /** A returned CheckpointTuple. Pending writes are keyed by (task_id, idx); the
      order the database yields them in is not modelled. */
  datatype CheckpointTuple = CheckpointTuple(
    config: Key,
    checkpoint: Checkpoint,
    metadata: Metadata,
    parent: Option<Key>,
    pendingWrites: map<(string, int), Write>)

  // ---------------------------------------------------------------------------
  // Sort order: newest first by checkpoint_id

  /** `a` comes before `b` in a newest-first listing: larger checkpoint id first;
      equal ids (possible only across threads or namespaces) are ordered by thread,
      then namespace. */
  predicate Newer(a: Key, b: Key) {
    || LexOrder.Less(b.id, a.id)
    || (a.id == b.id && LexOrder.Less(a.thread, b.thread))
    || (a.id == b.id && a.thread == b.thread && LexOrder.Less(a.ns, b.ns))
  }

  lemma NewerAsymmetric(a: Key, b: Key)
    requires Newer(a, b)
    ensures !Newer(b, a)
  {
    LexOrder.LessIrreflexive(a.id);
    LexOrder.LessIrreflexive(a.thread);
    if LexOrder.Less(b.id, a.id) {
      LexOrder.LessAsymmetric(b.id, a.id);
    } else if LexOrder.Less(a.thread, b.thread) {
      LexOrder.LessAsymmetric(a.thread, b.thread);
    } else {
      LexOrder.LessAsymmetric(a.ns, b.ns);
    }
  }

  lemma NewerTransitive(a: Key, b: Key, c: Key)
    requires Newer(a, b) && Newer(b, c)
    ensures Newer(a, c)
  {
    if LexOrder.Less(b.id, a.id) && LexOrder.Less(c.id, b.id) {
      LexOrder.LessTransitive(c.id, b.id, a.id);
    } else if a.id == b.id && b.id == c.id {
      if LexOrder.Less(a.thread, b.thread) && LexOrder.Less(b.thread, c.thread) {
        LexOrder.LessTransitive(a.thread, b.thread, c.thread);
      } else if a.thread == b.thread && b.thread == c.thread {
        LexOrder.LessTransitive(a.ns, b.ns, c.ns);
      }
    }
  }

  lemma NewerConnected(a: Key, b: Key)
    ensures a == b || Newer(a, b) || Newer(b, a)
  {
    LexOrder.LessConnected(a.id, b.id);
    LexOrder.LessConnected(a.thread, b.thread);
    LexOrder.LessConnected(a.ns, b.ns);
  }

  lemma NewerAsymmetricAll()
    ensures forall a, b :: Newer(a, b) ==> !Newer(b, a)
  {
    forall a, b | Newer(a, b) ensures !Newer(b, a) {
      NewerAsymmetric(a, b);
    }
  }

  /** `m` is the first key of `s` in newest-first order. */
  predicate IsNewest(m: Key, s: set<Key>) {
    m in s && forall k :: k in s && k != m ==> Newer(m, k)
  }

  lemma {:induction false} NewestExists(s: set<Key>)
    requires s != {}
    ensures exists m :: IsNewest(m, s)
    decreases |s|
  {
    var x :| x in s;
    if s != {x} {
      NewestExists(s - {x});
      var m :| IsNewest(m, s - {x});
      NewerConnected(x, m);
      if Newer(x, m) {
        forall k | k in s && k != x ensures Newer(x, k) {
          if k != m {
            NewerTransitive(x, m, k);
          }
        }
        assert IsNewest(x, s);
      } else {
        assert IsNewest(m, s);
      }
    } else {
      assert IsNewest(x, s);
    }
  }

  /** The keys of `s` sorted newest first, as `sort=[("checkpoint_id", -1)]` returns them. */
  function NewestFirst(s: set<Key>): (r: seq<Key>)
    ensures |r| == |s|
    ensures forall k :: k in r <==> k in s
    ensures forall i, j :: 0 <= i < j < |r| ==> Newer(r[i], r[j])
    decreases |s|
  {
    if s == {} then []
    else
      NewerAsymmetricAll();
      NewestExists(s);
      var m :| IsNewest(m, s);
      var rest := NewestFirst(s - {m});
      NewestFirstCons(m, s, rest);
      [m] + rest
  }

  /** Putting the newest key in front of a sorted listing of the others sorts `s`. */
  lemma NewestFirstCons(m: Key, s: set<Key>, rest: seq<Key>)
    requires IsNewest(m, s)
    requires |rest| == |s - {m}|
    requires forall k :: k in rest <==> k in s - {m}
    requires forall i, j :: 0 <= i < j < |rest| ==> Newer(rest[i], rest[j])
    ensures |[m] + rest| == |s|
    ensures forall k :: k in [m] + rest <==> k in s
    ensures forall i, j :: 0 <= i < j < |[m] + rest| ==> Newer(([m] + rest)[i], ([m] + rest)[j])
  {
    var r := [m] + rest;
    forall i, j | 0 <= i < j < |r| ensures Newer(r[i], r[j]) {
      if i == 0 {
        assert r[j] == rest[j - 1] && r[j] in s - {m};
      } else {
        assert r[i] == rest[i - 1] && r[j] == rest[j - 1];
      }
    }
  }

  // ---------------------------------------------------------------------------
  // Building returned tuples

  /** The pending writes stored under exactly the checkpoint `key`. */
  function WritesAt(st: Store, key: Key): (r: map<(string, int), Write>)
    ensures forall task, idx :: (task, idx) in r <==> WriteKey(key.thread, key.ns, key.id, task, idx) in st.writes
    ensures forall task, idx :: (task, idx) in r ==> r[(task, idx)] == st.writes[WriteKey(key.thread, key.ns, key.id, task, idx)]
  {
    map wk | wk in st.writes && wk.thread == key.thread && wk.ns == key.ns && wk.id == key.id
      :: (wk.task, wk.idx) := st.writes[wk]
  }

  /** The parent link of a stored record: none when `parent_checkpoint_id` is falsy. */
  function ParentOf(key: Key, parentId: Option<string>): (r: Option<Key>)
    ensures r.None? <==> (parentId.None? || parentId.value == "")
    ensures r.Some? ==> r.value == Key(key.thread, key.ns, parentId.value)
  {
    if parentId.Some? && parentId.value != "" then Some(Key(key.thread, key.ns, parentId.value)) else None
  }

  /** The CheckpointTuple built from the stored document at `key`. */
  function TupleOf(st: Store, key: Key): (r: CheckpointTuple)
    requires key in st.checkpoints
    ensures r.config == key
    ensures r.checkpoint == st.checkpoints[key].checkpoint
    ensures r.metadata == st.checkpoints[key].metadata
    ensures r.parent == ParentOf(key, st.checkpoints[key].parentId)
    ensures r.pendingWrites == WritesAt(st, key)
  {
    var rec := st.checkpoints[key];
    CheckpointTuple(key, rec.checkpoint, rec.metadata, ParentOf(key, rec.parentId), WritesAt(st, key))
  }

  // ---------------------------------------------------------------------------
  // aget_tuple

  /** The checkpoint id a config asks for: `get_checkpoint_id`, where an empty id is
      as good as none. */
  function RequestedId(cfg: Config): Option<string> {
    if cfg.checkpointId.Some? && cfg.checkpointId.value != "" then cfg.checkpointId else None
  }

  /** The stored keys of one thread and namespace. */
  function KeysOf(st: Store, thread: string, ns: string): set<Key> {
    set k | k in st.checkpoints && k.thread == thread && k.ns == ns
  }

  /** `aget_tuple`: the checkpoint with the requested id, or else the newest one of the
      thread and namespace (which defaults to ""); `None` when nothing matches. */
  function GetTuple(st: Store, cfg: Config): (r: Result<Option<CheckpointTuple>>)
    ensures r.Err? <==> cfg.threadId.None?
    ensures r.Err? ==> r.error == KeyError("thread_id")
    ensures r.Ok? && r.value.Some? ==>
      && r.value.value.config in st.checkpoints
      && r.value.value == TupleOf(st, r.value.value.config)
      && r.value.value.config.thread == cfg.threadId.value
      && r.value.value.config.ns == cfg.ns.GetOr("")
    ensures r.Ok? && RequestedId(cfg).Some? ==>
      var key := Key(cfg.threadId.value, cfg.ns.GetOr(""), RequestedId(cfg).value);
      (r.value.Some? <==> key in st.checkpoints) && (r.value.Some? ==> r.value.value.config == key)
    ensures r.Ok? && RequestedId(cfg).None? ==>
      && (r.value.None? <==> KeysOf(st, cfg.threadId.value, cfg.ns.GetOr("")) == {})
      && (r.value.Some? ==>
            forall k :: k in KeysOf(st, cfg.threadId.value, cfg.ns.GetOr("")) ==>
              k.id == r.value.value.config.id || LexOrder.Less(k.id, r.value.value.config.id))
  {
    if cfg.threadId.None? then Err(KeyError("thread_id"))
    else
      var thread := cfg.threadId.value;
      var ns := cfg.ns.GetOr("");
      match RequestedId(cfg)
      case Some(id) =>
        var key := Key(thread, ns, id);
        if key in st.checkpoints then Ok(Some(TupleOf(st, key))) else Ok(None)
      case None =>
        var sorted := NewestFirst(KeysOf(st, thread, ns));
        if |sorted| == 0 then Ok(None)
        else
          assert forall i :: 0 < i < |sorted| ==> Newer(sorted[0], sorted[i]);
          Ok(Some(TupleOf(st, sorted[0])))
  }

  // ---------------------------------------------------------------------------
  // alist

  /** Whether the stored document at `k` satisfies an `alist` query: the config's
      thread and namespace when the config carries them, every metadata filter
      entry, and the exclusive `before` bound. */
  predicate InListing(k: Key, rec: Record, cfg: Option<Config>, filter: Metadata, beforeId: Option<string>) {
    && (cfg.Some? && cfg.value.threadId.Some? ==> k.thread == cfg.value.threadId.value)
    && (cfg.Some? && cfg.value.ns.Some? ==> k.ns == cfg.value.ns.value)
    && (forall f :: f in filter ==> f in rec.metadata && rec.metadata[f] == filter[f])
    && (beforeId.Some? ==> LexOrder.Less(k.id, beforeId.value))
  }

  /** Every stored key an `alist` query matches, before the limit. */
  function Matching(st: Store, cfg: Option<Config>, filter: Metadata, beforeId: Option<string>): set<Key> {
    set k | k in st.checkpoints && InListing(k, st.checkpoints[k], cfg, filter, beforeId)
  }

  /** MongoDB's `limit`: 0 (what `None` becomes) means no limit. */
  function Limited(keys: seq<Key>, limit: Option<nat>): (r: seq<Key>)
    ensures |r| <= |keys| && r == keys[..|r|]
    ensures (limit.None? || limit.value == 0) ==> r == keys
    ensures limit.Some? && limit.value > 0 ==> |r| == if limit.value < |keys| then limit.value else |keys|
  {
    if limit.None? || limit.value == 0 || limit.value >= |keys| then keys else keys[..limit.value]
  }

  /** The keys `alist` yields: the matching keys newest first, cut to the limit. Any
      matching key left out is older than every key listed. */
  function ListedKeys(st: Store, cfg: Option<Config>, filter: Metadata, beforeId: Option<string>, limit: Option<nat>)
    : (r: seq<Key>)
    ensures forall i :: 0 <= i < |r| ==> r[i] in Matching(st, cfg, filter, beforeId)
    ensures forall i, j :: 0 <= i < j < |r| ==> Newer(r[i], r[j])
    ensures (limit.None? || limit.value == 0) ==> |r| == |Matching(st, cfg, filter, beforeId)|
    ensures limit.Some? && limit.value > 0 ==>
      |r| == if limit.value < |Matching(st, cfg, filter, beforeId)| then limit.value
             else |Matching(st, cfg, filter, beforeId)|
    ensures forall k :: k in Matching(st, cfg, filter, beforeId) && k !in r ==>
      forall i :: 0 <= i < |r| ==> Newer(r[i], k)
  {
    var all := Matching(st, cfg, filter, beforeId);
    var sorted := NewestFirst(all);
    var keys := Limited(sorted, limit);
    PrefixOmitsOlder(sorted, keys);
    keys
  }

  /** A prefix of a newest-first sequence lists every key it leaves out after all of
      its own keys. */
  lemma PrefixOmitsOlder(sorted: seq<Key>, keys: seq<Key>)
    requires |keys| <= |sorted| && keys == sorted[..|keys|]
    requires forall i, j :: 0 <= i < j < |sorted| ==> Newer(sorted[i], sorted[j])
    ensures forall i, j :: 0 <= i < j < |keys| ==> Newer(keys[i], keys[j])
    ensures forall k :: k in sorted && k !in keys ==> forall i :: 0 <= i < |keys| ==> Newer(keys[i], k)
  {
    assert forall i :: 0 <= i < |keys| ==> keys[i] == sorted[i];
    forall k | k in sorted && k !in keys ensures forall i :: 0 <= i < |keys| ==> Newer(keys[i], k) {
      var j :| 0 <= j < |sorted| && sorted[j] == k;
      assert j >= |keys|;
    }
  }

  /** `alist`: the matching checkpoints newest first, at most `limit` of them. A
      `before` config without a checkpoint id raises KeyError. */
  function List(st: Store, cfg: Option<Config>, filter: Metadata, before: Option<Config>, limit: Option<nat>)
    : (r: Result<seq<CheckpointTuple>>)
    ensures r.Err? <==> (before.Some? && before.value.checkpointId.None?)
    ensures r.Ok? ==>
      var beforeId := if before.Some? then before.value.checkpointId else None;
      var keys := ListedKeys(st, cfg, filter, beforeId, limit);
      && |r.value| == |keys|
      && (forall i :: 0 <= i < |r.value| ==> r.value[i].config == keys[i] && r.value[i] == TupleOf(st, keys[i]))
  {
    if before.Some? && before.value.checkpointId.None? then Err(KeyError("checkpoint_id"))
    else
      var beforeId := if before.Some? then before.value.checkpointId else None;
      var keys := ListedKeys(st, cfg, filter, beforeId, limit);
      Ok(seq(|keys|, i requires 0 <= i < |keys| => TupleOf(st, keys[i])))
  }

  /** Within one thread and namespace the listing is strictly descending in
      checkpoint id. */
  lemma ListStrictlyDescending(st: Store, cfg: Config, filter: Metadata, before: Option<Config>, limit: Option<nat>)
    requires cfg.threadId.Some? && cfg.ns.Some?
    requires List(st, Some(cfg), filter, before, limit).Ok?
    ensures var r := List(st, Some(cfg), filter, before, limit).value;
      forall i, j :: 0 <= i < j < |r| ==> LexOrder.Less(r[j].config.id, r[i].config.id)
  {
    var r := List(st, Some(cfg), filter, before, limit).value;
    var beforeId := if before.Some? then before.value.checkpointId else None;
    var keys := ListedKeys(st, Some(cfg), filter, beforeId, limit);
    forall i, j | 0 <= i < j < |r| ensures LexOrder.Less(r[j].config.id, r[i].config.id) {
      var a, b := r[i].config, r[j].config;
      assert a == keys[i] && b == keys[j];
      assert Newer(a, b);
      assert a.thread == b.thread && a.ns == b.ns;
      LexOrder.LessIrreflexive(a.thread);
      LexOrder.LessIrreflexive(a.ns);
    }
  }

  /** Every listed tuple meets the query: the config's thread and namespace when
      given, every metadata filter entry, and an id strictly below `before`'s. */
  lemma ListMatchesQuery(st: Store, cfg: Option<Config>, filter: Metadata, before: Option<Config>, limit: Option<nat>)
    requires List(st, cfg, filter, before, limit).Ok?
    ensures var r := List(st, cfg, filter, before, limit).value;
      forall i :: 0 <= i < |r| ==>
        && r[i].config in st.checkpoints
        && (cfg.Some? && cfg.value.threadId.Some? ==> r[i].config.thread == cfg.value.threadId.value)
        && (cfg.Some? && cfg.value.ns.Some? ==> r[i].config.ns == cfg.value.ns.value)
        && (forall f :: f in filter ==> f in r[i].metadata && r[i].metadata[f] == filter[f])
        && (before.Some? ==> LexOrder.Less(r[i].config.id, before.value.checkpointId.value))
  {
    var r := List(st, cfg, filter, before, limit).value;
    var beforeId := if before.Some? then before.value.checkpointId else None;
    var keys := ListedKeys(st, cfg, filter, beforeId, limit);
    forall i | 0 <= i < |r|
      ensures r[i].config in st.checkpoints
      ensures InListing(r[i].config, st.checkpoints[r[i].config], cfg, filter, beforeId)
    {
      assert r[i].config == keys[i];
    }
  }

  // ---------------------------------------------------------------------------
  // aput

  /** `aput`: upsert the checkpoint under (thread, ns, checkpoint id), recording the
      incoming config's checkpoint id as its parent. Both the thread and the
      namespace must be in the config. */
  function Put(st: Store, cfg: Config, cp: Checkpoint, md: Metadata): (r: Result<(Store, Config)>)
    ensures r.Err? <==> (cfg.threadId.None? || cfg.ns.None?)
    ensures r.Ok? ==>
      var st' := r.value.0;
      var key := Key(cfg.threadId.value, cfg.ns.value, cp.id);
      && key in st'.checkpoints
      && st'.checkpoints[key] == Record(cp, md, cfg.checkpointId)
      && (forall k :: k != key ==> (k in st'.checkpoints <==> k in st.checkpoints))
      && (forall k :: k != key && k in st.checkpoints ==> st'.checkpoints[k] == st.checkpoints[k])
      && st'.writes == st.writes
      && r.value.1 == Config(cfg.threadId, cfg.ns, Some(cp.id))
  {
    if cfg.threadId.None? then Err(KeyError("thread_id"))
    else if cfg.ns.None? then Err(KeyError("checkpoint_ns"))
    else
      var key := Key(cfg.threadId.value, cfg.ns.value, cp.id);
      var st' := st.(checkpoints := st.checkpoints[key := Record(cp, md, cfg.checkpointId)]);
      Ok((st', Config(cfg.threadId, cfg.ns, Some(cp.id))))
  }

  /** Repeating an identical put leaves the store as the first put left it. */
  lemma PutIdempotent(st: Store, cfg: Config, cp: Checkpoint, md: Metadata)
    requires Put(st, cfg, cp, md).Ok?
    ensures var st' := Put(st, cfg, cp, md).value.0;
      Put(st', cfg, cp, md) == Put(st, cfg, cp, md)
  {
    var st' := Put(st, cfg, cp, md).value.0;
    var st'' := Put(st', cfg, cp, md).value.0;
    assert st''.checkpoints == st'.checkpoints;
  }

  /** Reading back with the config a put returns yields exactly the checkpoint put,
      its metadata and its parent link (checkpoint ids are never empty). */
  lemma PutThenGet(st: Store, cfg: Config, cp: Checkpoint, md: Metadata)
    requires Put(st, cfg, cp, md).Ok?
    requires cp.id != ""
    ensures var (st', out) := Put(st, cfg, cp, md).value;
      var g := GetTuple(st', out);
      && g.Ok? && g.value.Some?
      && g.value.value.config == Key(cfg.threadId.value, cfg.ns.value, cp.id)
      && g.value.value.checkpoint == cp
      && g.value.value.metadata == md
      && g.value.value.parent == ParentOf(g.value.value.config, cfg.checkpointId)
  {
  }

  /** A put on one thread changes nothing another thread reads. */
  lemma PutIsolation(st: Store, cfg: Config, cp: Checkpoint, md: Metadata, other: Config)
    requires Put(st, cfg, cp, md).Ok?
    requires other.threadId.Some? && other.threadId != cfg.threadId
    ensures GetTuple(Put(st, cfg, cp, md).value.0, other) == GetTuple(st, other)
  {
    var st' := Put(st, cfg, cp, md).value.0;
    var thread, ns := other.threadId.value, other.ns.GetOr("");
    assert KeysOf(st', thread, ns) == KeysOf(st, thread, ns);
    forall k | k in st.checkpoints && k.thread == thread
      ensures TupleOf(st', k) == TupleOf(st, k)
    {
      assert WritesAt(st', k) == WritesAt(st, k);
    }
  }

  /** A checkpoint whose id is above every id of its thread and namespace becomes the
      latest one read without a checkpoint id. */
  lemma PutNewestIsLatest(st: Store, cfg: Config, cp: Checkpoint, md: Metadata)
    requires Put(st, cfg, cp, md).Ok?
    requires forall k :: k in KeysOf(st, cfg.threadId.value, cfg.ns.value) ==> LexOrder.Less(k.id, cp.id)
    ensures var st' := Put(st, cfg, cp, md).value.0;
      var g := GetTuple(st', Config(cfg.threadId, cfg.ns, None));
      g.Ok? && g.value.Some? && g.value.value.checkpoint == cp
  {
    var st' := Put(st, cfg, cp, md).value.0;
    var key := Key(cfg.threadId.value, cfg.ns.value, cp.id);
    var g := GetTuple(st', Config(cfg.threadId, cfg.ns, None));
    assert key in KeysOf(st', cfg.threadId.value, cfg.ns.value);
    var got := g.value.value.config;
    if got != key {
      assert got in KeysOf(st, cfg.threadId.value, cfg.ns.value);
      assert LexOrder.Less(got.id, cp.id);
      assert got.id == cp.id || LexOrder.Less(cp.id, got.id);
      LexOrder.LessIrreflexive(cp.id);
      LexOrder.LessAsymmetric(got.id, cp.id);
      assert false;
    }
  }

  // ---------------------------------------------------------------------------
  // aput_writes

  /** `WRITES_IDX_MAP.get(channel, idx)`: special channels have a fixed index, the
      others use their position in the batch. */
  function WriteIdx(channel: string, position: nat, special: map<string, int>): int {
    if channel in special then special[channel] else position
  }

  /** The upserts `aput_writes` sends, in batch order. */
  function WriteOps(key: Key, task: string, writes: seq<(string, Blob)>, special: map<string, int>)
    : seq<(WriteKey, Write)>
  {
    seq(|writes|, i requires 0 <= i < |writes| =>
      (WriteKey(key.thread, key.ns, key.id, task, WriteIdx(writes[i].0, i, special)),
       Write(writes[i].0, writes[i].1)))
  }

  function OpKeys(ops: seq<(WriteKey, Write)>): set<WriteKey> {
    set i | 0 <= i < |ops| :: ops[i].0
  }

  /** The value of the last upsert for `k` in the batch. */
  function LastWith(ops: seq<(WriteKey, Write)>, k: WriteKey): Write
    requires k in OpKeys(ops)
    decreases |ops|
  {
    if k in OpKeys(ops[1..]) then LastWith(ops[1..], k)
    else ops[0].1
  }

  /** The value of the first upsert for `k` in the batch. */
  function FirstWith(ops: seq<(WriteKey, Write)>, k: WriteKey): Write
    requires k in OpKeys(ops)
    decreases |ops|
  {
    if ops[0].0 == k then ops[0].1
    else
      assert k in OpKeys(ops[1..]) by {
        var i :| 0 <= i < |ops| && ops[i].0 == k;
        assert ops[1..][i - 1] == ops[i];
      }
      FirstWith(ops[1..], k)
  }

  lemma OpKeysTail(ops: seq<(WriteKey, Write)>)
    requires |ops| > 0
    ensures OpKeys(ops) == {ops[0].0} + OpKeys(ops[1..])
  {
    forall k | k in OpKeys(ops) ensures k in {ops[0].0} + OpKeys(ops[1..]) {
      var i :| 0 <= i < |ops| && ops[i].0 == k;
      if i > 0 {
        assert ops[1..][i - 1] == ops[i];
      }
    }
    forall k | k in OpKeys(ops[1..]) ensures k in OpKeys(ops) {
      var i :| 0 <= i < |ops[1..]| && ops[1..][i].0 == k;
      assert ops[i + 1] == ops[1..][i];
    }
  }

  /** An ordered bulk write of upserts: `$set` overwrites, `$setOnInsert` only fills
      keys that are missing. */
  function ApplyOps(m: map<WriteKey, Write>, ops: seq<(WriteKey, Write)>, overwrite: bool)
    : (r: map<WriteKey, Write>)
    ensures r.Keys == m.Keys + OpKeys(ops)
    ensures forall k :: k in m && (!overwrite || k !in OpKeys(ops)) ==> r[k] == m[k]
    ensures overwrite ==> forall k :: k in OpKeys(ops) ==> r[k] == LastWith(ops, k)
    ensures !overwrite ==> forall k :: k in OpKeys(ops) && k !in m ==> r[k] == FirstWith(ops, k)
    decreases |ops|
  {
    if |ops| == 0 then m
    else
      OpKeysTail(ops);
      var (k, w) := ops[0];
      var m' := if overwrite || k !in m then m[k := w] else m;
      ApplyOps(m', ops[1..], overwrite)
  }

  /** Whether every channel of the batch is special; only then may existing writes be
      replaced. */
  predicate AllSpecial(writes: seq<(string, Blob)>, special: map<string, int>) {
    forall i :: 0 <= i < |writes| ==> writes[i].0 in special
  }

  /** What the driver's `bulk_write` raises on an empty list of operations. */
  const NoOperations: string := "No operations to execute"

  /** `aput_writes`: store the batch under the config's checkpoint and `task`. The
      config is read first; an empty batch reaches `bulk_write([])`, which the
      driver rejects. */
  function PutWrites(st: Store, cfg: Config, writes: seq<(string, Blob)>, task: string, special: map<string, int>)
    : (r: Result<Store>)
    ensures r.Err? <==> (cfg.threadId.None? || cfg.ns.None? || cfg.checkpointId.None? || |writes| == 0)
    ensures (cfg.threadId.None? || cfg.ns.None? || cfg.checkpointId.None?) ==> r.Err? && r.error.KeyError?
    ensures cfg.threadId.Some? && cfg.ns.Some? && cfg.checkpointId.Some? && |writes| == 0 ==>
      r == Err(InvalidOperation(NoOperations))
    ensures r.Ok? ==>
      var key := Key(cfg.threadId.value, cfg.ns.value, cfg.checkpointId.value);
      var ops := WriteOps(key, task, writes, special);
      && r.value.checkpoints == st.checkpoints
      && r.value.writes.Keys == st.writes.Keys + OpKeys(ops)
      && (forall i :: 0 <= i < |writes| ==>
            WriteKey(key.thread, key.ns, key.id, task, WriteIdx(writes[i].0, i, special)) in r.value.writes)
      && (forall wk :: wk in st.writes && wk !in OpKeys(ops) ==> r.value.writes[wk] == st.writes[wk])
      && (AllSpecial(writes, special) ==>
            forall wk :: wk in OpKeys(ops) ==> r.value.writes[wk] == LastWith(ops, wk))
      && (!AllSpecial(writes, special) ==>
            forall wk :: wk in st.writes ==> r.value.writes[wk] == st.writes[wk])
      && (!AllSpecial(writes, special) ==>
            forall wk :: wk in OpKeys(ops) && wk !in st.writes ==> r.value.writes[wk] == FirstWith(ops, wk))
  {
    if cfg.threadId.None? then Err(KeyError("thread_id"))
    else if cfg.ns.None? then Err(KeyError("checkpoint_ns"))
    else if cfg.checkpointId.None? then Err(KeyError("checkpoint_id"))
    else if |writes| == 0 then Err(InvalidOperation(NoOperations))
    else
      var key := Key(cfg.threadId.value, cfg.ns.value, cfg.checkpointId.value);
      var ops := WriteOps(key, task, writes, special);
      assert forall i :: 0 <= i < |writes| ==>
        ops[i].0 == WriteKey(key.thread, key.ns, key.id, task, WriteIdx(writes[i].0, i, special))
        && ops[i].0 in OpKeys(ops);
      Ok(st.(writes := ApplyOps(st.writes, ops, AllSpecial(writes, special))))
  }

  /** The store `aput_writes` leaves when the config is complete and the batch is
      not empty. */
  lemma PutWritesApplies(st: Store, cfg: Config, writes: seq<(string, Blob)>, task: string, special: map<string, int>)
    requires cfg.threadId.Some? && cfg.ns.Some? && cfg.checkpointId.Some? && |writes| > 0
    ensures var key := Key(cfg.threadId.value, cfg.ns.value, cfg.checkpointId.value);
      PutWrites(st, cfg, writes, task, special)
        == Ok(st.(writes := ApplyOps(st.writes, WriteOps(key, task, writes, special), AllSpecial(writes, special))))
  {
  }

  /** Replaying a bulk write changes nothing. */
  lemma ApplyOpsTwice(m: map<WriteKey, Write>, ops: seq<(WriteKey, Write)>, overwrite: bool)
    ensures ApplyOps(ApplyOps(m, ops, overwrite), ops, overwrite) == ApplyOps(m, ops, overwrite)
  {
    var r := ApplyOps(m, ops, overwrite);
    var r2 := ApplyOps(r, ops, overwrite);
    assert r2.Keys == r.Keys;
    forall k | k in r ensures r2[k] == r[k] {
      ApplyOpsTwiceAt(m, ops, overwrite, k);
    }
  }

  /** One key of `ApplyOpsTwice`. */
  lemma ApplyOpsTwiceAt(m: map<WriteKey, Write>, ops: seq<(WriteKey, Write)>, overwrite: bool, k: WriteKey)
    requires k in ApplyOps(m, ops, overwrite)
    ensures ApplyOps(ApplyOps(m, ops, overwrite), ops, overwrite)[k] == ApplyOps(m, ops, overwrite)[k]
  {
    var r := ApplyOps(m, ops, overwrite);
    if overwrite && k in OpKeys(ops) {
      assert ApplyOps(r, ops, overwrite)[k] == LastWith(ops, k);
    }
  }

  /** Storing the same batch twice leaves the store as storing it once. */
  lemma PutWritesIdempotent(st: Store, cfg: Config, writes: seq<(string, Blob)>, task: string, special: map<string, int>)
    requires PutWrites(st, cfg, writes, task, special).Ok?
    ensures var st' := PutWrites(st, cfg, writes, task, special).value;
      PutWrites(st', cfg, writes, task, special) == Ok(st')
  {
    var st' := PutWrites(st, cfg, writes, task, special).value;
    var key := Key(cfg.threadId.value, cfg.ns.value, cfg.checkpointId.value);
    var ops := WriteOps(key, task, writes, special);
    PutWritesApplies(st, cfg, writes, task, special);
    PutWritesApplies(st', cfg, writes, task, special);
    ApplyOpsTwice(st.writes, ops, AllSpecial(writes, special));
  }

  /** A bulk write whose keys all lie under `key` changes the writes of no other
      checkpoint. */
  lemma ApplyOpsElsewhere(m: map<WriteKey, Write>, ops: seq<(WriteKey, Write)>, overwrite: bool, key: Key, other: Key)
    requires forall i :: 0 <= i < |ops| ==> ops[i].0.thread == key.thread && ops[i].0.ns == key.ns && ops[i].0.id == key.id
    requires other != key
    ensures WritesAt(Store(map[], ApplyOps(m, ops, overwrite)), other) == WritesAt(Store(map[], m), other)
  {
    var r := ApplyOps(m, ops, overwrite);
    forall wk | wk in OpKeys(ops) ensures wk.thread == key.thread && wk.ns == key.ns && wk.id == key.id {
      var i :| 0 <= i < |ops| && ops[i].0 == wk;
    }
    var a := WritesAt(Store(map[], r), other);
    var b := WritesAt(Store(map[], m), other);
    forall tk | tk in a ensures tk in b && a[tk] == b[tk] {
      assert WriteKey(other.thread, other.ns, other.id, tk.0, tk.1) !in OpKeys(ops);
    }
    forall tk | tk in b ensures tk in a {
    }
    assert a == b;
  }

  /** Every write of a batch lands under the config's thread, namespace and
      checkpoint, so the pending writes of any other checkpoint are untouched. */
  lemma PutWritesIsolation(st: Store, cfg: Config, writes: seq<(string, Blob)>, task: string, special: map<string, int>, other: Key)
    requires PutWrites(st, cfg, writes, task, special).Ok?
    requires other != Key(cfg.threadId.value, cfg.ns.value, cfg.checkpointId.value)
    ensures WritesAt(PutWrites(st, cfg, writes, task, special).value, other) == WritesAt(st, other)
  {
    var key := Key(cfg.threadId.value, cfg.ns.value, cfg.checkpointId.value);
    var ops := WriteOps(key, task, writes, special);
    PutWritesApplies(st, cfg, writes, task, special);
    ApplyOpsElsewhere(st.writes, ops, AllSpecial(writes, special), key, other);
    WritesAtOnlyWrites(st, Store(map[], st.writes), other);
    var r := ApplyOps(st.writes, ops, AllSpecial(writes, special));
    WritesAtOnlyWrites(st.(writes := r), Store(map[], r), other);
  }

  /** `WritesAt` reads only the pending writes. */
  lemma WritesAtOnlyWrites(a: Store, b: Store, key: Key)
    requires a.writes == b.writes
    ensures WritesAt(a, key) == WritesAt(b, key)
  {
  }
}

=== FILE: classifier_authority.dfy ===
/** `classifier_authority` (the gather's consumer) and the standalone `evaluator`
    node. The LLM chains are parameters. */
module ClassifierAuthority {
  import opened Wrappers
  import opened Strings
  import opened AgentState
  import opened Evaluators
  import Orchestrator

  type Recs = seq<ExpertRecord>

  /** `dict(pairs)`, pair by pair: a later pair with the same name replaces an
      earlier one. */
  function DictOf(pairs: seq<Analysis>): map<string, Recs>
    decreases |pairs|
  {
    if |pairs| == 0 then map[]
    else DictOf(pairs[..|pairs| - 1])[pairs[|pairs| - 1].0 := pairs[|pairs| - 1].1]
  }

  /** The dict has exactly the names of the pairs as keys, and each name maps to the
      records of its last pair. */
  lemma {:induction false} DictOfLastWins(pairs: seq<Analysis>)
    ensures forall k :: k in DictOf(pairs) <==> exists i :: 0 <= i < |pairs| && pairs[i].0 == k
    ensures forall i :: 0 <= i < |pairs| && (forall j :: i < j < |pairs| ==> pairs[j].0 != pairs[i].0) ==>
      DictOf(pairs)[pairs[i].0] == pairs[i].1
    decreases |pairs|
  {
    if |pairs| > 0 {
      var n := |pairs| - 1;
      var init := pairs[..n];
      DictOfLastWins(init);
      assert forall i :: 0 <= i < n ==> init[i] == pairs[i];
      forall k ensures k in DictOf(pairs) <==> exists i :: 0 <= i < |pairs| && pairs[i].0 == k {
        if k in DictOf(init) {
          var i :| 0 <= i < |init| && init[i].0 == k;
          assert pairs[i].0 == k;
        }
        if k != pairs[n].0 && exists i :: 0 <= i < |pairs| && pairs[i].0 == k {
          var i :| 0 <= i < |pairs| && pairs[i].0 == k;
          assert init[i].0 == k;
        }
      }
    }
  }

  lemma DictOfStep(pairs: seq<Analysis>)
    requires |pairs| > 0
    ensures DictOf(pairs) == DictOf(pairs[..|pairs| - 1])[pairs[|pairs| - 1].0 := pairs[|pairs| - 1].1]
  {
  }

  lemma UnionUpdate(m: map<string, Recs>, n: map<string, Recs>, k: string, v: Recs)
    ensures (m + n)[k := v] == m + n[k := v]
  {
  }

  /** Building the dict of a concatenation is the right-biased union of the dicts. */
  lemma {:induction false} DictOfAppend(a: seq<Analysis>, b: seq<Analysis>)
    ensures DictOf(a + b) == DictOf(a) + DictOf(b)
    decreases |b|
  {
    if |b| == 0 {
      assert a + b == a;
    } else {
      var b' := b[..|b| - 1];
      var last := b[|b| - 1];
      assert (a + b)[..|a + b| - 1] == a + b';
      assert (a + b)[|a + b| - 1] == last;
      DictOfStep(a + b);
      DictOfStep(b);
      DictOfAppend(a, b');
      UnionUpdate(DictOf(a), DictOf(b'), last.0, last.1);
    }
  }

  /** What the node reads from its input: the gathered analysis, and the `user_query`
      and `inner_state` keys, which are present only if some schema carries them. */
  datatype AuthorityInput = AuthorityInput(
    analysis: seq<Analysis>,
    userQuery: Option<string>,
    innerLogs: Option<seq<Log>>)

  /** The input as declared: the analysis state has no `user_query` or `inner_state`
      channel (both are commented out). */
  function DeclaredInput(s: GraphState): AuthorityInput {
    AuthorityInput(s.analysis, None, None)
  }

  /** The input the node evidently expects: the same analysis plus the user's query
      and the outer logs. */
  function RestoredInput(s: GraphState, query: string): AuthorityInput {
    AuthorityInput(s.analysis, Some(query), Some(s.logs))
  }

  const UnclassName: string := "unclass_expert_agent"
  const SecretName: string := "secret_expert_agent"
  const TopSecretName: string := "top_secret_expert_agent"

  /** The node. `advise(query, unclass, secret, topSecret)` is the chain's reply;
      `msgId` is the id given to the new assistant message. */
  function Authority(inp: AuthorityInput, advise: (string, Recs, Recs, Recs) -> string, msgId: string)
    : (r: Result<Update>)
    ensures inp.userQuery.None? ==> r == Err(KeyError("user_query"))
    ensures r.Ok? ==>
      inp.userQuery.Some? && inp.innerLogs.Some? &&
      UnclassName in DictOf(inp.analysis) && SecretName in DictOf(inp.analysis) &&
      TopSecretName in DictOf(inp.analysis)
    ensures r.Ok? ==> r.value == NoUpdate.(
      messages := [Message(msgId, Assistant, advise(inp.userQuery.value,
        DictOf(inp.analysis)[UnclassName], DictOf(inp.analysis)[SecretName], DictOf(inp.analysis)[TopSecretName]))],
      nextAgent := Some("user_proxy"),
      logs := inp.innerLogs.value)
  {
    var d := DictOf(inp.analysis);
    if inp.userQuery.None? then Err(KeyError("user_query"))
    else if UnclassName !in d then Err(KeyError(UnclassName))
    else if SecretName !in d then Err(KeyError(SecretName))
    else if TopSecretName !in d then Err(KeyError(TopSecretName))
    else
      var resp := advise(inp.userQuery.value, d[UnclassName], d[SecretName], d[TopSecretName]);
      if inp.innerLogs.None? then Err(KeyError("inner_state"))
      else Ok(NoUpdate.(messages := [Message(msgId, Assistant, resp)], nextAgent := Some("user_proxy"),
                        logs := inp.innerLogs.value))
  }

  lemma DictOfThree(e1: Analysis, e2: Analysis, e3: Analysis)
    ensures DictOf([e1, e2, e3]) == map[e1.0 := e1.1][e2.0 := e2.1][e3.0 := e3.1]
  {
    assert [e1, e2, e3][..2] == [e1, e2];
    assert [e1, e2][..1] == [e1];
    assert [e1][..0] == [];
    assert DictOf([e1]) == map[e1.0 := e1.1];
    assert DictOf([e1, e2]) == DictOf([e1])[e2.0 := e2.1];
    assert DictOf([e1, e2, e3]) == DictOf([e1, e2])[e3.0 := e3.1];
  }

  /** As written the node can never succeed: it always fails on `user_query`. */
  lemma AuthorityAlwaysFails(s: GraphState, advise: (string, Recs, Recs, Recs) -> string, msgId: string)
    ensures Authority(DeclaredInput(s), advise, msgId) == Err(KeyError("user_query"))
  {
  }

  /** The names the authority looks up are exactly the names the evaluators write. */
  lemma LookupNamesAreEvaluatorNames()
    ensures {UnclassName, SecretName, TopSecretName}
      == {ExpertName(TopSecretLevel), ExpertName(SecretLevel), ExpertName(UnclassLevel)}
  {
  }

  /** Under `Gather`, with the query restored, after a first classification the authority succeeds and
      sees each evaluator's own records. */
  lemma AuthorityAfterFirstGather(s: GraphState, query: string, hits: Level -> seq<Hit>,
                                  judge: Level -> (string -> Decision),
                                  advise: (string, Recs, Recs, Recs) -> string, msgId: string)
    requires s.analysis == []
    ensures var t := Orchestrator.Gather(s, hits, judge);
      var r := Authority(RestoredInput(t, query), advise, msgId);
      && r.Ok?
      && r.value.messages == [Message(msgId, Assistant, advise(query,
           Kept(UnclassLevel, hits(UnclassLevel), s.ctxDoc, judge(UnclassLevel)),
           Kept(SecretLevel, hits(SecretLevel), s.ctxDoc, judge(SecretLevel)),
           Kept(TopSecretLevel, hits(TopSecretLevel), s.ctxDoc, judge(TopSecretLevel))))]
      && r.value.nextAgent == Some("user_proxy")
  {
    Orchestrator.GatherFirstRun(s, hits, judge);
    var t := Orchestrator.Gather(s, hits, judge);
    var e1 := Orchestrator.EntryOf(TopSecretLevel, s, hits, judge);
    var e2 := Orchestrator.EntryOf(SecretLevel, s, hits, judge);
    var e3 := Orchestrator.EntryOf(UnclassLevel, s, hits, judge);
    assert t.analysis == [e1, e2, e3];
    DictOfThree(e1, e2, e3);
  }

  /** With the query and logs restored and the evaluators returning only their
      additions, the authority succeeds after every gather, first or later, and
      sees each evaluator's records from this run: the fresh entries come last, and
      `dict()` keeps the last pair of each name. */
  lemma AuthorityAfterGather(s: GraphState, query: string, hits: Level -> seq<Hit>,
                             judge: Level -> (string -> Decision),
                             advise: (string, Recs, Recs, Recs) -> string, msgId: string)
    ensures Orchestrator.FixedGatherStep(s, hits, judge).Ok?
    ensures var t := Orchestrator.FixedGatherStep(s, hits, judge).value;
      var r := Authority(RestoredInput(t, query), advise, msgId);
      && r.Ok?
      && r.value.messages == [Message(msgId, Assistant, advise(query,
           Kept(UnclassLevel, hits(UnclassLevel), s.ctxDoc, judge(UnclassLevel)),
           Kept(SecretLevel, hits(SecretLevel), s.ctxDoc, judge(SecretLevel)),
           Kept(TopSecretLevel, hits(TopSecretLevel), s.ctxDoc, judge(TopSecretLevel))))]
      && r.value.nextAgent == Some("user_proxy")
      && r.value.logs == t.logs
  {
    Orchestrator.FixedGatherStepShape(s, hits, judge);
    var e1 := Orchestrator.EntryOf(TopSecretLevel, s, hits, judge);
    var e2 := Orchestrator.EntryOf(SecretLevel, s, hits, judge);
    var e3 := Orchestrator.EntryOf(UnclassLevel, s, hits, judge);
    DictOfAppend(s.analysis, [e1, e2, e3]);
    DictOfThree(e1, e2, e3);
  }

  /** With the reset taking effect, every classification, first or later, hands the
      authority the fresh records of all three evaluators. */
  lemma ResetGatherIsFresh(s: GraphState, query: string, hits: Level -> seq<Hit>,
                           judge: Level -> (string -> Decision),
                           advise: (string, Recs, Recs, Recs) -> string, msgId: string)
    ensures var t := Orchestrator.ResetGather(s, hits, judge);
      var r := Authority(RestoredInput(t, query), advise, msgId);
      && r.Ok?
      && r.value.messages == [Message(msgId, Assistant, advise(query,
           Kept(UnclassLevel, hits(UnclassLevel), s.ctxDoc, judge(UnclassLevel)),
           Kept(SecretLevel, hits(SecretLevel), s.ctxDoc, judge(SecretLevel)),
           Kept(TopSecretLevel, hits(TopSecretLevel), s.ctxDoc, judge(TopSecretLevel))))]
  {
    AuthorityAfterFirstGather(s.(analysis := []), query, hits, judge, advise, msgId);
  }

  /** Under the copied-payload, send-order merge `Gather`: on a thread's second
      classification (the previous entries still present) the dict lookup sees
      stale top-secret and secret records, since only the last evaluator in send
      order contributes its fresh entry after the re-appended old ones. */
  lemma SecondRunLookupIsStale(s: GraphState, hits: Level -> seq<Hit>, judge: Level -> (string -> Decision),
                               old1: Recs, old2: Recs, old3: Recs)
    requires s.analysis == [(TopSecretName, old1), (SecretName, old2), (UnclassName, old3)]
    ensures var d := DictOf(Orchestrator.Gather(s, hits, judge).analysis);
      && TopSecretName in d && d[TopSecretName] == old1
      && SecretName in d && d[SecretName] == old2
      && UnclassName in d && d[UnclassName] == Kept(UnclassLevel, hits(UnclassLevel), s.ctxDoc, judge(UnclassLevel))
  {
    Orchestrator.GatherAnalysis(s, hits, judge);
    var e1 := Orchestrator.EntryOf(TopSecretLevel, s, hits, judge);
    var e2 := Orchestrator.EntryOf(SecretLevel, s, hits, judge);
    var e3 := Orchestrator.EntryOf(UnclassLevel, s, hits, judge);
    var a := s.analysis;
    var front := a + (a + [e1]) + (a + [e2]);
    var tail := a + [e3];
    assert Orchestrator.Gather(s, hits, judge).analysis == front + tail;
    DictOfThree(a[0], a[1], a[2]);
    assert a == [a[0], a[1], a[2]];
    assert tail[..|tail| - 1] == a;
    DictOfStep(tail);
    assert DictOf(tail) == map[TopSecretName := old1, SecretName := old2, UnclassName := e3.1];
    DictOfAppend(front, tail);
  }

  // ---------------------------------------------------------------------------
  // The standalone `evaluator` node

  /** The contents of the hits of document `ctx`, in hit order. */
  function MatchingContents(hits: seq<Hit>, ctx: DocRef): (r: seq<string>)
    ensures |r| <= |hits|
    ensures forall i :: 0 <= i < |r| ==> exists h :: h in hits && Matches(h, ctx) && h.content == r[i]
    decreases |hits|
  {
    if |hits| == 0 then []
    else
      var rest := MatchingContents(hits[1..], ctx);
      if Matches(hits[0], ctx) then [hits[0].content] + rest else rest
  }

  /** Every hit of the document contributes its content. */
  lemma {:induction false} MatchingContentsComplete(hits: seq<Hit>, ctx: DocRef, h: Hit)
    requires h in hits && Matches(h, ctx)
    ensures h.content in MatchingContents(hits, ctx)
    decreases |hits|
  {
    if hits[0] != h {
      assert h in hits[1..];
      MatchingContentsComplete(hits[1..], ctx, h);
    }
  }

  /** The contents of all hits, in hit order. */
  function Contents(hits: seq<Hit>): (r: seq<string>)
    ensures |r| == |hits| && forall i :: 0 <= i < |hits| ==> r[i] == hits[i].content
  {
    seq(|hits|, i requires 0 <= i < |hits| => hits[i].content)
  }

  /** The joined contents keep the search order, at most one per hit. */
  lemma {:induction false} MatchingContentsInHitOrder(hits: seq<Hit>, ctx: DocRef)
    ensures IsSubsequence(MatchingContents(hits, ctx), Contents(hits))
    decreases |hits|
  {
    if |hits| > 0 {
      MatchingContentsInHitOrder(hits[1..], ctx);
      var rest := MatchingContents(hits[1..], ctx);
      var all := Contents(hits);
      assert all[1..] == Contents(hits[1..]);
      if Matches(hits[0], ctx) {
        assert ([hits[0].content] + rest)[1..] == rest;
      } else {
        SubsequenceDropFront(rest, all);
      }
    }
  }

  /** The node's dict: only `messages`, holding the chain's one reply to the
      contents of the document's hits, in search order, joined by newlines. */
  function EvaluatorNode(s: GraphState, hits: seq<Hit>, decide: string -> Message): (u: Update)
    ensures u.(messages := []) == NoUpdate
    ensures u.messages == [decide(Join(MatchingContents(hits, s.ctxDoc), "\n"))]
  {
    NoUpdate.(messages := [decide(Join(MatchingContents(hits, s.ctxDoc), "\n"))])
  }

  /** When no matching content holds a newline, the text the node hands the chain
      splits back into exactly those contents. */
  lemma EvaluatorInputRoundTrip(s: GraphState, hits: seq<Hit>)
    requires forall h :: h in hits && Matches(h, s.ctxDoc) ==> '\n' !in h.content
    requires MatchingContents(hits, s.ctxDoc) != []
    ensures Split(Join(MatchingContents(hits, s.ctxDoc), "\n"), '\n') == MatchingContents(hits, s.ctxDoc)
  {
    var cs := MatchingContents(hits, s.ctxDoc);
    forall i | 0 <= i < |cs| ensures '\n' !in cs[i] {
      var h :| h in hits && Matches(h, s.ctxDoc) && h.content == cs[i];
    }
    SplitJoin(cs, '\n');
  }
}

=== FILE: community.dfy ===
/** The community serialiser of the graph-building component: `prepare_string`
    turns a community's nodes and relationships into the text the summarising LLM
    reads, and `process_community` pairs the community id with the summary. */
module Community {
  import opened Wrappers
  import opened Seqs
  import opened Strings

  /** A node row; `description` is None when the key is absent or null. */
  datatype GNode = GNode(id: string, kind: string, description: Option<string>)

  /** A relationship row. */
  datatype GRel = GRel(start: string, kind: string, end: string, description: Option<string>)

  datatype CommunityInfo = CommunityInfo(communityId: string, nodes: seq<GNode>, rels: seq<GRel>)

  /** The optional description suffix: only a present, non-empty description. */
  function Suffix(d: Option<string>): (r: string)
    ensures r != "" <==> d.Some? && d.value != ""
    ensures r != "" ==> r == ", description: " + d.value
  {
    if d.Some? && d.value != "" then ", description: " + d.value else ""
  }

  function NodeText(n: GNode): string {
    "id: " + n.id + ", type: " + n.kind + Suffix(n.description)
  }

  function RelText(r: GRel): string {
    "(" + r.start + ")-[:" + r.kind + "]->(" + r.end + ")" + Suffix(r.description)
  }

  /** Each line followed by "\n", concatenated: what the loops accumulate. */
  function Terminated(lines: seq<string>): string
    decreases |lines|
  {
    if |lines| == 0 then "" else lines[0] + "\n" + Terminated(lines[1..])
  }

  function NodeTexts(nodes: seq<GNode>): (r: seq<string>)
    ensures |r| == |nodes| && forall i :: 0 <= i < |nodes| ==> r[i] == NodeText(nodes[i])
  {
    seq(|nodes|, i requires 0 <= i < |nodes| => NodeText(nodes[i]))
  }

  function RelTexts(rels: seq<GRel>): (r: seq<string>)
    ensures |r| == |rels| && forall i :: 0 <= i < |rels| ==> r[i] == RelText(rels[i])
  {
    seq(|rels|, i requires 0 <= i < |rels| => RelText(rels[i]))
  }

  const NodesHeader: string := "Nodes are:"
  const RelsHeader: string := "Relationships are:"

  /** `prepare_string(data)`: the node section, a blank line, the relationship
      section. */
  function PrepareString(c: CommunityInfo): string {
    var nodesStr := NodesHeader + "\n" + Terminated(NodeTexts(c.nodes));
    var relsStr := RelsHeader + "\n" + Terminated(RelTexts(c.rels));
    nodesStr + "\n" + relsStr
  }

  /** The lines of the output, in order. */
  function Lines(c: CommunityInfo): seq<string> {
    [NodesHeader] + NodeTexts(c.nodes) + ["", RelsHeader] + RelTexts(c.rels)
  }

  lemma {:induction false} TerminatedAppend(a: seq<string>, b: seq<string>)
    ensures Terminated(a + b) == Terminated(a) + Terminated(b)
    decreases |a|
  {
    if |a| == 0 {
      assert a + b == b;
    } else {
      assert (a + b)[0] == a[0];
      assert (a + b)[1..] == a[1..] + b;
      TerminatedAppend(a[1..], b);
    }
  }

  lemma TerminatedOne(x: string)
    ensures Terminated([x]) == x + "\n"
  {
    assert [x][1..] == [];
  }

  /** Two headed sections separated by an empty line are the terminated lines of
      both. */
  lemma TwoSections(h: string, ns: seq<string>, m: string, rs: seq<string>)
    ensures Terminated([h] + ns + ["", m] + rs)
      == (h + "\n" + Terminated(ns)) + "\n" + (m + "\n" + Terminated(rs))
  {
    var sep := ["", m];
    TerminatedAppend([h] + ns + sep, rs);
    TerminatedAppend([h] + ns, sep);
    TerminatedAppend([h], ns);
    TerminatedAppend([""], [m]);
    assert [""] + [m] == sep;
    TerminatedOne(h);
    TerminatedOne("");
    TerminatedOne(m);
  }

  /** The output is exactly its lines, each ended by "\n". */
  lemma PrepareStringIsLines(c: CommunityInfo)
    ensures PrepareString(c) == Terminated(Lines(c))
  {
    TwoSections(NodesHeader, NodeTexts(c.nodes), RelsHeader, RelTexts(c.rels));
  }

  /** Empty inputs give the two headers and the blank line only. */
  lemma PrepareStringEmpty(id: string)
    ensures PrepareString(CommunityInfo(id, [], [])) == "Nodes are:\n\nRelationships are:\n"
  {
  }

  /** Splitting the text at "\n" recovers the node lines, the blank separator and the
      relationship lines (plus the empty piece after the final "\n"), provided no
      field holds a newline. */
  lemma {:induction false} TerminatedSplit(lines: seq<string>, rest: string)
    requires forall i :: 0 <= i < |lines| ==> '\n' !in lines[i]
    ensures Split(Terminated(lines) + rest, '\n') == lines + Split(rest, '\n')
    decreases |lines|
  {
    if |lines| > 0 {
      var tail := Terminated(lines[1..]) + rest;
      TerminatedCons(lines, rest);
      SplitAround(lines[0], tail, '\n');
      SplitWithoutSep(lines[0], '\n');
      TerminatedSplit(lines[1..], rest);
      ConsAppend(lines[0], lines[1..], Split(rest, '\n'));
      assert [lines[0]] + lines[1..] == lines;
    } else {
      assert Terminated(lines) + rest == rest;
      assert lines + Split(rest, '\n') == Split(rest, '\n');
    }
  }

  /** The first line, its "\n", then the remaining lines and what follows them. */
  lemma TerminatedCons(lines: seq<string>, rest: string)
    requires |lines| > 0
    ensures Terminated(lines) + rest == lines[0] + ['\n'] + (Terminated(lines[1..]) + rest)
  {
    var t1 := Terminated(lines[1..]);
    assert Terminated(lines) == lines[0] + "\n" + t1;
    AppendAssoc(lines[0] + "\n", t1, rest);
  }

  predicate NoNewlines(s: string) {
    '\n' !in s
  }

  predicate FieldsWithoutNewlines(c: CommunityInfo) {
    && (forall i :: 0 <= i < |c.nodes| ==> NoNewlines(NodeText(c.nodes[i])))
    && (forall i :: 0 <= i < |c.rels| ==> NoNewlines(RelText(c.rels[i])))
  }

  lemma HeadersHaveNoNewline()
    ensures '\n' !in NodesHeader && '\n' !in RelsHeader
  {
  }

  lemma LinesHaveNoNewline(c: CommunityInfo)
    requires FieldsWithoutNewlines(c)
    ensures forall i :: 0 <= i < |Lines(c)| ==> '\n' !in Lines(c)[i]
  {
    HeadersHaveNoNewline();
    var ns := NodeTexts(c.nodes);
    var rs := RelTexts(c.rels);
    var a := [NodesHeader] + ns;
    var b := a + ["", RelsHeader];
    assert forall i :: 0 <= i < |a| ==> '\n' !in a[i] by {
      forall i | 0 <= i < |a| ensures '\n' !in a[i] {
        if i > 0 { assert a[i] == ns[i - 1]; assert NoNewlines(NodeText(c.nodes[i - 1])); }
      }
    }
    assert forall i :: 0 <= i < |b| ==> '\n' !in b[i] by {
      forall i | 0 <= i < |b| ensures '\n' !in b[i] {
        if i < |a| { assert b[i] == a[i]; }
      }
    }
    forall i | 0 <= i < |Lines(c)| ensures '\n' !in Lines(c)[i] {
      if i < |b| { assert Lines(c)[i] == b[i]; }
      else { assert Lines(c)[i] == rs[i - |b|]; assert NoNewlines(RelText(c.rels[i - |b|])); }
    }
  }

  lemma PrepareStringLines(c: CommunityInfo)
    requires FieldsWithoutNewlines(c)
    ensures Split(PrepareString(c), '\n') == Lines(c) + [""]
    ensures |Split(PrepareString(c), '\n')| == |c.nodes| + |c.rels| + 4
  {
    PrepareStringIsLines(c);
    LinesHaveNoNewline(c);
    TerminatedSplit(Lines(c), "");
    assert Terminated(Lines(c)) + "" == Terminated(Lines(c));
  }

  /** `process_community`: the community id unchanged, with the summary of the
      serialised community. The summariser sees the community's lines, each ended
      by a newline; when no field holds a newline, its input splits back into
      exactly those lines. */
  function ProcessCommunity(c: CommunityInfo, summarize: string -> string): (r: (string, string))
    ensures r.0 == c.communityId
    ensures r.1 == summarize(Terminated(Lines(c)))
    ensures FieldsWithoutNewlines(c) ==>
      exists text :: r.1 == summarize(text) && Split(text, '\n') == Lines(c) + [""]
  {
    PrepareStringIsLines(c);
    if FieldsWithoutNewlines(c) then
      PrepareStringLines(c);
      (c.communityId, summarize(PrepareString(c)))
    else
      (c.communityId, summarize(PrepareString(c)))
  }
}

=== FILE: data_model.dfy ===
/** The configuration records of `data/model.py`: the provider enums, the records
    built by each `from_env`, and the structured output of the dataset selection.
    The environment is a finite map; an absent key is an unset variable. */
module DataModel {
  import opened Wrappers

  type Env = map<string, string>

  /** A pydantic field value as `_populate_model` and `_set_env_vars` see it: `None`,
      a string, or a non-string object known only by its `str()` text. */
  datatype FieldValue = Null | Str(s: string) | Opaque(text: string)

  /** A record's fields in declaration order (the order of `model.dict()`). */
  type Fields = seq<(string, FieldValue)>

  predicate DistinctNames(fs: Fields) {
    forall i, j :: 0 <= i < j < |fs| ==> fs[i].0 != fs[j].0
  }

  function Names(fs: Fields): (r: seq<string>)
    ensures |r| == |fs| && forall i :: 0 <= i < |fs| ==> r[i] == fs[i].0
  {
    seq(|fs|, i requires 0 <= i < |fs| => fs[i].0)
  }

  /** `os.getenv(name)` turned into a field value. */
  function GetEnv(env: Env, name: string): (v: FieldValue)
    ensures v.Null? <==> name !in env
    ensures v.Str? ==> v.s == env[name]
  {
    if name in env then Str(env[name]) else Null
  }

  // ---------------------------------------------------------------------------
  // Providers

  datatype LlmProvider = LlmAzureOpenAI | LlmOllama | LlmAzureML
  datatype EmbeddingProvider = EmbAzureOpenAI | EmbOllama

  function LlmValue(p: LlmProvider): string {
    match p
    case LlmAzureOpenAI => "azure_openai"
    case LlmOllama => "ollama"
    case LlmAzureML => "azure_ml"
  }

  function EmbeddingValue(p: EmbeddingProvider): string {
    match p
    case EmbAzureOpenAI => "azure_openai"
    case EmbOllama => "ollama"
  }

  /** `AgentModel.from_env()`: MODEL_PROVIDER, defaulting to azure_openai when unset;
      a value that is not one of the enum's values fails validation. */
  function AgentModelFromEnv(env: Env): (r: Result<LlmProvider>)
    ensures "MODEL_PROVIDER" !in env ==> r == Ok(LlmAzureOpenAI)
    ensures "MODEL_PROVIDER" in env ==>
      (r.Ok? <==> env["MODEL_PROVIDER"] in {"azure_openai", "ollama", "azure_ml"})
    ensures r.Ok? && "MODEL_PROVIDER" in env ==> LlmValue(r.value) == env["MODEL_PROVIDER"]
    ensures r.Err? ==> r.error.ValueError?
  {
    if "MODEL_PROVIDER" !in env then Ok(LlmAzureOpenAI)
    else
      var v := env["MODEL_PROVIDER"];
      if v == "azure_openai" then Ok(LlmAzureOpenAI)
      else if v == "ollama" then Ok(LlmOllama)
      else if v == "azure_ml" then Ok(LlmAzureML)
      else Err(ValueError("invalid MODEL_PROVIDER"))
  }

  /** `AgentEmbeddings.from_env()`, likewise for EMBEDDING_PROVIDER. */
  function AgentEmbeddingsFromEnv(env: Env): (r: Result<EmbeddingProvider>)
    ensures "EMBEDDING_PROVIDER" !in env ==> r == Ok(EmbAzureOpenAI)
    ensures "EMBEDDING_PROVIDER" in env ==>
      (r.Ok? <==> env["EMBEDDING_PROVIDER"] in {"azure_openai", "ollama"})
    ensures r.Ok? && "EMBEDDING_PROVIDER" in env ==> EmbeddingValue(r.value) == env["EMBEDDING_PROVIDER"]
    ensures r.Err? ==> r.error.ValueError?
  {
    if "EMBEDDING_PROVIDER" !in env then Ok(EmbAzureOpenAI)
    else
      var v := env["EMBEDDING_PROVIDER"];
      if v == "azure_openai" then Ok(EmbAzureOpenAI)
      else if v == "ollama" then Ok(EmbOllama)
      else Err(ValueError("invalid EMBEDDING_PROVIDER"))
  }

  /** The enums have exactly three and two values, and their values are told apart. */
  lemma ProviderValues()
    ensures forall p: LlmProvider :: LlmValue(p) in {"azure_openai", "ollama", "azure_ml"}
    ensures forall p, q: LlmProvider :: LlmValue(p) == LlmValue(q) ==> p == q
    ensures forall p: EmbeddingProvider :: EmbeddingValue(p) in {"azure_openai", "ollama"}
    ensures forall p, q: EmbeddingProvider :: EmbeddingValue(p) == EmbeddingValue(q) ==> p == q
    ensures forall env: Env :: "MODEL_PROVIDER" in env && AgentModelFromEnv(env).Ok? ==>
      AgentModelFromEnv(env) == Ok(if env["MODEL_PROVIDER"] == "azure_openai" then LlmAzureOpenAI
                                   else if env["MODEL_PROVIDER"] == "ollama" then LlmOllama else LlmAzureML)
  {
  }

  // ---------------------------------------------------------------------------
  // The `from_env` records

  /** `AzureOpenAIModel.from_env()`. The deployment name is passed under the
      undeclared keyword DEPLOYMENT_NAME, which the model ignores, so the declared
      LLM_DEPLOYMENT_NAME field keeps its default None. */
  function AzureOpenAIModelFromEnv(env: Env): (fs: Fields)
    ensures Names(fs) == ["OPENAI_API_VERSION", "AZURE_OPENAI_ENDPOINT", "AZURE_OPENAI_API_KEY", "LLM_DEPLOYMENT_NAME"]
    ensures forall i :: 0 <= i < 3 ==> fs[i].1 == GetEnv(env, fs[i].0)
    ensures fs[3].1 == Null
  {
    [("OPENAI_API_VERSION", GetEnv(env, "OPENAI_API_VERSION")),
     ("AZURE_OPENAI_ENDPOINT", GetEnv(env, "AZURE_OPENAI_ENDPOINT")),
     ("AZURE_OPENAI_API_KEY", GetEnv(env, "AZURE_OPENAI_API_KEY")),
     ("LLM_DEPLOYMENT_NAME", Null)]
  }

  /** `AzureOpenAIEmbeddingModel.from_env()`: EMBEDDING_DEPLOYMENT_NAME keeps None
      for the same reason. */
  function AzureOpenAIEmbeddingModelFromEnv(env: Env): (fs: Fields)
    ensures Names(fs) == ["OPENAI_API_VERSION", "AZURE_OPENAI_ENDPOINT", "AZURE_OPENAI_API_KEY", "EMBEDDING_DEPLOYMENT_NAME"]
    ensures forall i :: 0 <= i < 3 ==> fs[i].1 == GetEnv(env, fs[i].0)
    ensures fs[3].1 == Null
  {
    [("OPENAI_API_VERSION", GetEnv(env, "OPENAI_API_VERSION")),
     ("AZURE_OPENAI_ENDPOINT", GetEnv(env, "AZURE_OPENAI_ENDPOINT")),
     ("AZURE_OPENAI_API_KEY", GetEnv(env, "AZURE_OPENAI_API_KEY")),
     ("EMBEDDING_DEPLOYMENT_NAME", Null)]
  }

  /** `str()` of the endpoint type, and a stand-in for `str()` of the content
      formatter object (a default object repr naming the class and an address). */
  const ApiTypeText: string := "AzureMLEndpointApiType.dedicated"
  const FormatterText: string := "CustomOpenAIContentFormatter"

  /** `AzureMachineLearningModel.from_env()`: two fields from the environment, the
      fixed endpoint type and formatter objects, and MODEL_KWARGS None. */
  function AzureMachineLearningModelFromEnv(env: Env): (fs: Fields)
    ensures Names(fs) == ["AML_ENDPOINT_URL", "AML_ENDPOINT_API_TYPE", "AML_ENDPOINT_API_KEY", "CONTENT_FORMATTER", "MODEL_KWARGS"]
    ensures fs[0].1 == GetEnv(env, "AML_ENDPOINT_URL") && fs[2].1 == GetEnv(env, "AML_ENDPOINT_API_KEY")
    ensures fs[1].1.Opaque? && fs[3].1.Opaque? && fs[4].1 == Null
  {
    [("AML_ENDPOINT_URL", GetEnv(env, "AML_ENDPOINT_URL")),
     ("AML_ENDPOINT_API_TYPE", Opaque(ApiTypeText)),
     ("AML_ENDPOINT_API_KEY", GetEnv(env, "AML_ENDPOINT_API_KEY")),
     ("CONTENT_FORMATTER", Opaque(FormatterText)),
     ("MODEL_KWARGS", Null)]
  }

  /** `OllamaModel.from_env()`: a record without fields. */
  function OllamaModelFromEnv(env: Env): (fs: Fields)
    ensures fs == []
  {
    []
  }

  /** `Neo4jStore.from_env()`: all six fields from the environment. */
  function Neo4jStoreFromEnv(env: Env): (fs: Fields)
    ensures Names(fs) == ["NEO4J_URI", "NEO4J_USERNAME", "NEO4J_PASSWORD", "NEO4J_DATABASE",
                          "NEO4J_VECTOR_INDEX", "NEO4J_TEXT_NODE_PROPERTY"]
    ensures forall i :: 0 <= i < |fs| ==> fs[i].1 == GetEnv(env, fs[i].0)
  {
    var names := ["NEO4J_URI", "NEO4J_USERNAME", "NEO4J_PASSWORD", "NEO4J_DATABASE",
                  "NEO4J_VECTOR_INDEX", "NEO4J_TEXT_NODE_PROPERTY"];
    seq(6, i requires 0 <= i < 6 => (names[i], GetEnv(env, names[i])))
  }

  /** Every record's field names are distinct. */
  lemma RecordNamesDistinct(env: Env)
    ensures DistinctNames(AzureOpenAIModelFromEnv(env))
    ensures DistinctNames(AzureOpenAIEmbeddingModelFromEnv(env))
    ensures DistinctNames(AzureMachineLearningModelFromEnv(env))
    ensures DistinctNames(Neo4jStoreFromEnv(env))
  {
    var a := AzureOpenAIModelFromEnv(env);
    assert Names(a) == ["OPENAI_API_VERSION", "AZURE_OPENAI_ENDPOINT", "AZURE_OPENAI_API_KEY", "LLM_DEPLOYMENT_NAME"];
    var e := AzureOpenAIEmbeddingModelFromEnv(env);
    assert Names(e) == ["OPENAI_API_VERSION", "AZURE_OPENAI_ENDPOINT", "AZURE_OPENAI_API_KEY", "EMBEDDING_DEPLOYMENT_NAME"];
    var m := AzureMachineLearningModelFromEnv(env);
    assert Names(m) == ["AML_ENDPOINT_URL", "AML_ENDPOINT_API_TYPE", "AML_ENDPOINT_API_KEY", "CONTENT_FORMATTER", "MODEL_KWARGS"];
    var n := Neo4jStoreFromEnv(env);
    assert Names(n) == ["NEO4J_URI", "NEO4J_USERNAME", "NEO4J_PASSWORD", "NEO4J_DATABASE",
                        "NEO4J_VECTOR_INDEX", "NEO4J_TEXT_NODE_PROPERTY"];
  }

  // ---------------------------------------------------------------------------
  // Dataset selection

  /** One selected `(dataset, version)` pair. */
  datatype SelectedDataset = SelectedDataset(dataset: string, version: string)

  /** The structured reply of the submission chain. */
  datatype SelectedDatasets = SelectedDatasets(response: string, selected: seq<SelectedDataset>)
}

=== FILE: document_processors.dfy ===
/** The dataset-discovery, confirmation and submission nodes. The dataset registry,
    the LLM chains, the resume value of the interrupt and the job submitter are
    parameters. */
module DocumentProcessors {
  import opened Wrappers
  import opened Strings
  import opened AgentState
  import opened DataModel
  import Graph

  const SearchingMessage: string := "Searching for Azure ML datasets"
  const SubmittingMessage: string := "Submitting the graph indexer job to Azure ML"
  const JobPrefix: string := "Azure ML processing has begun! The relevant job url(s) is: "

  /** `get_datasets` (fetch_available_documents and fetch_available_scgs): its `State`
      input plus the registry listing and `task = "index_scg"`, with a started and a
      finished log. An empty listing is not treated specially. */
  function GetDatasets(s: GraphState, registry: seq<Dataset>): (u: Update)
    ensures u.datasets == Some(registry) && u.task == Some("index_scg")
    ensures u.logs == s.logs + [Log(SearchingMessage, false), Log(SearchingMessage, true)]
    ensures u.messages == s.messages && u.lastUserMessage == Some(s.lastUserMessage)
    ensures u.nextAgent == Some(s.nextAgent) && u.ctxDoc == Some(s.ctxDoc) && u.analysis == []
  {
    StateView(s).(logs := s.logs + [Log(SearchingMessage, false), Log(SearchingMessage, true)],
                  datasets := Some(registry), task := Some("index_scg"))
  }

  /** `present_datasets`: the chain's reply replaces `messages` in the returned
      state, and only a started log is appended. */
  function PresentDatasets(s: GraphState, reply: Message): (u: Update)
    ensures u.messages == [reply]
    ensures u.logs == s.logs + [Log(SearchingMessage, false)]
    ensures u.datasets == Some(s.datasets) && u.task == s.task
    ensures u.(messages := [], logs := []) == DatasetsView(s).(messages := [], logs := [])
  {
    DatasetsView(s).(messages := [reply], logs := s.logs + [Log(SearchingMessage, false)])
  }

  /** `confirmation`: the interrupt's resume value `choice` becomes a human message
      and the new `last_user_message`; the rest of the input is returned as is. */
  function Confirmation(s: GraphState, choice: string, msgId: string): (u: Update)
    ensures u.messages == [Message(msgId, Human, choice)]
    ensures u.lastUserMessage == Some(Text(choice))
    ensures u.(messages := [], lastUserMessage := None) == DatasetsView(s).(messages := [], lastUserMessage := None)
  {
    DatasetsView(s).(messages := [Message(msgId, Human, choice)], lastUserMessage := Some(Text(choice)))
  }

  /** `graph_indexer` (start_indexer_request): the LLM's text is both the new
      `last_user_message` and, as a plain string, the `messages` value, which the
      messages reducer turns into a human message. */
  function GraphIndexer(s: GraphState, content: string, msgId: string): (u: Update)
    ensures u.lastUserMessage == Some(Text(content))
    ensures u.messages == [Message(msgId, Human, content)]
    ensures u.lastUserMessage.value.text == u.messages[0].content
    ensures u.(messages := [], lastUserMessage := None) == StateView(s).(messages := [], lastUserMessage := None)
  {
    StateView(s).(lastUserMessage := Some(Text(content)), messages := [Message(msgId, Human, content)])
  }

  /** After the merge, the content is the newest message, from the human side, and
      the new `last_user_message`; the returned state's logs double the old ones, and
      every other channel keeps its value. */
  lemma GraphIndexerMerged(s: GraphState, content: string, msgId: string)
    requires forall i :: 0 <= i < |s.messages| ==> s.messages[i].id != msgId
    ensures var t := Merge(s, GraphIndexer(s, content, msgId));
      t == s.(messages := s.messages + [Message(msgId, Human, content)],
              lastUserMessage := Text(content), logs := s.logs + s.logs)
  {
    AddMessageFresh(s.messages, Message(msgId, Human, content));
  }

  /** `document_ingester` (start_processor_request) returns None: no update. */
  function DocumentIngester(s: GraphState): (u: Update)
    ensures Merge(s, u) == s
  {
    MergeNoUpdate(s);
    NoUpdate
  }

  /** `run_graph_indexer` (submit_indexer and submit_processor): one submission per
      selected dataset, in order; the final message names the returned job urls
      joined with ","; the chain's own response is overwritten. */
  method RunGraphIndexer(s: GraphState, selection: SelectedDatasets, submit: (string, string) -> string, msgId: string)
    returns (u: Update, submitted: seq<(string, string)>, jobIds: seq<string>)
    ensures |submitted| == |selection.selected| == |jobIds|
    ensures forall i :: 0 <= i < |submitted| ==>
      submitted[i] == (selection.selected[i].dataset, selection.selected[i].version)
      && jobIds[i] == submit(selection.selected[i].dataset, selection.selected[i].version)
    ensures u.messages == [Message(msgId, Assistant, JobPrefix + Join(jobIds, ",") + ".")]
    ensures u.logs == s.logs + [Log(SubmittingMessage, false), Log(SubmittingMessage, true)]
    ensures u.datasets == Some(s.datasets) && u.task == s.task && u.nextAgent == Some(s.nextAgent)
    ensures u.(messages := [], logs := []) == DatasetsView(s).(messages := [], logs := [])
  {
    var responseMessage := Message(msgId, Assistant, selection.response);
    u := DatasetsView(s).(messages := [responseMessage], logs := s.logs + [Log(SubmittingMessage, false)]);
    submitted := [];
    jobIds := [];
    var i := 0;
    while i < |selection.selected|
      invariant i <= |selection.selected|
      invariant |submitted| == i && |jobIds| == i
      invariant forall k :: 0 <= k < i ==>
        submitted[k] == (selection.selected[k].dataset, selection.selected[k].version)
        && jobIds[k] == submit(selection.selected[k].dataset, selection.selected[k].version)
    {
      var chosen := selection.selected[i];
      submitted := submitted + [(chosen.dataset, chosen.version)];
      jobIds := jobIds + [submit(chosen.dataset, chosen.version)];
      i := i + 1;
    }
    u := u.(messages := [Message(msgId, Assistant, JobPrefix + Join(jobIds, ",") + ".")],
            logs := u.logs + [Log(SubmittingMessage, true)]);
  }

  /** Both indexing branches end at `submit_indexer`: whatever the registry, the
      chain's reply and the user's choice, the `task` that `confirm_with_user` routes
      on is "index_scg". */
  lemma ConfirmRoutesToIndexer(s: GraphState, registry: seq<Dataset>, reply: Message, choice: string, msgId: string)
    ensures var s1 := Merge(s, GetDatasets(s, registry));
      var s2 := Merge(s1, PresentDatasets(s1, reply));
      var s3 := Merge(s2, Confirmation(s2, choice, msgId));
      && s3.task == Some("index_scg")
      && s3.datasets == registry
      && Graph.Route(Graph.ConfirmWithUser, s3) == Ok([Graph.SubmitIndexer])
  {
  }

  /** The discovery branch leaves one more started than finished "Searching" log:
      `present_datasets` never closes its log. */
  function CountLogs(logs: seq<Log>, l: Log): nat
    decreases |logs|
  {
    if |logs| == 0 then 0 else (if logs[0] == l then 1 else 0) + CountLogs(logs[1..], l)
  }

  lemma {:induction false} CountLogsAppend(a: seq<Log>, b: seq<Log>, l: Log)
    ensures CountLogs(a + b, l) == CountLogs(a, l) + CountLogs(b, l)
    decreases |a|
  {
    if |a| == 0 {
      assert a + b == b;
    } else {
      assert (a + b)[1..] == a[1..] + b;
      CountLogsAppend(a[1..], b, l);
    }
  }

  lemma PresentLeavesLogOpen(s: GraphState, registry: seq<Dataset>, reply: Message)
    requires CountLogs(s.logs, Log(SearchingMessage, false)) == CountLogs(s.logs, Log(SearchingMessage, true))
    ensures var s1 := Merge(s, GetDatasets(s, registry));
      var s2 := Merge(s1, PresentDatasets(s1, reply));
      CountLogs(s2.logs, Log(SearchingMessage, false)) > CountLogs(s2.logs, Log(SearchingMessage, true))
  {
    var started := Log(SearchingMessage, false);
    var finished := Log(SearchingMessage, true);
    var s1 := Merge(s, GetDatasets(s, registry));
    var added1 := [started, finished];
    assert s1.logs == s.logs + (s.logs + added1);
    CountLogsAppend(s.logs, s.logs + added1, started);
    CountLogsAppend(s.logs, s.logs + added1, finished);
    CountLogsAppend(s.logs, added1, started);
    CountLogsAppend(s.logs, added1, finished);
    assert added1 == [started] + [finished];
    CountLogsAppend([started], [finished], started);
    CountLogsAppend([started], [finished], finished);
    assert [started][1..] == [] && [finished][1..] == [];
    var s2 := Merge(s1, PresentDatasets(s1, reply));
    assert s2.logs == s1.logs + (s1.logs + [started]);
    CountLogsAppend(s1.logs, s1.logs + [started], started);
    CountLogsAppend(s1.logs, s1.logs + [started], finished);
    CountLogsAppend(s1.logs, [started], started);
    CountLogsAppend(s1.logs, [started], finished);
    assert [started][1..] == [];
  }
}

=== FILE: evaluators.dfy ===
/** The three classification evaluators (`ts_evaluator`, `s_evaluator`,
    `unclass_evaluator`). The search index and the LLM chain are parameters: the
    hits arrive already fetched, and `judge` maps a hit's content to the structured
    decision the chain returns. */
module Evaluators {
  import opened Wrappers
  import opened AgentState

  /** A search hit with its metadata already parsed to the `doc_name` it carries. */
  datatype Hit = Hit(content: string, docName: string)

  /** Which evaluator: the three share one body and differ in label, name and message. */
  datatype Level = TopSecretLevel | SecretLevel | UnclassLevel

  /** The name under which an evaluator appends its records. */
  function ExpertName(l: Level): string {
    match l
    case TopSecretLevel => "top_secret_expert_agent"
    case SecretLevel => "secret_expert_agent"
    case UnclassLevel => "unclass_expert_agent"
  }

  /** Each evaluator writes under its own name. */
  lemma ExpertNamesDistinct()
    ensures forall l, l' :: ExpertName(l) == ExpertName(l') ==> l == l'
  {
  }

  /** The message of both progress logs an evaluator appends. */
  function LogMessage(l: Level): string {
    match l
    case TopSecretLevel => "Top Secret Evaluator agent is analyzing..."
    case SecretLevel => "Secret Evaluator agent is analyzing..."
    case UnclassLevel => "Unclass Evaluator agent is analyzing..."
  }

  /** The label test each evaluator applies to the returned `classification`:
      a plain string comparison. */
  predicate Accepts(l: Level, verdict: string) {
    match l
    case TopSecretLevel => verdict == "Top Secret"
    case SecretLevel => verdict == "Secret"
    case UnclassLevel => verdict == "Unclassified" || verdict == "CUI"
  }

  /** Each evaluator keeps exactly its own labels, CUI only the unclassified one,
      and no label is kept by two evaluators. */
  lemma AcceptsPartition(verdict: string)
    ensures Accepts(TopSecretLevel, verdict) <==> verdict == "Top Secret"
    ensures Accepts(SecretLevel, verdict) <==> verdict == "Secret"
    ensures Accepts(UnclassLevel, verdict) <==> verdict == "Unclassified" || verdict == "CUI"
    ensures forall l, l' :: Accepts(l, verdict) && Accepts(l', verdict) ==> l == l'
  {
  }

  /** The evaluators' tests cover exactly the declared labels: a declared label is
      kept by some evaluator, and any other string the chain returns is kept by
      none, so such a decision disappears from the analysis without an error. */
  lemma KeptIffDeclared(verdict: string)
    ensures (exists l :: Accepts(l, verdict)) <==> verdict in DeclaredLabels
    ensures verdict !in DeclaredLabels ==> forall l :: !Accepts(l, verdict)
  {
    if verdict == "Top Secret" {
      assert Accepts(TopSecretLevel, verdict);
    } else if verdict == "Secret" {
      assert Accepts(SecretLevel, verdict);
    } else if verdict in DeclaredLabels {
      assert Accepts(UnclassLevel, verdict);
    }
  }

  /** The exact-name filter: a hit is analysed only when its `doc_name` equals
      `ctx_doc`. No document name equals an unset `ctx_doc`. */
  predicate Matches(h: Hit, ctx: DocRef) {
    ctx.Doc? && h.docName == ctx.name
  }

  /** The record kept for a hit whose decision was accepted. */
  function RecordOf(h: Hit, judge: string -> Decision): ExpertRecord {
    ExpertRecord(judge(h.content), h.content)
  }

  /** The hits whose record is kept, in hit order. */
  function KeptHits(l: Level, hits: seq<Hit>, ctx: DocRef, judge: string -> Decision): (r: seq<Hit>)
    ensures |r| <= |hits|
    ensures forall i :: 0 <= i < |r| ==> r[i] in hits && Matches(r[i], ctx) && Accepts(l, judge(r[i].content).classification)
    decreases |hits|
  {
    if |hits| == 0 then []
    else
      var rest := KeptHits(l, hits[1..], ctx, judge);
      if Matches(hits[0], ctx) && Accepts(l, judge(hits[0].content).classification)
      then [hits[0]] + rest
      else rest
  }

  /** The `positive_decisions` list an evaluator builds from the hits. */
  function Kept(l: Level, hits: seq<Hit>, ctx: DocRef, judge: string -> Decision): (r: seq<ExpertRecord>)
    ensures |r| <= |hits|
    ensures forall i :: 0 <= i < |r| ==>
      Accepts(l, r[i].decision.classification) &&
      exists h :: h in hits && Matches(h, ctx) && r[i] == RecordOf(h, judge)
  {
    var ks := KeptHits(l, hits, ctx, judge);
    seq(|ks|, i requires 0 <= i < |ks| => RecordOf(ks[i], judge))
  }

  /** Every matching hit whose decision the level accepts is kept. */
  lemma {:induction false} KeptHitsComplete(l: Level, hits: seq<Hit>, ctx: DocRef, judge: string -> Decision, h: Hit)
    requires h in hits && Matches(h, ctx) && Accepts(l, judge(h.content).classification)
    ensures h in KeptHits(l, hits, ctx, judge)
    decreases |hits|
  {
    if hits[0] != h {
      assert h in hits[1..];
      KeptHitsComplete(l, hits[1..], ctx, judge, h);
    }
  }

  /** ... and so contributes its record. */
  lemma KeptComplete(l: Level, hits: seq<Hit>, ctx: DocRef, judge: string -> Decision, h: Hit)
    requires h in hits && Matches(h, ctx) && Accepts(l, judge(h.content).classification)
    ensures RecordOf(h, judge) in Kept(l, hits, ctx, judge)
  {
    KeptHitsComplete(l, hits, ctx, judge, h);
    var ks := KeptHits(l, hits, ctx, judge);
    var i :| 0 <= i < |ks| && ks[i] == h;
    assert Kept(l, hits, ctx, judge)[i] == RecordOf(h, judge);
  }

  /** Records follow hit order with at most one per hit: the kept hits are a
      subsequence of the hits. */
  predicate IsSubsequence<T(==)>(a: seq<T>, b: seq<T>)
    decreases |b|
  {
    if |a| == 0 then true
    else if |b| == 0 then false
    else if a[0] == b[0] then IsSubsequence(a[1..], b[1..])
    else IsSubsequence(a, b[1..])
  }

  lemma {:induction false} KeptInHitOrder(l: Level, hits: seq<Hit>, ctx: DocRef, judge: string -> Decision)
    ensures IsSubsequence(KeptHits(l, hits, ctx, judge), hits)
    decreases |hits|
  {
    if |hits| > 0 {
      KeptInHitOrder(l, hits[1..], ctx, judge);
      var rest := KeptHits(l, hits[1..], ctx, judge);
      if Matches(hits[0], ctx) && Accepts(l, judge(hits[0].content).classification) {
        assert ([hits[0]] + rest)[1..] == rest;
      } else {
        SubsequenceDropFront(rest, hits);
      }
    }
  }

  lemma {:induction false} SubsequenceDropFront<T>(a: seq<T>, b: seq<T>)
    requires |b| > 0 && IsSubsequence(a, b[1..])
    ensures IsSubsequence(a, b)
    decreases |a| + |b|
  {
    if |a| > 0 && a[0] == b[0] {
      SubsequenceTail(a, b[1..]);
    }
  }

  lemma {:induction false} SubsequenceTail<T>(a: seq<T>, b: seq<T>)
    requires |a| > 0 && IsSubsequence(a, b)
    ensures IsSubsequence(a[1..], b)
    decreases |a| + |b|
  {
    if |b| == 0 {
    } else if a[0] == b[0] {
      if |a| > 1 {
        SubsequenceTail(a[1..], b[1..]);
        SubsequenceDropFront(a[2..], b);
        assert a[1..][1..] == a[2..];
      }
    } else {
      SubsequenceTail(a, b[1..]);
      SubsequenceDropFront(a[1..], b);
    }
  }

  /** No hit of another document reaches an evaluator's records. */
  lemma {:induction false} NoForeignRecords(l: Level, hits: seq<Hit>, ctx: DocRef, judge: string -> Decision)
    requires forall h :: h in hits ==> !Matches(h, ctx)
    ensures KeptHits(l, hits, ctx, judge) == []
    ensures Kept(l, hits, ctx, judge) == []
    decreases |hits|
  {
    if |hits| > 0 {
      assert hits[0] in hits;
      NoForeignRecords(l, hits[1..], ctx, judge);
    }
  }

  /** The dict an evaluator returns: its whole input (the three channels of the
      analysis state) with one `(name, records)` pair and two progress logs appended. */
  function Evaluate(l: Level, s: GraphState, hits: seq<Hit>, judge: string -> Decision): (u: Update)
    ensures u.analysis == s.analysis + [(ExpertName(l), Kept(l, hits, s.ctxDoc, judge))]
    ensures u.logs == s.logs + [Log(LogMessage(l), false), Log(LogMessage(l), true)]
    ensures u.ctxDoc == Some(s.ctxDoc)
    ensures u.messages == [] && u.lastUserMessage.None? && u.nextAgent.None?
    ensures u.datasets.None? && u.task.None?
  {
    var view := ExpertView(s);
    view.(logs := view.logs + [Log(LogMessage(l), false), Log(LogMessage(l), true)],
          analysis := view.analysis + [(ExpertName(l), Kept(l, hits, s.ctxDoc, judge))])
  }

  /** Merged into a state, an evaluator's dict re-appends the logs and the analysis
      it was given before its own additions; nothing outside those two channels
      changes. */
  lemma EvaluateMerged(l: Level, s: GraphState, hits: seq<Hit>, judge: string -> Decision)
    ensures var t := Merge(s, Evaluate(l, s, hits, judge));
      && t.analysis == s.analysis + s.analysis + [(ExpertName(l), Kept(l, hits, s.ctxDoc, judge))]
      && t.logs == s.logs + s.logs + [Log(LogMessage(l), false), Log(LogMessage(l), true)]
      && t.(logs := s.logs, analysis := s.analysis) == s
  {
    assert AddMessages(s.messages, []) == s.messages;
  }

  /** The dict an evaluator evidently means to return, given that the runtime
      applies its three evaluators in one step: only what it adds, the
      `(name, records)` pair and its two progress logs, and no `ctx_doc`. */
  function EvaluatorAdditions(l: Level, s: GraphState, hits: seq<Hit>, judge: string -> Decision): (u: Update)
    ensures u.analysis == [(ExpertName(l), Kept(l, hits, s.ctxDoc, judge))]
    ensures u.logs == [Log(LogMessage(l), false), Log(LogMessage(l), true)]
    ensures u.(analysis := [], logs := []) == NoUpdate
  {
    NoUpdate.(analysis := [(ExpertName(l), Kept(l, hits, s.ctxDoc, judge))],
              logs := [Log(LogMessage(l), false), Log(LogMessage(l), true)])
  }

  /** The additions are exactly what the whole-state dict appends after the
      channels it was sent, and, unlike that dict, they write no channel that lacks
      a reducer. */
  lemma AdditionsAreEvaluateSuffix(l: Level, s: GraphState, hits: seq<Hit>, judge: string -> Decision)
    ensures var u := Evaluate(l, s, hits, judge);
      var a := EvaluatorAdditions(l, s, hits, judge);
      && u.analysis == s.analysis + a.analysis
      && u.logs == s.logs + a.logs
      && WritesPlain(u, CtxDocChannel)
      && forall c :: !WritesPlain(a, c)
  {
  }
}

=== FILE: generators.dfy ===
/** The environment-map functions of `utils/generators.py` and the provider dispatch
    of `llm_generator` / `embeddings_generator`. The password prompt is an oracle
    `ask` from the prompt text to the typed answer; the client constructors are left
    out and their arguments returned instead. */
module Generators {
  import opened Wrappers
  import opened DataModel

  /** Python truthiness of `os.getenv(name)`: set and non-empty. */
  predicate IsSetNonEmpty(env: Env, name: string) {
    name in env && env[name] != ""
  }

  function PromptText(name: string): string {
    "Please provide your " + name + ": "
  }

  /** `_set_if_undefined(name, default)`: the value and the environment afterwards. */
  function SetIfUndefined(env: Env, name: string, default: Option<string>, ask: string -> string)
    : (r: (string, Env))
    ensures IsSetNonEmpty(env, name) ==> r == (env[name], env)
    ensures !IsSetNonEmpty(env, name) ==>
      && r.1 == env[name := r.0]
      && r.0 == (if default.Some? && default.value != "" then default.value else ask(PromptText(name)))
    ensures name in r.1 && r.1[name] == r.0
    ensures forall k :: k in env && k != name ==> k in r.1 && r.1[k] == env[k]
    ensures r.1.Keys == env.Keys + {name}
  {
    if IsSetNonEmpty(env, name) then (env[name], env)
    else
      var value := if default.Some? && default.value != "" then default.value else ask(PromptText(name));
      (value, env[name := value])
  }

  /** Calling it again returns the same value and changes nothing, unless the first
      call stored an empty answer. */
  lemma SetIfUndefinedIdempotent(env: Env, name: string, default: Option<string>, ask: string -> string)
    requires SetIfUndefined(env, name, default, ask).0 != ""
    ensures var (v, env1) := SetIfUndefined(env, name, default, ask);
      SetIfUndefined(env1, name, default, ask) == (v, env1)
  {
  }

  /** `_populate_model`: every None field is filled by `_set_if_undefined(name)`, in
      field order; other fields are left alone. */
  function PopulateModel(fs: Fields, env: Env, ask: string -> string): (r: (Fields, Env))
    ensures |r.0| == |fs|
    ensures forall i :: 0 <= i < |fs| ==> r.0[i].0 == fs[i].0
    ensures forall i :: 0 <= i < |fs| && fs[i].1 != Null ==> r.0[i] == fs[i]
    ensures forall i :: 0 <= i < |fs| && fs[i].1 == Null ==> r.0[i].1.Str?
    ensures forall k :: k in env ==> k in r.1
    ensures forall k :: k in r.1 && (k !in env || r.1[k] != env[k]) ==>
      exists i :: 0 <= i < |fs| && fs[i].0 == k && fs[i].1 == Null
    decreases |fs|
  {
    if |fs| == 0 then ([], env)
    else
      var (head, env1) :=
        if fs[0].1 == Null then
          var (v, e) := SetIfUndefined(env, fs[0].0, None, ask);
          ((fs[0].0, Str(v)), e)
        else (fs[0], env);
      var (rest, env2) := PopulateModel(fs[1..], env1, ask);
      PopulateCons(fs, env, head, env1, rest, env2);
      ([head] + rest, env2)
  }

  /** The contract of `PopulateModel` for `fs`, from the first field's step and the
      contract for the remaining fields. */
  lemma PopulateCons(fs: Fields, env: Env, head: (string, FieldValue), env1: Env, rest: Fields, env2: Env)
    requires |fs| > 0 && head.0 == fs[0].0
    requires fs[0].1 != Null ==> head == fs[0] && env1 == env
    requires fs[0].1 == Null ==> head.1.Str?
    requires forall k :: k in env ==> k in env1
    requires forall k :: k in env1 && (k !in env || env1[k] != env[k]) ==> k == fs[0].0 && fs[0].1 == Null
    requires var tail := fs[1..];
      && |rest| == |tail|
      && (forall i :: 0 <= i < |tail| ==> rest[i].0 == tail[i].0)
      && (forall i :: 0 <= i < |tail| && tail[i].1 != Null ==> rest[i] == tail[i])
      && (forall i :: 0 <= i < |tail| && tail[i].1 == Null ==> rest[i].1.Str?)
      && (forall k :: k in env1 ==> k in env2)
      && (forall k :: k in env2 && (k !in env1 || env2[k] != env1[k]) ==>
            exists i :: 0 <= i < |tail| && tail[i].0 == k && tail[i].1 == Null)
    ensures var r := [head] + rest;
      && |r| == |fs|
      && (forall i :: 0 <= i < |fs| ==> r[i].0 == fs[i].0)
      && (forall i :: 0 <= i < |fs| && fs[i].1 != Null ==> r[i] == fs[i])
      && (forall i :: 0 <= i < |fs| && fs[i].1 == Null ==> r[i].1.Str?)
    ensures forall k :: k in env ==> k in env2
    ensures forall k :: k in env2 && (k !in env || env2[k] != env[k]) ==>
      exists i :: 0 <= i < |fs| && fs[i].0 == k && fs[i].1 == Null
  {
    var r := [head] + rest;
    var tail := fs[1..];
    assert forall i :: 0 < i < |fs| ==> r[i] == rest[i - 1] && tail[i - 1] == fs[i];
    forall k | k in env2 && (k !in env || env2[k] != env[k])
      ensures exists i :: 0 <= i < |fs| && fs[i].0 == k && fs[i].1 == Null
    {
      if k in env1 && (k !in env || env1[k] != env[k]) {
        assert fs[0].0 == k;
      } else {
        var i :| 0 <= i < |tail| && tail[i].0 == k && tail[i].1 == Null;
        assert fs[i + 1] == tail[i];
      }
    }
  }

  /** A None field takes the environment's value when that is set and non-empty
      (and no earlier field of the same name changed it). */
  lemma {:induction false} PopulateReadsEnv(fs: Fields, env: Env, ask: string -> string, i: nat)
    requires DistinctNames(fs)
    requires i < |fs| && fs[i].1 == Null && IsSetNonEmpty(env, fs[i].0)
    ensures PopulateModel(fs, env, ask).0[i].1 == Str(env[fs[i].0])
    decreases |fs|
  {
    var env1 := if fs[0].1 == Null then SetIfUndefined(env, fs[0].0, None, ask).1 else env;
    if i > 0 {
      assert fs[0].0 != fs[i].0;
      assert IsSetNonEmpty(env1, fs[i].0);
      assert DistinctNames(fs[1..]) by {
        forall a, b | 0 <= a < b < |fs[1..]| ensures fs[1..][a].0 != fs[1..][b].0 {
          assert fs[1..][a] == fs[a + 1] && fs[1..][b] == fs[b + 1];
        }
      }
      PopulateReadsEnv(fs[1..], env1, ask, i - 1);
    }
  }

  /** `str(value)`. */
  function Repr(v: FieldValue): string {
    match v
    case Null => "None"
    case Str(s) => s
    case Opaque(t) => t
  }

  /** The names of the first `n` fields. */
  function NamesBefore(fs: Fields, n: nat): set<string>
    requires n <= |fs|
  {
    set i | 0 <= i < n :: fs[i].0
  }

  /** One assignment of `_set_env_vars`: only when overwriting or when unset. */
  function SetOne(env': Env, name: string, value: FieldValue, overwrite: bool): Env {
    if overwrite || name !in env' then env'[name := Repr(value)] else env'
  }

  /** What `_set_env_vars` has done after its first `n` fields: which variables it
      has reported, ... */
  predicate KeysProgress(fs: Fields, env: Env, n: nat, reported: map<string, string>, env': Env)
    requires n <= |fs|
  {
    && reported.Keys == NamesBefore(fs, n)
    && (forall i :: n <= i < |fs| ==> fs[i].0 !in reported)
    && env'.Keys == env.Keys + reported.Keys
  }

  /** ... the value each of them now holds, ... */
  predicate ValuesProgress(fs: Fields, env: Env, overwrite: bool, n: nat, env': Env)
    requires n <= |fs|
  {
    forall i :: 0 <= i < n ==>
      fs[i].0 in env' && env'[fs[i].0] == (if overwrite || fs[i].0 !in env then Repr(fs[i].1) else env[fs[i].0])
  }

  /** ... and that the report agrees with the environment, which is otherwise unchanged. */
  predicate ReportProgress(env: Env, reported: map<string, string>, env': Env) {
    && (forall k :: k in reported ==> k in env' && reported[k] == env'[k])
    && (forall k :: k in env && k !in reported ==> k in env' && env'[k] == env[k])
  }

  predicate SetEnvProgress(fs: Fields, env: Env, overwrite: bool, n: nat, reported: map<string, string>, env': Env)
    requires n <= |fs|
  {
    KeysProgress(fs, env, n, reported, env') && ValuesProgress(fs, env, overwrite, n, env')
    && ReportProgress(env, reported, env')
  }

  lemma KeysStep(fs: Fields, env: Env, overwrite: bool, n: nat, reported: map<string, string>, env': Env, v: string)
    requires DistinctNames(fs) && n < |fs|
    requires KeysProgress(fs, env, n, reported, env')
    ensures KeysProgress(fs, env, n + 1, reported[fs[n].0 := v], SetOne(env', fs[n].0, fs[n].1, overwrite))
  {
    var name := fs[n].0;
    assert NamesBefore(fs, n + 1) == NamesBefore(fs, n) + {name};
    forall i | n + 1 <= i < |fs| ensures fs[i].0 !in reported[name := v] {
      assert fs[i].0 != name;
    }
  }

  lemma ValuesStep(fs: Fields, env: Env, overwrite: bool, n: nat, reported: map<string, string>, env': Env)
    requires DistinctNames(fs) && n < |fs|
    requires SetEnvProgress(fs, env, overwrite, n, reported, env')
    ensures ValuesProgress(fs, env, overwrite, n + 1, SetOne(env', fs[n].0, fs[n].1, overwrite))
  {
    var name := fs[n].0;
    var env'' := SetOne(env', name, fs[n].1, overwrite);
    assert name !in reported;
    forall i | 0 <= i < n + 1
      ensures fs[i].0 in env''
      ensures env''[fs[i].0] == (if overwrite || fs[i].0 !in env then Repr(fs[i].1) else env[fs[i].0])
    {
      if i < n {
        assert fs[i].0 != name;
      }
    }
  }

  lemma ReportStep(fs: Fields, env: Env, overwrite: bool, n: nat, reported: map<string, string>, env': Env)
    requires n < |fs|
    requires KeysProgress(fs, env, n, reported, env') && ReportProgress(env, reported, env')
    ensures var env'' := SetOne(env', fs[n].0, fs[n].1, overwrite);
      ReportProgress(env, reported[fs[n].0 := env''[fs[n].0]], env'')
  {
  }

  /** One iteration of `_set_env_vars` keeps its progress. */
  lemma SetEnvStep(fs: Fields, env: Env, overwrite: bool, n: nat, reported: map<string, string>, env': Env)
    requires DistinctNames(fs) && n < |fs|
    requires SetEnvProgress(fs, env, overwrite, n, reported, env')
    ensures var env'' := SetOne(env', fs[n].0, fs[n].1, overwrite);
      SetEnvProgress(fs, env, overwrite, n + 1, reported[fs[n].0 := env''[fs[n].0]], env'')
  {
    var env'' := SetOne(env', fs[n].0, fs[n].1, overwrite);
    KeysStep(fs, env, overwrite, n, reported, env', env''[fs[n].0]);
    ValuesStep(fs, env, overwrite, n, reported, env');
    ReportStep(fs, env, overwrite, n, reported, env');
  }

  /** Once every field is done, the progress is the promised outcome. */
  lemma SetEnvDone(fs: Fields, env: Env, overwrite: bool, reported: map<string, string>, env': Env)
    requires SetEnvProgress(fs, env, overwrite, |fs|, reported, env')
    ensures reported.Keys == set i | 0 <= i < |fs| :: fs[i].0
    ensures forall k :: k in reported ==> k in env' && reported[k] == env'[k]
    ensures forall i :: 0 <= i < |fs| ==>
      env'[fs[i].0] == (if overwrite || fs[i].0 !in env then Repr(fs[i].1) else env[fs[i].0])
    ensures forall k :: k in env && k !in reported ==> k in env' && env'[k] == env[k]
    ensures env'.Keys == env.Keys + reported.Keys
  {
  }

  /** `_set_env_vars`: writes `str(value)` when overwriting or when the variable is
      unset (an empty value counts as set), and reports every field's value from the
      environment afterwards. */
  method SetEnvVars(fs: Fields, env: Env, overwrite: bool) returns (reported: map<string, string>, env': Env)
    requires DistinctNames(fs)
    ensures reported.Keys == set i | 0 <= i < |fs| :: fs[i].0
    ensures forall k :: k in reported ==> k in env' && reported[k] == env'[k]
    ensures forall i :: 0 <= i < |fs| ==>
      env'[fs[i].0] == (if overwrite || fs[i].0 !in env then Repr(fs[i].1) else env[fs[i].0])
    ensures forall k :: k in env && k !in reported ==> k in env' && env'[k] == env[k]
    ensures env'.Keys == env.Keys + reported.Keys
  {
    reported := map[];
    env' := env;
    var n := 0;
    while n < |fs|
      invariant n <= |fs|
      invariant SetEnvProgress(fs, env, overwrite, n, reported, env')
    {
      SetEnvStep(fs, env, overwrite, n, reported, env');
      var (name, value) := fs[n];
      env' := SetOne(env', name, value, overwrite);
      reported := reported[name := env'[name]];
      n := n + 1;
    }
    SetEnvDone(fs, env, overwrite, reported, env');
  }

  // ---------------------------------------------------------------------------
  // Provider dispatch

  /** The client a generator builds, with the configuration record it was built
      from (`_set_env_vars` has run on it). */
  datatype Client =
    | AzureChat(config: Fields)
    | AzureMLEndpoint(config: Fields)
    | AzureEmbeddings(config: Fields)

  /** Populates a record and exports it to the environment without overwriting, as
      both generators do before building their client. */
  method Configure(fs: Fields, env: Env, ask: string -> string) returns (cfg: Fields, env': Env)
    requires DistinctNames(fs)
    ensures cfg == PopulateModel(fs, env, ask).0
    ensures forall i :: 0 <= i < |cfg| ==> cfg[i].0 in env'
  {
    var env1;
    cfg, env1 := PopulateModel(fs, env, ask).0, PopulateModel(fs, env, ask).1;
    assert DistinctNames(cfg) by {
      forall i, j | 0 <= i < j < |cfg| ensures cfg[i].0 != cfg[j].0 {
        assert cfg[i].0 == fs[i].0 && cfg[j].0 == fs[j].0;
      }
    }
    var _, env2 := SetEnvVars(cfg, env1, false);
    env' := env2;
  }

  /** `llm_generator()`: the provider from the environment, then the provider's
      populated record. Ollama is not implemented. */
  method LlmGenerator(env: Env, ask: string -> string) returns (r: Result<(Client, Env)>)
    ensures AgentModelFromEnv(env).Err? ==> r.Err? && r.error.ValueError?
    ensures AgentModelFromEnv(env) == Ok(LlmOllama) ==> r.Err? && r.error.NotImplementedError?
    ensures AgentModelFromEnv(env) == Ok(LlmAzureOpenAI) ==> r.Ok? && r.value.0.AzureChat?
    ensures AgentModelFromEnv(env) == Ok(LlmAzureML) ==> r.Ok? && r.value.0.AzureMLEndpoint?
    ensures r.Ok? ==>
      r.value.0.config == PopulateModel(
        if r.value.0.AzureChat? then AzureOpenAIModelFromEnv(env) else AzureMachineLearningModelFromEnv(env),
        env, ask).0
  {
    var provider := AgentModelFromEnv(env);
    if provider.Err? {
      return Err(provider.error);
    }
    match provider.value {
      case LlmAzureOpenAI =>
        RecordNamesDistinct(env);
        var cfg, env' := Configure(AzureOpenAIModelFromEnv(env), env, ask);
        return Ok((AzureChat(cfg), env'));
      case LlmAzureML =>
        RecordNamesDistinct(env);
        var cfg, env' := Configure(AzureMachineLearningModelFromEnv(env), env, ask);
        return Ok((AzureMLEndpoint(cfg), env'));
      case LlmOllama =>
        return Err(NotImplementedError("OllamaModel instantiation is not yet implemented."));
    }
  }

  /** `embeddings_generator()`: only azure_openai is accepted. */
  method EmbeddingsGenerator(env: Env, ask: string -> string) returns (r: Result<(Client, Env)>)
    ensures r.Ok? <==> AgentEmbeddingsFromEnv(env) == Ok(EmbAzureOpenAI)
    ensures r.Err? ==> r.error.ValueError?
    ensures r.Ok? ==> r.value.0 == AzureEmbeddings(PopulateModel(AzureOpenAIEmbeddingModelFromEnv(env), env, ask).0)
  {
    var provider := AgentEmbeddingsFromEnv(env);
    if provider.Err? {
      return Err(provider.error);
    }
    if provider.value != EmbAzureOpenAI {
      return Err(ValueError("Invalid model provider, options are: azure_openai | ollama"));
    }
    RecordNamesDistinct(env);
    var cfg, env' := Configure(AzureOpenAIEmbeddingModelFromEnv(env), env, ask);
    return Ok((AzureEmbeddings(cfg), env'));
  }

  /** The deployment name the chat client gets is the LLM_DEPLOYMENT_NAME variable
      (when set and non-empty), although `from_env` drops it: `_populate_model`
      reads it back by field name. */
  lemma DeploymentNameFromEnv(env: Env, ask: string -> string)
    requires IsSetNonEmpty(env, "LLM_DEPLOYMENT_NAME")
    ensures PopulateModel(AzureOpenAIModelFromEnv(env), env, ask).0[3] == ("LLM_DEPLOYMENT_NAME", Str(env["LLM_DEPLOYMENT_NAME"]))
  {
    RecordNamesDistinct(env);
    PopulateReadsEnv(AzureOpenAIModelFromEnv(env), env, ask, 3);
  }
}

=== FILE: graph.dfy ===
/** The orchestration graph built by `_build_workflow`: its nodes, the successor
    relation made of the fixed edges, the two routing tables, the scatter to the
    three evaluators and their join, and the routing decision taken after a node
    from the merged state. Also `get_or_build_graph`'s caching. */
module Graph {
  import opened Wrappers
  import opened AgentState

  datatype Node =
    | Start | End
    | UserProxy | ScgAnalyst | ClassifierOrchestrator
    | StartProcessorRequest | StartIndexerRequest
    | FetchAvailableDocuments | FetchAvailableScgs
    | PresentAvailableData | ConfirmWithUser
    | SubmitIndexer | SubmitProcessor
    | UnclassEvaluator | SEvaluator | TsEvaluator | ClassifierAuthority

  /** The label each node is registered under. */
  function Name(n: Node): string {
    match n
    case Start => "__start__"
    case End => "__end__"
    case UserProxy => "user_proxy"
    case ScgAnalyst => "scg_analyst"
    case ClassifierOrchestrator => "classifier_orchestrator"
    case StartProcessorRequest => "start_processor_request"
    case StartIndexerRequest => "start_indexer_request"
    case FetchAvailableDocuments => "fetch_available_documents"
    case FetchAvailableScgs => "fetch_available_scgs"
    case PresentAvailableData => "present_available_data"
    case ConfirmWithUser => "confirm_with_user"
    case SubmitIndexer => "submit_indexer"
    case SubmitProcessor => "submit_processor"
    case UnclassEvaluator => "unclass_evaluator"
    case SEvaluator => "s_evaluator"
    case TsEvaluator => "ts_evaluator"
    case ClassifierAuthority => "classifier_authority"
  }

  /** The routing table on `next_agent` after `user_proxy`. */
  const ProxyRoutes: map<string, Node> := map[
    "security_classification_guide_expert" := ScgAnalyst,
    "document_classification_experts" := ClassifierOrchestrator,
    "security_classification_guide_indexer" := StartIndexerRequest,
    "document_indexer" := StartProcessorRequest,
    "default" := End,
    "user_proxy" := End]

  /** The routing table on `task` after `confirm_with_user`. */
  const ConfirmRoutes: map<string, Node> := map[
    "index_scg" := SubmitIndexer,
    "ingest_document" := SubmitProcessor]

  /** The labels the router prompt offers (`available_agents`). */
  const AvailableAgents: seq<string> := [
    "security_classification_guide_expert",
    "document_classification_experts",
    "security_classification_guide_indexer",
    "document_indexer",
    "default"]

  /** The scatter targets of `classifier_orchestrator`, in order. */
  const Evaluators: seq<Node> := [TsEvaluator, SEvaluator, UnclassEvaluator]

  /** Every edge of the built workflow: fixed edges, the targets of both routing
      tables, the scatter, and the `then` join into `classifier_authority`. */
  function Successors(n: Node): set<Node> {
    match n
    case Start => {UserProxy}
    case UserProxy => ProxyRoutes.Values
    case ClassifierOrchestrator => {TsEvaluator, SEvaluator, UnclassEvaluator}
    case TsEvaluator => {ClassifierAuthority}
    case SEvaluator => {ClassifierAuthority}
    case UnclassEvaluator => {ClassifierAuthority}
    case StartIndexerRequest => {FetchAvailableScgs}
    case StartProcessorRequest => {FetchAvailableDocuments}
    case FetchAvailableScgs => {PresentAvailableData}
    case FetchAvailableDocuments => {PresentAvailableData}
    case PresentAvailableData => {ConfirmWithUser}
    case ConfirmWithUser => ConfirmRoutes.Values
    case SubmitIndexer => {End}
    case SubmitProcessor => {End}
    case ScgAnalyst => {End}
    case ClassifierAuthority => {End}
    case End => {}
  }

  /** The number of edges on the longest path from `n` to END. */
  function Height(n: Node): nat {
    match n
    case End => 0
    case SubmitIndexer => 1
    case SubmitProcessor => 1
    case ScgAnalyst => 1
    case ClassifierAuthority => 1
    case TsEvaluator => 2
    case SEvaluator => 2
    case UnclassEvaluator => 2
    case ConfirmWithUser => 2
    case ClassifierOrchestrator => 3
    case PresentAvailableData => 3
    case FetchAvailableScgs => 4
    case FetchAvailableDocuments => 4
    case StartIndexerRequest => 5
    case StartProcessorRequest => 5
    case UserProxy => 6
    case Start => 7
  }

  /** Every edge strictly lowers the height, so the graph has no cycle. */
  lemma EdgesDescend(n: Node, m: Node)
    requires m in Successors(n)
    ensures Height(m) < Height(n)
  {
  }

  /** END is the only node without a way out. */
  lemma OnlyEndIsFinal(n: Node)
    ensures Successors(n) == {} <==> n == End
  {
    if n == UserProxy { assert End in ProxyRoutes.Values by { assert ProxyRoutes["default"] == End; } }
    if n == ConfirmWithUser { assert SubmitIndexer in ConfirmRoutes.Values by { assert ConfirmRoutes["index_scg"] == SubmitIndexer; } }
  }

  predicate IsPath(p: seq<Node>) {
    |p| >= 1 && forall i :: 0 <= i < |p| - 1 ==> p[i + 1] in Successors(p[i])
  }

  /** Along any path the height drops by at least one per edge. */
  lemma {:induction false} PathDescends(p: seq<Node>)
    requires IsPath(p)
    ensures Height(p[|p| - 1]) + |p| - 1 <= Height(p[0])
    decreases |p|
  {
    if |p| > 1 {
      var q := p[1..];
      assert IsPath(q) by {
        forall i | 0 <= i < |q| - 1 ensures q[i + 1] in Successors(q[i]) {
          assert q[i] == p[i + 1] && q[i + 1] == p[i + 2];
        }
      }
      PathDescends(q);
      EdgesDescend(p[0], p[1]);
    }
  }

  /** Every run from START that cannot continue has reached END, after at most seven
      edges. */
  lemma EveryRunEnds(p: seq<Node>)
    requires IsPath(p) && p[0] == Start
    requires Successors(p[|p| - 1]) == {}
    ensures p[|p| - 1] == End
    ensures |p| <= 8
  {
    PathDescends(p);
    OnlyEndIsFinal(p[|p| - 1]);
  }

  /** START's only successor is `user_proxy`, and the proxy's table has exactly six
      labels, two of them ending the turn. */
  lemma ProxyTable()
    ensures Successors(Start) == {UserProxy}
    ensures ProxyRoutes.Keys == {
      "security_classification_guide_expert", "document_classification_experts",
      "security_classification_guide_indexer", "document_indexer", "default", "user_proxy"}
    ensures forall l :: l in ProxyRoutes && ProxyRoutes[l] == End <==> l == "default" || l == "user_proxy"
  {
  }

  /** Every label the router is told about has a route; the table also routes
      "user_proxy", which the router is not offered. */
  lemma AvailableAgentsRoutable()
    ensures forall i :: 0 <= i < |AvailableAgents| ==> AvailableAgents[i] in ProxyRoutes
    ensures "user_proxy" in ProxyRoutes && "user_proxy" !in AvailableAgents
  {
  }

  /** The confirmation table and the declared task literals disagree: the typed
      "index_document" has no route, and the routed "ingest_document" is not a
      declared task. */
  lemma TaskLabelMismatch()
    ensures "index_document" in DeclaredTasks && "index_document" !in ConfirmRoutes
    ensures "ingest_document" in ConfirmRoutes && "ingest_document" !in DeclaredTasks
    ensures ConfirmRoutes.Keys * DeclaredTasks == {"index_scg"}
  {
  }

  // ---------------------------------------------------------------------------
  // Dynamic routing

  /** The nodes that run after `n`, chosen from the merged state. A label missing from
      a routing table is an error, not a silent end. */
  function Route(n: Node, s: GraphState): (r: Result<seq<Node>>)
    ensures r.Ok? ==> forall i :: 0 <= i < |r.value| ==> r.value[i] in Successors(n)
    ensures r.Err? <==>
      (n == UserProxy && s.nextAgent !in ProxyRoutes) ||
      (n == ConfirmWithUser && (s.task.None? || s.task.value !in ConfirmRoutes))
    ensures r.Ok? && n != ClassifierOrchestrator ==> |r.value| == |Successors(n)| || |r.value| == 1
  {
    match n
    case UserProxy =>
      if s.nextAgent in ProxyRoutes then Ok([ProxyRoutes[s.nextAgent]]) else Err(KeyError(s.nextAgent))
    case ConfirmWithUser =>
      if s.task.None? then Err(KeyError("task"))
      else if s.task.value in ConfirmRoutes then Ok([ConfirmRoutes[s.task.value]])
      else Err(KeyError(s.task.value))
    case ClassifierOrchestrator => Ok(Evaluators)
    case Start => Ok([UserProxy])
    case TsEvaluator => Ok([ClassifierAuthority])
    case SEvaluator => Ok([ClassifierAuthority])
    case UnclassEvaluator => Ok([ClassifierAuthority])
    case StartIndexerRequest => Ok([FetchAvailableScgs])
    case StartProcessorRequest => Ok([FetchAvailableDocuments])
    case FetchAvailableScgs => Ok([PresentAvailableData])
    case FetchAvailableDocuments => Ok([PresentAvailableData])
    case PresentAvailableData => Ok([ConfirmWithUser])
    case SubmitIndexer => Ok([End])
    case SubmitProcessor => Ok([End])
    case ScgAnalyst => Ok([End])
    case ClassifierAuthority => Ok([End])
    case End => Ok([])
  }

  /** The classification request always takes orchestrator, then all three
      evaluators, then the authority, then END. */
  lemma ClassificationRoute(s: GraphState)
    requires s.nextAgent == "document_classification_experts"
    ensures Route(UserProxy, s) == Ok([ClassifierOrchestrator])
    ensures Route(ClassifierOrchestrator, s) == Ok([TsEvaluator, SEvaluator, UnclassEvaluator])
    ensures forall e :: e in Evaluators ==> Route(e, s) == Ok([ClassifierAuthority])
    ensures Route(ClassifierAuthority, s) == Ok([End])
  {
  }

  /** Both indexing requests pass through the dataset listing, its presentation and
      the confirmation; the confirmation routes on `task` only for "index_scg" and
      "ingest_document"; the four terminal nodes end the turn. */
  lemma IndexingRoutes(s: GraphState)
    ensures Route(StartIndexerRequest, s) == Ok([FetchAvailableScgs])
    ensures Route(StartProcessorRequest, s) == Ok([FetchAvailableDocuments])
    ensures Route(FetchAvailableScgs, s) == Ok([PresentAvailableData])
    ensures Route(FetchAvailableDocuments, s) == Ok([PresentAvailableData])
    ensures Route(PresentAvailableData, s) == Ok([ConfirmWithUser])
    ensures s.task == Some("index_scg") ==> Route(ConfirmWithUser, s) == Ok([SubmitIndexer])
    ensures s.task == Some("ingest_document") ==> Route(ConfirmWithUser, s) == Ok([SubmitProcessor])
    ensures s.task == Some("index_document") ==> Route(ConfirmWithUser, s).Err?
    ensures forall n :: n in {ScgAnalyst, ClassifierAuthority, SubmitIndexer, SubmitProcessor} ==>
      Route(n, s) == Ok([End]) && Successors(n) == {End}
  {
  }

  // ---------------------------------------------------------------------------
  // get_or_build_graph

  /** The checkpointer a compiled graph uses: the one passed in, or a new in-memory
      saver when none is. */
  datatype Saver = MemorySaver | Given(handle: nat)

  datatype CompiledGraph = CompiledGraph(saver: Saver)

  function BuildGraph(saver: Option<nat>): (g: CompiledGraph)
    ensures saver.None? <==> g.saver == MemorySaver
  {
    if saver.None? then CompiledGraph(MemorySaver) else CompiledGraph(Given(saver.value))
  }

  /** One call: the returned graph and the module-level `graph` afterwards, which
      `_build_graph` never assigns (it binds a local of the same name). */
  function GetOrBuildGraph(cached: Option<CompiledGraph>, reinitialize: bool, saver: Option<nat>)
    : (CompiledGraph, Option<CompiledGraph>)
  {
    if cached.Some? && !reinitialize then (cached.value, cached) else (BuildGraph(saver), cached)
  }

  /** A sequence of calls, threading the module-level variable. */
  function GetOrBuildCalls(cached: Option<CompiledGraph>, calls: seq<(bool, Option<nat>)>)
    : (r: (seq<CompiledGraph>, Option<CompiledGraph>))
    ensures |r.0| == |calls|
    decreases |calls|
  {
    if |calls| == 0 then ([], cached)
    else
      var (g, cached') := GetOrBuildGraph(cached, calls[0].0, calls[0].1);
      var (rest, last) := GetOrBuildCalls(cached', calls[1..]);
      ([g] + rest, last)
  }

  /** From the initial `graph = None`, every call builds a fresh graph on its own
      saver argument and the cache stays empty. */
  lemma {:induction false} NeverCached(calls: seq<(bool, Option<nat>)>)
    ensures GetOrBuildCalls(None, calls).1 == None
    ensures forall i :: 0 <= i < |calls| ==> GetOrBuildCalls(None, calls).0[i] == BuildGraph(calls[i].1)
    decreases |calls|
  {
    if |calls| > 0 {
      NeverCached(calls[1..]);
      var rest := GetOrBuildCalls(None, calls[1..]).0;
      assert GetOrBuildCalls(None, calls).0 == [BuildGraph(calls[0].1)] + rest;
      forall i | 0 < i < |calls| ensures GetOrBuildCalls(None, calls).0[i] == BuildGraph(calls[i].1) {
        assert calls[1..][i - 1] == calls[i];
      }
    }
  }
}

=== FILE: lex_order.dfy ===
/** The order MongoDB sorts and compares string fields by: lexicographic by code
    point, a proper prefix first. Checkpoint ids are compared with it. */
module LexOrder {

  /** `a < b` in lexicographic code-point order. */
  predicate Less(a: string, b: string)
    decreases |a|
  {
    if |a| == 0 then |b| > 0
    else if |b| == 0 then false
    else a[0] < b[0] || (a[0] == b[0] && Less(a[1..], b[1..]))
  }

  lemma {:induction false} LessIrreflexive(a: string)
    ensures !Less(a, a)
    decreases |a|
  {
    if |a| > 0 {
      LessIrreflexive(a[1..]);
    }
  }

  lemma {:induction false} LessTransitive(a: string, b: string, c: string)
    requires Less(a, b) && Less(b, c)
    ensures Less(a, c)
    decreases |a|
  {
    if |a| > 0 && a[0] == b[0] && b[0] == c[0] {
      LessTransitive(a[1..], b[1..], c[1..]);
    }
  }

  /** Any two distinct strings are ordered one way or the other. */
  lemma {:induction false} LessConnected(a: string, b: string)
    ensures a == b || Less(a, b) || Less(b, a)
    decreases |a|
  {
    if |a| > 0 && |b| > 0 && a[0] == b[0] {
      LessConnected(a[1..], b[1..]);
      if a[1..] == b[1..] {
        assert a == [a[0]] + a[1..] && b == [b[0]] + b[1..];
      }
    }
  }

  lemma LessAsymmetric(a: string, b: string)
    requires Less(a, b)
    ensures !Less(b, a)
  {
    if Less(b, a) {
      LessTransitive(a, b, a);
      LessIrreflexive(a);
    }
  }
}

=== FILE: orchestrator.dfy ===
/** `classifier_orchestrator`, `agent_scatter`, and the gather of the three
    evaluators' dicts into the shared state. */
module Orchestrator {
  import opened Wrappers
  import opened AgentState
  import Graph
  import opened Evaluators

  /** The orchestrator's dict: its `State` input with `classification_analysis`
      set to []. */
  function ClassifierOrchestrator(s: GraphState): (u: Update)
    ensures u.analysis == []
    ensures u.messages == s.messages && u.lastUserMessage == Some(s.lastUserMessage)
    ensures u.nextAgent == Some(s.nextAgent) && u.ctxDoc == Some(s.ctxDoc) && u.logs == s.logs
  {
    StateView(s).(analysis := [])
  }

  /** Under the concatenation reducer the [] resets nothing (message ids are unique,
      as `add_messages` keeps them): merged, the orchestrator
      keeps the old analysis entries and duplicates the logs. */
  lemma OrchestratorDoesNotReset(s: GraphState)
    requires UniqueIds(s.messages)
    ensures Merge(s, ClassifierOrchestrator(s)).analysis == s.analysis
    ensures Merge(s, ClassifierOrchestrator(s)) == s.(logs := s.logs + s.logs)
  {
    MergeOwnView(s);
  }

  /** `agent_scatter`: one send per evaluator, each carrying the state unchanged. */
  function AgentScatter(s: GraphState): (sends: seq<(Graph.Node, GraphState)>)
    ensures |sends| == 3
    ensures forall i :: 0 <= i < |sends| ==> sends[i].0 == Graph.Evaluators[i] && sends[i].1 == s
  {
    seq(3, i requires 0 <= i < 3 => (Graph.Evaluators[i], s))
  }

  /** The send targets are distinct, are exactly the orchestrator's successors in the
      graph, and are what the router follows. */
  lemma ScatterTargets(s: GraphState)
    ensures forall i, j :: 0 <= i < j < |AgentScatter(s)| ==> AgentScatter(s)[i].0 != AgentScatter(s)[j].0
    ensures (set i | 0 <= i < |AgentScatter(s)| :: AgentScatter(s)[i].0) == Graph.Successors(Graph.ClassifierOrchestrator)
    ensures Graph.Route(Graph.ClassifierOrchestrator, s) == Ok(Graph.Evaluators)
  {
    var sends := AgentScatter(s);
    var targets := set i | 0 <= i < |sends| :: sends[i].0;
    assert sends[0].0 == Graph.TsEvaluator && sends[1].0 == Graph.SEvaluator && sends[2].0 == Graph.UnclassEvaluator;
    assert targets == {Graph.TsEvaluator, Graph.SEvaluator, Graph.UnclassEvaluator} by {
      forall n | n in {Graph.TsEvaluator, Graph.SEvaluator, Graph.UnclassEvaluator} ensures n in targets {
        if n == Graph.TsEvaluator { assert sends[0].0 == n; }
        else if n == Graph.SEvaluator { assert sends[1].0 == n; }
        else { assert sends[2].0 == n; }
      }
    }
  }

  /** The evaluator a send target runs. */
  function LevelOf(n: Graph.Node): (l: Option<Level>)
    ensures l.Some? <==> n in Graph.Evaluators
  {
    match n
    case TsEvaluator => Some(TopSecretLevel)
    case SEvaluator => Some(SecretLevel)
    case UnclassEvaluator => Some(UnclassLevel)
    case _ => None
  }

  /** The three evaluators each run on their own copy of the scattered state, with
      their own search results and LLM chain, and their dicts are merged one after
      the other in send order. The runtime does neither: the sends share one
      payload, and it applies the dicts in one step (`GatherStep`). This merge is
      what the evaluators' dicts would give if it did both. */
  function Gather(s: GraphState, hits: Level -> seq<Hit>, judge: Level -> (string -> Decision)): GraphState {
    var u1 := Evaluate(TopSecretLevel, s, hits(TopSecretLevel), judge(TopSecretLevel));
    var u2 := Evaluate(SecretLevel, s, hits(SecretLevel), judge(SecretLevel));
    var u3 := Evaluate(UnclassLevel, s, hits(UnclassLevel), judge(UnclassLevel));
    Merge(Merge(Merge(s, u1), u2), u3)
  }

  /** The `(name, records)` pair one evaluator contributes. */
  function EntryOf(l: Level, s: GraphState, hits: Level -> seq<Hit>, judge: Level -> (string -> Decision)): Analysis {
    (ExpertName(l), Kept(l, hits(l), s.ctxDoc, judge(l)))
  }

  /** The analysis after the gather: each evaluator's input analysis, then its entry. */
  lemma GatherAnalysis(s: GraphState, hits: Level -> seq<Hit>, judge: Level -> (string -> Decision))
    ensures Gather(s, hits, judge).analysis == s.analysis
      + (s.analysis + [EntryOf(TopSecretLevel, s, hits, judge)])
      + (s.analysis + [EntryOf(SecretLevel, s, hits, judge)])
      + (s.analysis + [EntryOf(UnclassLevel, s, hits, judge)])
  {
  }

  /** The gather appends, for each evaluator, the analysis it was sent followed by its
      own entry, and its two logs after the logs it was sent; `ctx_doc` and the
      other channels keep their values. */
  lemma GatherShape(s: GraphState, hits: Level -> seq<Hit>, judge: Level -> (string -> Decision))
    ensures var t := Gather(s, hits, judge);
      && t.analysis == s.analysis
           + (s.analysis + [EntryOf(TopSecretLevel, s, hits, judge)])
           + (s.analysis + [EntryOf(SecretLevel, s, hits, judge)])
           + (s.analysis + [EntryOf(UnclassLevel, s, hits, judge)])
      && |t.logs| == 4 * |s.logs| + 6
      && t.(logs := s.logs, analysis := s.analysis) == s
  {
    GatherAnalysis(s, hits, judge);
    var u1 := Evaluate(TopSecretLevel, s, hits(TopSecretLevel), judge(TopSecretLevel));
    var u2 := Evaluate(SecretLevel, s, hits(SecretLevel), judge(SecretLevel));
    var u3 := Evaluate(UnclassLevel, s, hits(UnclassLevel), judge(UnclassLevel));
    var t1 := Merge(s, u1);
    var t2 := Merge(t1, u2);
    assert t1.messages == s.messages by { assert AddMessages(s.messages, []) == s.messages; }
    assert t2.messages == s.messages by { assert AddMessages(t1.messages, []) == t1.messages; }
    assert Merge(t2, u3).messages == s.messages by { assert AddMessages(t2.messages, []) == t2.messages; }
  }

  /** On a thread that has never classified, the gather leaves exactly one entry per
      evaluator, in send order, under three distinct names. */
  lemma GatherFirstRun(s: GraphState, hits: Level -> seq<Hit>, judge: Level -> (string -> Decision))
    requires s.analysis == []
    ensures Gather(s, hits, judge).analysis == [
      EntryOf(TopSecretLevel, s, hits, judge),
      EntryOf(SecretLevel, s, hits, judge),
      EntryOf(UnclassLevel, s, hits, judge)]
    ensures forall l, l' :: ExpertName(l) == ExpertName(l') ==> l == l'
  {
    GatherAnalysis(s, hits, judge);
    ExpertNamesDistinct();
    EmptyGather(s.analysis, EntryOf(TopSecretLevel, s, hits, judge), EntryOf(SecretLevel, s, hits, judge),
      EntryOf(UnclassLevel, s, hits, judge));
  }

  /** The shape `GatherAnalysis` gives, from an empty analysis. */
  lemma EmptyGather<T>(a: seq<T>, x: T, y: T, z: T)
    requires a == []
    ensures a + (a + [x]) + (a + [y]) + (a + [z]) == [x, y, z]
  {
  }

  /** `Gather` as the orchestrator's `classification_analysis = []` evidently
      intends it: the evaluators start from an empty analysis. */
  function ResetGather(s: GraphState, hits: Level -> seq<Hit>, judge: Level -> (string -> Decision)): GraphState {
    Gather(s.(analysis := []), hits, judge)
  }

  /** The classification branch from the proxy's merged state: orchestrator, then
      `Gather` on the state the orchestrator's merge produced. */
  function ClassificationTurn(s: GraphState, hits: Level -> seq<Hit>, judge: Level -> (string -> Decision)): GraphState {
    Gather(Merge(s, ClassifierOrchestrator(s)), hits, judge)
  }

  /** Under `Gather`, the orchestrator's reset is needed nowhere on a first run,
      and is ineffective on a later one: the earlier entries are re-appended four
      times. */
  lemma ClassificationTurnAnalysis(s: GraphState, hits: Level -> seq<Hit>, judge: Level -> (string -> Decision))
    requires UniqueIds(s.messages)
    ensures var s1 := Merge(s, ClassifierOrchestrator(s));
      ClassificationTurn(s, hits, judge).analysis == s.analysis
        + (s.analysis + [EntryOf(TopSecretLevel, s1, hits, judge)])
        + (s.analysis + [EntryOf(SecretLevel, s1, hits, judge)])
        + (s.analysis + [EntryOf(UnclassLevel, s1, hits, judge)])
    ensures s.analysis == [] ==> |ClassificationTurn(s, hits, judge).analysis| == 3
  {
    OrchestratorDoesNotReset(s);
    GatherShape(Merge(s, ClassifierOrchestrator(s)), hits, judge);
  }
  // ---------------------------------------------------------------------------
  // The gather as one step of the runtime

  /** The step in which the three evaluators' dicts are applied together, in send
      order. */
  function GatherStep(s: GraphState, hits: Level -> seq<Hit>, judge: Level -> (string -> Decision)): Result<GraphState> {
    ApplyStep(s, [Evaluate(TopSecretLevel, s, hits(TopSecretLevel), judge(TopSecretLevel)),
                  Evaluate(SecretLevel, s, hits(SecretLevel), judge(SecretLevel)),
                  Evaluate(UnclassLevel, s, hits(UnclassLevel), judge(UnclassLevel))])
  }

  /** Every evaluator returns its whole input, `ctx_doc` included, and `ctx_doc` has
      no reducer: the step fails, so the branch never reaches `classifier_authority`.
      Any three dicts that each carry `ctx_doc` fail the same way, whether or not
      they share their lists. */
  lemma GatherStepConflicts(s: GraphState, hits: Level -> seq<Hit>, judge: Level -> (string -> Decision))
    ensures GatherStep(s, hits, judge) == Err(InvalidUpdateError("ctx_doc"))
    ensures forall us: seq<Update> :: |us| == 3 && (forall i :: 0 <= i < 3 ==> us[i].ctxDoc.Some?) ==>
      ApplyStep(s, us) == Err(InvalidUpdateError("ctx_doc"))
  {
    forall us: seq<Update> | |us| == 3 && (forall i :: 0 <= i < 3 ==> us[i].ctxDoc.Some?)
      ensures ApplyStep(s, us) == Err(InvalidUpdateError("ctx_doc"))
    {
      assert WritesPlain(us[0], CtxDocChannel) && WritesPlain(us[1], CtxDocChannel);
    }
    var us := [Evaluate(TopSecretLevel, s, hits(TopSecretLevel), judge(TopSecretLevel)),
               Evaluate(SecretLevel, s, hits(SecretLevel), judge(SecretLevel)),
               Evaluate(UnclassLevel, s, hits(UnclassLevel), judge(UnclassLevel))];
    assert us[0].ctxDoc.Some? && us[1].ctxDoc.Some? && us[2].ctxDoc.Some?;
  }

  /** The progress logs one evaluator adds. */
  function LogsOf(l: Level): seq<Log> {
    [Log(LogMessage(l), false), Log(LogMessage(l), true)]
  }

  /** The gather step with evaluators that return only their additions. */
  function FixedGatherStep(s: GraphState, hits: Level -> seq<Hit>, judge: Level -> (string -> Decision)): Result<GraphState> {
    ApplyStep(s, [EvaluatorAdditions(TopSecretLevel, s, hits(TopSecretLevel), judge(TopSecretLevel)),
                  EvaluatorAdditions(SecretLevel, s, hits(SecretLevel), judge(SecretLevel)),
                  EvaluatorAdditions(UnclassLevel, s, hits(UnclassLevel), judge(UnclassLevel))])
  }

  /** With evaluators that return only their additions the step succeeds: one entry
      per evaluator and its two logs are appended, in send order, to the channels'
      old values, and every other channel keeps its value. */
  lemma FixedGatherStepShape(s: GraphState, hits: Level -> seq<Hit>, judge: Level -> (string -> Decision))
    ensures FixedGatherStep(s, hits, judge) == Ok(s.(
      analysis := s.analysis + [EntryOf(TopSecretLevel, s, hits, judge), EntryOf(SecretLevel, s, hits, judge),
                                EntryOf(UnclassLevel, s, hits, judge)],
      logs := s.logs + LogsOf(TopSecretLevel) + LogsOf(SecretLevel) + LogsOf(UnclassLevel)))
  {
    var u1 := EvaluatorAdditions(TopSecretLevel, s, hits(TopSecretLevel), judge(TopSecretLevel));
    var u2 := EvaluatorAdditions(SecretLevel, s, hits(SecretLevel), judge(SecretLevel));
    var u3 := EvaluatorAdditions(UnclassLevel, s, hits(UnclassLevel), judge(UnclassLevel));
    var us := [u1, u2, u3];
    forall c ensures !WrittenTwice(us, c) {
      assert !WritesPlain(u1, c) && !WritesPlain(u2, c) && !WritesPlain(u3, c);
    }
    var t1 := Merge(s, u1);
    var t2 := Merge(t1, u2);
    var t3 := Merge(t2, u3);
    MergeAllThree(s, u1, u2, u3);
    assert t1.messages == s.messages by { assert AddMessages(s.messages, []) == s.messages; }
    assert t2.messages == s.messages by { assert AddMessages(t1.messages, []) == t1.messages; }
    assert t3.messages == s.messages by { assert AddMessages(t2.messages, []) == t2.messages; }
    assert t3.analysis == s.analysis + [u1.analysis[0], u2.analysis[0], u3.analysis[0]];
  }

  /** The orchestrator's `[]` leaves the old entries in place, so with the corrected
      evaluators a thread's analysis keeps every earlier run's entries before this
      run's three. */
  lemma FixedGatherKeepsHistory(s: GraphState, hits: Level -> seq<Hit>, judge: Level -> (string -> Decision))
    requires UniqueIds(s.messages)
    ensures var s1 := Merge(s, ClassifierOrchestrator(s));
      && FixedGatherStep(s1, hits, judge).Ok?
      && FixedGatherStep(s1, hits, judge).value.analysis == s.analysis
           + [EntryOf(TopSecretLevel, s1, hits, judge), EntryOf(SecretLevel, s1, hits, judge),
              EntryOf(UnclassLevel, s1, hits, judge)]
  {
    OrchestratorDoesNotReset(s);
    FixedGatherStepShape(Merge(s, ClassifierOrchestrator(s)), hits, judge);
  }

  /** The classification turn as the orchestrator evidently intends it, with the
      corrected evaluators: the orchestrator's merge, then the analysis emptied, then
      the gather step. */
  function FixedTurn(s: GraphState, hits: Level -> seq<Hit>, judge: Level -> (string -> Decision)): Result<GraphState> {
    FixedGatherStep(Merge(s, ClassifierOrchestrator(s)).(analysis := []), hits, judge)
  }

  /** With the reset taking effect, every turn, first or later, leaves exactly this
      run's three entries, one per evaluator in send order, under distinct names. */
  lemma FixedTurnIsFresh(s: GraphState, hits: Level -> seq<Hit>, judge: Level -> (string -> Decision))
    ensures var s1 := Merge(s, ClassifierOrchestrator(s));
      && FixedTurn(s, hits, judge).Ok?
      && FixedTurn(s, hits, judge).value.analysis
           == [EntryOf(TopSecretLevel, s1, hits, judge), EntryOf(SecretLevel, s1, hits, judge),
               EntryOf(UnclassLevel, s1, hits, judge)]
  {
    var s0 := Merge(s, ClassifierOrchestrator(s)).(analysis := []);
    FixedGatherStepShape(s0, hits, judge);
  }
}

=== FILE: process_doc.dfy ===
/** The document-ingest step of the AzureML processor component: the chunk-to-
    document conversion `_make_doc` and the URL handling of `process_doc`. The PDF
    reader is a parameter; the embedding and vector-store clients are left out. */
module ProcessDoc {
  import opened Wrappers
  import opened Strings
  import UserProxy

  /** A layout chunk as the reader returns it (its `to_context_text()` already
      taken). */
  datatype Chunk = Chunk(contextText: string, tag: string, page: int, blockIdx: int, level: int)

  datatype DocMeta = DocMeta(
    source: string, docName: string, chunkNumber: nat,
    chunkType: string, page: int, blockIdx: int, level: int)

  datatype Doc = Doc(pageContent: string, metadata: DocMeta)

  /** `_make_doc(uri, chunks)`: one document per chunk, in chunk order. */
  function MakeDoc(uri: string, chunks: seq<Chunk>): (docs: seq<Doc>)
    ensures |docs| == |chunks|
    ensures forall i :: 0 <= i < |docs| ==>
      && docs[i].pageContent == chunks[i].contextText
      && docs[i].metadata.chunkNumber == i
      && docs[i].metadata.source == uri
      && docs[i].metadata.docName == AfterLast(uri, '/')
      && docs[i].metadata.chunkType == chunks[i].tag
      && docs[i].metadata.page == chunks[i].page
      && docs[i].metadata.blockIdx == chunks[i].blockIdx
      && docs[i].metadata.level == chunks[i].level
  {
    seq(|chunks|, i requires 0 <= i < |chunks| =>
      var c := chunks[i];
      Doc(c.contextText, DocMeta(uri, AfterLast(uri, '/'), i, c.tag, c.page, c.blockIdx, c.level)))
  }

  /** The variables read with `os.environ[...]` before the first URL, in order. */
  const RequiredVars: seq<string> := [
    "EMBEDDING_DEPLOYMENT", "AZURE_OPENAI_API_VERSION", "AZURE_OPENAI_API_KEY",
    "AZURE_OPENAI_ENDPOINT", "AI_SEARCH_ENDPOINT", "AI_SEARCH_KEY", "AI_SEARCH_INDEX",
    "NLM_INGESTOR_ENDPOINT"]

  const MissingUrlsMessage: string := "Missing required environment variable: DOCUMENT_SAS_URLS"

  /** The first of `names` missing from the environment. */
  function FirstMissing(env: map<string, string>, names: seq<string>): (r: Option<string>)
    ensures r.None? <==> forall i :: 0 <= i < |names| ==> names[i] in env
    ensures r.Some? ==> r.value in names && r.value !in env
  {
    if |names| == 0 then None
    else if names[0] !in env then Some(names[0])
    else FirstMissing(env, names[1..])
  }

  /** `process_doc()`: the documents added to the vector store, one batch per URL in
      DOCUMENT_SAS_URLS (split on ","). Each URL is read as given and recorded cut at
      its first "?". */
  function ProcessDocuments(env: map<string, string>, read: string -> seq<Chunk>): (r: Result<seq<seq<Doc>>>)
    ensures ("DOCUMENT_SAS_URLS" !in env || env["DOCUMENT_SAS_URLS"] == "") ==>
      r == Err(KeyError(MissingUrlsMessage))
    ensures r.Ok? ==>
      && "DOCUMENT_SAS_URLS" in env
      && var urls := Split(env["DOCUMENT_SAS_URLS"], ',');
      && |r.value| == |urls|
      && forall i :: 0 <= i < |urls| ==> r.value[i] == MakeDoc(BeforeFirst(urls[i], '?'), read(urls[i]))
    ensures r.Err? && r.error != KeyError(MissingUrlsMessage) ==>
      r.error.KeyError? && r.error.key in RequiredVars && r.error.key !in env
    ensures "DOCUMENT_SAS_URLS" in env && env["DOCUMENT_SAS_URLS"] != "" ==>
      (r.Ok? <==> forall i :: 0 <= i < |RequiredVars| ==> RequiredVars[i] in env)
    ensures "DOCUMENT_SAS_URLS" in env && env["DOCUMENT_SAS_URLS"] != "" && FirstMissing(env, RequiredVars).Some? ==>
      r == Err(KeyError(FirstMissing(env, RequiredVars).value))
  {
    if "DOCUMENT_SAS_URLS" !in env || env["DOCUMENT_SAS_URLS"] == "" then Err(KeyError(MissingUrlsMessage))
    else
      var missing := FirstMissing(env, RequiredVars);
      if missing.Some? then Err(KeyError(missing.value))
      else
        var urls := Split(env["DOCUMENT_SAS_URLS"], ',');
        Ok(seq(|urls|, i requires 0 <= i < |urls| => MakeDoc(BeforeFirst(urls[i], '?'), read(urls[i]))))
  }

  /** Every stored source and document name is free of "?", and the document name is
      what `get_current_doc` derives from the same URL, so the evaluators' exact-name
      filter can find the document the user has open. */
  lemma IngestNamesMatchProxy(env: map<string, string>, read: string -> seq<Chunk>)
    requires ProcessDocuments(env, read).Ok?
    ensures var batches := ProcessDocuments(env, read).value;
      var urls := Split(env["DOCUMENT_SAS_URLS"], ',');
      forall i, j :: 0 <= i < |batches| && 0 <= j < |batches[i]| ==>
        && '?' !in batches[i][j].metadata.source
        && '?' !in batches[i][j].metadata.docName && '/' !in batches[i][j].metadata.docName
        && batches[i][j].metadata.docName == UserProxy.GetCurrentDoc(Some(Some(urls[i]))).value
        && ',' !in batches[i][j].metadata.source
  {
    var batches: seq<seq<Doc>> := ProcessDocuments(env, read).value;
    var urls := Split(env["DOCUMENT_SAS_URLS"], ',');
    forall i, j | 0 <= i < |batches| && 0 <= j < |batches[i]|
      ensures '?' !in batches[i][j].metadata.source
      ensures '?' !in batches[i][j].metadata.docName && '/' !in batches[i][j].metadata.docName
      ensures batches[i][j].metadata.docName == UserProxy.GetCurrentDoc(Some(Some(urls[i]))).value
      ensures ',' !in batches[i][j].metadata.source
    {
      StoredNameFacts(urls[i]);
      var cut := BeforeFirst(urls[i], '?');
      assert batches[i] == MakeDoc(cut, read(urls[i]));
    }
  }

  /** What the ingest stores for one URL without ",": a source cut before the first
      "?", and as name its last "/" segment, which is `get_current_doc`'s name. */
  lemma StoredNameFacts(url: string)
    requires ',' !in url
    ensures var cut := BeforeFirst(url, '?');
      var name := AfterLast(cut, '/');
      && '?' !in cut && ',' !in cut
      && '?' !in name && '/' !in name
      && name == UserProxy.GetCurrentDoc(Some(Some(url))).value
  {
    var cut := BeforeFirst(url, '?');
    BeforeFirstIsPrefix(url, '?');
    assert forall k :: 0 <= k < |cut| ==> cut[k] == url[k];
    var name := AfterLast(cut, '/');
    AfterLastIsSuffix(cut, '/');
    assert forall k :: 0 <= k < |name| ==> name[k] == cut[|cut| - |name| + k];
  }
}

=== FILE: scg_handler.dfy ===
/** The security-classification-guide expert: the `SCGAgent` wrapper and the
    `scg_analyst` node. The LLM, the graph store and the retrieval chain are
    parameters. */
module ScgHandler {
  import opened Wrappers
  import opened AgentState

  /** Handles of the injected language model and vector store. */
  type Llm = nat
  type Store = nat

  /** The chain `{context: store retriever, question} | prompt | llm | parser`. */
  datatype Chain = Chain(retriever: Store, llm: Llm)

  /** An agent object; `chain` is None until `build` has run. */
  datatype ScgAgent = ScgAgent(llm: Llm, store: Store, chain: Option<Chain>)

  /** The constructor: stores both handles, then builds the chain. */
  function NewScgAgent(llm: Llm, store: Store): (a: ScgAgent)
    ensures a.llm == llm && a.store == store
    ensures a.chain == Some(Chain(store, llm))
  {
    var unbuilt := ScgAgent(llm, store, None);
    unbuilt.(chain := Some(Chain(unbuilt.store, unbuilt.llm)))
  }

  /** `invoke_chain(query)`: an assistant message with the chain's answer. The
      `chain` property of an agent whose chain was never built only logs a warning
      and yields None, so invoking it fails on `None.ainvoke`. */
  function InvokeChain(a: ScgAgent, query: string, run: (Chain, string) -> string, msgId: string)
    : (r: Result<Message>)
    ensures r.Ok? <==> a.chain.Some?
    ensures r.Ok? ==> r.value == Message(msgId, Assistant, run(a.chain.value, query))
    ensures r.Err? ==> r.error == AttributeError("ainvoke")
  {
    if a.chain.None? then Err(AttributeError("ainvoke"))
    else Ok(Message(msgId, Assistant, run(a.chain.value, query)))
  }

  /** An agent from the constructor can always be invoked, on the given store. */
  lemma ConstructedAgentInvokes(llm: Llm, store: Store, query: string, run: (Chain, string) -> string, msgId: string)
    ensures InvokeChain(NewScgAgent(llm, store), query, run, msgId)
      == Ok(Message(msgId, Assistant, run(Chain(store, llm), query)))
  {
  }

  /** `scg_analyst`: the query is `last_user_message.content`, which only a message
      record has; a plain string, including the channel's initial "", has no
      `.content`. The node returns its whole `State` input with the answer appended
      to `messages` and `next_agent` set to "user_proxy". */
  function ScgAnalyst(s: GraphState, llm: Llm, store: Store, run: (Chain, string) -> string, msgId: string)
    : (r: Result<Update>)
    ensures r.Ok? <==> s.lastUserMessage.Msg?
    ensures s.lastUserMessage.Text? ==> r == Err(AttributeError("content"))
    ensures r.Ok? ==>
      && r.value.messages == s.messages + [Message(msgId, Assistant,
           run(Chain(store, llm), s.lastUserMessage.message.content))]
      && r.value.nextAgent == Some("user_proxy")
  {
    if s.lastUserMessage.Text? then Err(AttributeError("content"))
    else
      match InvokeChain(NewScgAgent(llm, store), s.lastUserMessage.message.content, run, msgId)
      case Err(e) => Err(e)
      case Ok(reply) => Ok(StateView(s).(messages := s.messages + [reply], nextAgent := Some("user_proxy")))
  }

  /** Merged, the analyst adds exactly one assistant message and sets `next_agent`;
      every other channel keeps its value except `logs`, which the whole-state return
      appends to itself. */
  lemma ScgAnalystMerged(s: GraphState, llm: Llm, store: Store, run: (Chain, string) -> string, msgId: string)
    requires s.lastUserMessage.Msg?
    requires UniqueIds(s.messages)
    requires forall i :: 0 <= i < |s.messages| ==> s.messages[i].id != msgId
    ensures var t := Merge(s, ScgAnalyst(s, llm, store, run, msgId).value);
      && |t.messages| == |s.messages| + 1
      && t.messages[..|s.messages|] == s.messages
      && t.messages[|s.messages|].role == Assistant
      && t == s.(messages := t.messages, nextAgent := "user_proxy", logs := s.logs + s.logs)
  {
    var reply := Message(msgId, Assistant, run(Chain(store, llm), s.lastUserMessage.message.content));
    AddMessagesExtend(s.messages, reply);
  }
}

=== FILE: seqs.dfy ===
/** Two facts about sequence concatenation that the solver does not find cheaply on
    its own. */
module Seqs {

  /** Concatenation is associative. */
  lemma AppendAssoc<T>(p: seq<T>, q: seq<T>, r: seq<T>)
    ensures (p + q) + r == p + (q + r)
  {
    forall i | 0 <= i < |p| + |q| + |r| ensures ((p + q) + r)[i] == (p + (q + r))[i] {
      if i < |p| {
      } else if i < |p| + |q| {
        assert ((p + q) + r)[i] == q[i - |p|];
      } else {
        assert ((p + q) + r)[i] == r[i - |p| - |q|];
      }
    }
  }

  /** Prepending an element commutes with appending a sequence. */
  lemma ConsAppend<T>(x: T, p: seq<T>, q: seq<T>)
    ensures [x] + (p + q) == ([x] + p) + q
  {
    forall i | 0 <= i < 1 + |p| + |q| ensures ([x] + (p + q))[i] == (([x] + p) + q)[i] {
      if i == 0 {
      } else if i <= |p| {
        assert ([x] + (p + q))[i] == p[i - 1];
      } else {
        assert ([x] + (p + q))[i] == q[i - 1 - |p|];
      }
    }
  }
}

=== FILE: strings.dfy ===
/** Python's `str.split` with a one-character separator and `str.join`,
    the two string operations the agents use to cut URLs and build prompts. */
module Strings {
  import opened Seqs

  /** `s.split(sep)`: the pieces between occurrences of `sep`, never fewer than one
      (`"".split("?") == [""]`). */
  function Split(s: string, sep: char): (parts: seq<string>)
    ensures |parts| >= 1
    ensures forall i :: 0 <= i < |parts| ==> sep !in parts[i]
    ensures |parts| > 1 <==> sep in s
    decreases |s|
  {
    if |s| == 0 then [""]
    else
      var rest := Split(s[1..], sep);
      if s[0] == sep then [""] + rest
      else [[s[0]] + rest[0]] + rest[1..]
  }

  /** `sep.join(parts)`. */
  function Join(parts: seq<string>, sep: string): string
    decreases |parts|
  {
    if |parts| == 0 then ""
    else if |parts| == 1 then parts[0]
    else parts[0] + sep + Join(parts[1..], sep)
  }

  /** `s.split(sep)[0]`: the text before the first `sep`. */
  function BeforeFirst(s: string, sep: char): string {
    Split(s, sep)[0]
  }

  /** `s.split(sep)[-1]`: the text after the last `sep`. */
  function AfterLast(s: string, sep: char): string {
    var parts := Split(s, sep);
    parts[|parts| - 1]
  }

  /** Joining the pieces again gives back the original string. */
  lemma {:induction false} JoinSplit(s: string, sep: char)
    ensures Join(Split(s, sep), [sep]) == s
    decreases |s|
  {
    if |s| > 0 {
      var rest := Split(s[1..], sep);
      JoinSplit(s[1..], sep);
      if s[0] == sep {
        assert Split(s, sep) == [""] + rest;
        assert ([""] + rest)[1..] == rest;
        assert s == [sep] + s[1..];
      } else {
        JoinConsFirst(s[0], rest, [sep]);
        assert s == [s[0]] + s[1..];
      }
    }
  }

  /** Prepending one character to the first piece prepends it to the joined string. */
  lemma JoinConsFirst(c: char, parts: seq<string>, sep: string)
    requires |parts| >= 1
    ensures Join([[c] + parts[0]] + parts[1..], sep) == [c] + Join(parts, sep)
  {
    var ps := [[c] + parts[0]] + parts[1..];
    assert ps[1..] == parts[1..];
  }

  /** A string without the separator splits into itself. */
  lemma {:induction false} SplitWithoutSep(s: string, sep: char)
    requires sep !in s
    ensures Split(s, sep) == [s]
    decreases |s|
  {
    if |s| > 0 {
      assert sep !in s[1..] by {
        forall i | 0 <= i < |s[1..]| ensures s[1..][i] != sep {
          assert s[1..][i] == s[i + 1];
        }
      }
      SplitWithoutSep(s[1..], sep);
      assert s == [s[0]] + s[1..];
    }
  }

  /** Splitting at a separator splits the two sides independently. */
  lemma {:induction false} SplitAround(a: string, b: string, sep: char)
    ensures Split(a + [sep] + b, sep) == Split(a, sep) + Split(b, sep)
    decreases |a|
  {
    var s := a + [sep] + b;
    if |a| == 0 {
      assert s == [sep] + b;
      SplitStepSep(s, sep);
      assert s[1..] == b;
    } else {
      assert s[1..] == a[1..] + [sep] + b;
      SplitAround(a[1..], b, sep);
      SplitAroundStep(a, b, sep);
    }
  }

  /** The inductive step of `SplitAround`, given its claim for `a[1..]`. */
  lemma SplitAroundStep(a: string, b: string, sep: char)
    requires |a| > 0
    requires Split(a[1..] + [sep] + b, sep) == Split(a[1..], sep) + Split(b, sep)
    ensures Split(a + [sep] + b, sep) == Split(a, sep) + Split(b, sep)
  {
    var s := a + [sep] + b;
    assert s[1..] == a[1..] + [sep] + b;
    assert s[0] == a[0];
    if a[0] != sep {
      ConsStep(s, a, sep, Split(a[1..], sep), Split(b, sep));
    } else {
      SepStep(s, a, sep, Split(a[1..], sep), Split(b, sep));
    }
  }

  /** `SplitAroundStep` when the first character is not the separator. */
  lemma ConsStep(s: string, a: string, sep: char, ra: seq<string>, rb: seq<string>)
    requires |s| > 0 && |a| > 0 && s[0] == a[0] && a[0] != sep
    requires Split(a[1..], sep) == ra && Split(s[1..], sep) == ra + rb
    ensures Split(s, sep) == Split(a, sep) + rb
  {
    SplitStep(a, sep);
    SplitStep(s, sep);
    ConsFirstAppend([a[0]], ra, rb);
  }

  /** `SplitAroundStep` when the first character is the separator. */
  lemma SepStep(s: string, a: string, sep: char, ra: seq<string>, rb: seq<string>)
    requires |s| > 0 && |a| > 0 && s[0] == sep && a[0] == sep
    requires Split(a[1..], sep) == ra && Split(s[1..], sep) == ra + rb
    ensures Split(s, sep) == Split(a, sep) + rb
  {
    SplitStepSep(a, sep);
    SplitStepSep(s, sep);
    ConsAppend("", ra, rb);
  }

  /** Extending the first piece commutes with appending further pieces. */
  lemma ConsFirstAppend(pre: string, ra: seq<string>, rb: seq<string>)
    requires |ra| > 0
    ensures [pre + (ra + rb)[0]] + (ra + rb)[1..] == ([pre + ra[0]] + ra[1..]) + rb
  {
    assert (ra + rb)[0] == ra[0];
    assert (ra + rb)[1..] == ra[1..] + rb;
  }

  /** One unfolding of `Split` at a first character that is the separator. */
  lemma SplitStepSep(s: string, sep: char)
    requires |s| > 0 && s[0] == sep
    ensures Split(s, sep) == [""] + Split(s[1..], sep)
  {
  }

  /** One unfolding of `Split` at a first character that is not the separator. */
  lemma SplitStep(s: string, sep: char)
    requires |s| > 0 && s[0] != sep
    ensures Split(s, sep) == [[s[0]] + Split(s[1..], sep)[0]] + Split(s[1..], sep)[1..]
  {
  }

  /** Splitting a join of separator-free pieces gives the pieces back. */
  lemma {:induction false} SplitJoin(parts: seq<string>, sep: char)
    requires |parts| >= 1
    requires forall i :: 0 <= i < |parts| ==> sep !in parts[i]
    ensures Split(Join(parts, [sep]), sep) == parts
    decreases |parts|
  {
    if |parts| == 1 {
      SplitWithoutSep(parts[0], sep);
    } else {
      var rest := parts[1..];
      var j := Join(rest, [sep]);
      assert Split(j, sep) == rest by {
        assert forall i :: 0 <= i < |rest| ==> rest[i] == parts[i + 1];
        SplitJoin(rest, sep);
      }
      assert Join(parts, [sep]) == parts[0] + [sep] + j;
      assert Split(parts[0] + [sep] + j, sep) == [parts[0]] + rest by {
        SplitAround(parts[0], j, sep);
        SplitWithoutSep(parts[0], sep);
      }
      assert parts == [parts[0]] + rest;
    }
  }

  /** The text before the first separator is a separator-free prefix, cut exactly at
      the first separator when there is one. */
  lemma {:induction false} BeforeFirstIsPrefix(s: string, sep: char)
    ensures |BeforeFirst(s, sep)| <= |s|
    ensures BeforeFirst(s, sep) == s[..|BeforeFirst(s, sep)|]
    ensures sep !in BeforeFirst(s, sep)
    ensures sep in s ==> s[|BeforeFirst(s, sep)|] == sep
    ensures sep !in s ==> BeforeFirst(s, sep) == s
    decreases |s|
  {
    if sep !in s {
      SplitWithoutSep(s, sep);
    } else if s[0] != sep {
      BeforeFirstIsPrefix(s[1..], sep);
      assert sep in s[1..] by {
        var i :| 0 <= i < |s| && s[i] == sep;
        assert s[1..][i - 1] == sep;
      }
    }
  }

  /** The text after the last separator is a separator-free suffix, preceded by the
      separator when there is one. */
  lemma {:induction false} AfterLastIsSuffix(s: string, sep: char)
    ensures |AfterLast(s, sep)| <= |s|
    ensures AfterLast(s, sep) == s[|s| - |AfterLast(s, sep)|..]
    ensures sep !in AfterLast(s, sep)
    ensures sep in s ==> s[|s| - |AfterLast(s, sep)| - 1] == sep
    ensures sep !in s ==> AfterLast(s, sep) == s
    decreases |s|
  {
    if sep !in s {
      SplitWithoutSep(s, sep);
    } else if s[0] == sep && sep !in s[1..] {
      SplitWithoutSep(s[1..], sep);
    } else {
      assert sep in s[1..] by {
        if s[0] != sep {
          var i :| 0 <= i < |s| && s[i] == sep;
          assert s[1..][i - 1] == sep;
        }
      }
      AfterLastIsSuffix(s[1..], sep);
    }
  }
}

=== FILE: user_proxy.dfy ===
/** The proxy router node and `get_current_doc`, which names the document the user
    last opened. The router chain is a parameter. */
module UserProxy {
  import opened Wrappers
  import opened Strings
  import opened AgentState
  import Graph

  /** `url.split("?")[0].split("/")[-1]`: the last path segment of the URL without
      its query string. */
  function DocName(url: string): string {
    AfterLast(BeforeFirst(url, '?'), '/')
  }

  /** `get_current_doc()` given the newest row of `UserFileInteractions`: `None` when
      the table is empty, otherwise that row's `file_url`. Indexing the empty result
      of the query raises IndexError. */
  function GetCurrentDoc(latest: Option<Option<string>>): (r: Result<string>)
    ensures r.Err? <==> latest.None?
    ensures r.Err? ==> r.error == IndexError
    ensures latest.Some? && latest.value.None? ==> r == Ok("")
    ensures latest.Some? && latest.value.Some? ==> r == Ok(DocName(latest.value.value))
    ensures r.Ok? ==> '?' !in r.value && '/' !in r.value
  {
    if latest.None? then Err(IndexError)
    else if latest.value.None? then Ok("")
    else
      var url := latest.value.value;
      BeforeFirstIsPrefix(url, '?');
      AfterLastIsSuffix(BeforeFirst(url, '?'), '/');
      Ok(DocName(url))
  }

  /** The name is the tail of the URL's part before "?", cut right after its last "/"
      (or the whole part when it has none). */
  lemma DocNameIsLastSegment(url: string)
    ensures var before := BeforeFirst(url, '?');
      var name := DocName(url);
      && |before| <= |url| && before == url[..|before|]
      && |name| <= |before| && name == before[|before| - |name|..]
      && ('/' in before ==> before[|before| - |name| - 1] == '/')
      && ('/' !in before ==> name == before)
  {
    BeforeFirstIsPrefix(url, '?');
    AfterLastIsSuffix(BeforeFirst(url, '?'), '/');
  }

  /** The extraction is idempotent and maps "" to "". */
  lemma DocNameIdempotent(url: string)
    ensures DocName(DocName(url)) == DocName(url)
    ensures DocName("") == ""
  {
    var name := GetCurrentDoc(Some(Some(url))).value;
    SplitWithoutSep(name, '?');
    SplitWithoutSep(name, '/');
  }

  /** The router's structured reply. */
  datatype RouterReply = RouterReply(response: string, nextAgent: string, selectedDocument: Option<string>)

  /** `user_proxy`: the router sees the message history and the current document's
      name, which its chain looks up on every call; the node echoes the last input
      message, adds the reply, and routes. With no file interaction recorded the
      lookup raises IndexError, and so does an empty history, which has no last
      message. */
  function UserProxyNode(s: GraphState, latest: Option<Option<string>>, route: (seq<Message>, string) -> RouterReply,
                         msgId: string): (r: Result<Update>)
    ensures r.Err? <==> latest.None? || |s.messages| == 0
    ensures r.Err? ==> r.error == IndexError
    ensures r.Ok? ==>
      var reply := route(s.messages, GetCurrentDoc(latest).value);
      && r.value.lastUserMessage == Some(Msg(s.messages[|s.messages| - 1]))
      && |r.value.messages| == 1 && r.value.messages[0].role == Assistant
      && r.value.messages[0].content == reply.response
      && r.value.nextAgent == Some(reply.nextAgent)
      && r.value.ctxDoc == Some(if reply.selectedDocument.None? then NoDoc else Doc(reply.selectedDocument.value))
      && r.value.logs == [] && r.value.analysis == []
      && r.value.datasets.None? && r.value.task.None?
  {
    match GetCurrentDoc(latest)
    case Err(e) => Err(e)
    case Ok(doc) =>
      var reply := route(s.messages, doc);
      if |s.messages| == 0 then Err(IndexError)
      else Ok(Update(
        [Message(msgId, Assistant, reply.response)],
        Some(Msg(s.messages[|s.messages| - 1])),
        Some(reply.nextAgent),
        Some(if reply.selectedDocument.None? then NoDoc else Doc(reply.selectedDocument.value)),
        [], [], None, None))
  }

  /** Merged, the proxy's update appends its reply, keeps the logs and the analysis,
      and the next hop is the routing table's entry for the router's label (or a
      lookup failure for a label outside the table). */
  lemma UserProxyMerged(s: GraphState, latest: Option<Option<string>>, route: (seq<Message>, string) -> RouterReply,
                        msgId: string)
    requires latest.Some? && |s.messages| > 0
    requires forall i :: 0 <= i < |s.messages| ==> s.messages[i].id != msgId
    ensures var reply := route(s.messages, GetCurrentDoc(latest).value);
      var t := Merge(s, UserProxyNode(s, latest, route, msgId).value);
      && t.messages == s.messages + [Message(msgId, Assistant, reply.response)]
      && t.logs == s.logs && t.analysis == s.analysis
      && t.datasets == s.datasets && t.task == s.task
      && (reply.nextAgent in Graph.ProxyRoutes ==>
            Graph.Route(Graph.UserProxy, t) == Ok([Graph.ProxyRoutes[reply.nextAgent]]))
      && (reply.nextAgent !in Graph.ProxyRoutes ==>
            Graph.Route(Graph.UserProxy, t) == Err(KeyError(reply.nextAgent)))
  {
    AddMessageFresh(s.messages, Message(msgId, Assistant, route(s.messages, GetCurrentDoc(latest).value).response));
  }
}

=== FILE: wrappers.dfy ===
/** Failure-carrying values shared by every module of the model.
    `PyError` names the Python exception a modelled operation raises. */
module Wrappers {

  datatype Option<+T> = None | Some(value: T) {
    function GetOr(default: T): T {
      match this
      case Some(v) => v
      case None => default
    }
  }

  /** The Python exceptions the modelled code can raise. */
  datatype PyError =
    | KeyError(key: string)
    | ValueError(message: string)
    | NotImplementedError(message: string)
    | IndexError
    | AttributeError(name: string)
    | InvalidOperation(message: string)
    | InvalidUpdateError(channel: string)

  datatype Result<+T> = Ok(value: T) | Err(error: PyError) {
    predicate IsFailure() {
      Err?
    }

    function PropagateFailure<U>(): Result<U>
      requires Err?
    {
      Err(error)
    }

    function Extract(): T
      requires Ok?
    {
      value
    }
  }
}
